=== FILE: README.md ===
# dynomite, modelled in Dafny

dynomite maps Rust values to DynamoDB items. This project models its core:

- **The attribute codec.** It covers the `Attribute` impls of the standard types (`into_attr` / `from_attr`), the `FromAttributes` impls of string-keyed maps, and the `attr_map!` macro.
- **The entity mapper.** It models the `Into<Attributes>`, `FromAttributes` and `Item` impls that `#[derive(Item)]`, `#[derive(Attributes)]` and `#[derive(Attribute)]` generate, including the `rename`, `flatten`, `default` and `skip_serializing_if` directives and the `{Name}Key` projection.
- **Directive parsing.** This is the `#[dynomite(...)]` tables and their refusals.
- **The error taxonomy.** These are the three `AttributeError` kinds and their display texts.

The wire value is rusoto's `AttributeValue`. It is a record of ten optional fields, not a closed union (`Wire.AttributeValue`). Each decoder reads only its own field.

The codec is one type-directed interpreter, `Codec.Encode` / `Codec.Decode`, driven by a type descriptor `Schema.Ty`. It works over native values `Schema.Val`. A derived struct is a `TRecord` with an ordered field list, so an `Item` nested in another value goes through the same interpreter under `m`.

Decoding a field list returns the decoded values together with the residual map. That residual map is what `flatten` and the trailing `Attributes` remainder consume.

The derives are modelled as functions from a declaration to a schema or a refusal (`Derive.ExpandItem`, `Derive.ExpandAttr`, `Derive.ValidateTags`).

The assertions of the repository's tests are restated as lemmas:

- `DerivedTests` covers `dynomite/tests/derived.rs`;
- `SkipTests` covers `dynomite/tests/integration/skip_serializing_if.rs`;
- `DeriveExamples` covers the compile-fail declarations under `dynomite/trybuild-tests`.

Where a test picks one value, the lemma is stated for all values of that shape where possible.

## Modules

| module | file | what it holds |
|---|---|---|
| `Base` | base.dfy | `Option`, `Result`, `Distinct`, and a ghost enumeration of a finite set |
| `Errors` | errors.dfy | `AttributeError` and its display text |
| `Numbers` | numbers.dfy | the six integer kinds, `to_string` (`ToDecimal`) and `str::parse` (`Parse`) |
| `Wire` | wire.dfy | `AttributeValue`, `Attributes`, and the field a decoder reads (`Slot`) |
| `Schema` | schema.dfy | type descriptors, field lists with their directives, values, conformance and well-formedness |
| `AttrMaps` | attr_map.dfy | `attr_map!` |
| `Codec` | codec.dfy | `into_attr` / `from_attr` for every type, and the derived record encoding and decoding |
| `CodecProps` | codec_props.dfy | round trips and per-type decoding behaviour |
| `MapperProps` | mapper_props.dfy | properties of the derived field-list encoding: order, flatten, remainder, default, unknown keys |
| `Keys` | keys.dfy | key markers, `key()` and the `{Name}Key` struct |
| `Directives` | directives.dfy | `#[dynomite(...)]` entry parsing and the field, enum and variant tables |
| `Derive` | derive.dfy | building a field list from declarations, the derive entry points, variant tag uniqueness |
| `DeriveExamples` | derive_examples.dfy | the Recipe declaration and the compile-fail declarations |
| `DerivedTests` | derived_tests.dfy | the schemas and tests of derived.rs |
| `SkipTests` | skip_tests.dfy | the Blackjack/Gamer schema and `smoke_test` |

## Model

| member | source | states |
|---|---|---|
| Errors.Display | dynomite/src/error.rs:5-17 | A display text begins with "Missing field " exactly when the error is `MissingField`, and the rest of that text is the field name. The other two kinds read "Invalid format" and "Invalid type". |
| Errors.DisplayInjective | dynomite/src/error.rs:22-41 | Two errors with the same display text are the same error, name included. |
| Numbers.ToDecimal | dynomite/src/lib.rs:431-436 | An integer's decimal text is non-empty. It starts with '-' exactly when the integer is negative, and otherwise is all digits. |
| Numbers.Parse | dynomite/src/lib.rs:437-442 | Text is accepted only when non-empty and only with a value inside the target kind's range. |
| Numbers.ParseToDecimal | dynomite/src/lib.rs:428-445 | For each of u16, i16, u32, i32, u64 and i64, every in-range value parses back from its decimal text (numbers round-trip through `n`). |
| Numbers.ToDecimalInjective | dynomite/src/lib.rs:431-436 | Distinct integers have distinct decimal texts. |
| Numbers.ParseRefuses | dynomite/src/lib.rs:437-442 | For every integer kind: empty text, a lone sign, a '-' for an unsigned kind, a character other than a digit after the optional sign, and digits whose signed value lies outside the kind's range are all refused. |
| Numbers.ParseAccepts | dynomite/src/lib.rs:437-442 | For every integer kind and every non-empty digit string, with or without leading zeros: the digits, and the digits after '+', parse to their value when it is in range; after '-' they parse to its negation when the kind is signed and that is in range, as Rust's integer parsing does. |
| Numbers.ParseRejects | dynomite/src/lib.rs:437-442 | Examples: "abc" and "-1" as u32, "65536" as u16, "-" as i32 and "" as u32 are refused. |
| Numbers.ParseAcceptsSignAndLeadingZeros | dynomite/src/lib.rs:437-442 | Examples: "+7" as u32 parses to 7 and "-007" as i16 parses to -7. |
| AttrMaps.AttrMap | dynomite/src/lib.rs:534-552 | The map's keys are exactly the keys listed. |
| AttrMaps.LastWins | dynomite/src/lib.rs:534-552 | A key holds the value of its last occurrence in the list. |
| AttrMaps.DistinctKeysKept | dynomite/src/lib.rs:534-552 | With distinct keys, every listed pair is in the map. |
| AttrMaps.RepeatedKey | dynomite/src/lib.rs:545-547 | A key given twice keeps only the later value. |
| AttrMaps.TwoKeys | dynomite/src/lib.rs:534-552 | Two pairs with distinct keys build the two-entry map. |
| Codec.NumberTexts | dynomite/src/lib.rs:451-456 | A number set is written as one decimal text per member, each member's own. |
| Codec.EncodeScalar | dynomite/src/lib.rs:284-385 | A string, bool, binary, number, set or enum value is written in exactly the one field its type uses, and nothing else is set. (The raw `Attributes` map as a plain value is the assumption named under "## Left out".) |
| Codec.Encode | dynomite/src/lib.rs:218-265 | Every value is written only in its type's field: `m` for maps and items, `l` for lists, and so on. That field is present for every type except `Option`, whose `None` sets nothing. |
| Codec.EncodeList | dynomite/src/lib.rs:395-401 | A list encodes to one element per item. |
| Codec.EncodeFields | dynomite-derive/src/lib.rs:163-183 | A record's map has no key outside the names its fields claim (absent a remainder field). When no skip predicate fires on any field inside the values, it has every claimed name. |
| Codec.EncodeField | dynomite-derive/src/lib.rs:166-174 | One field's entries use only the names it claims, and all of them when nothing is skipped. |
| Codec.DecodeScalar | dynomite/src/lib.rs:284-385 | The result is InvalidType exactly when the type's own field is absent. InvalidFormat only happens with that field present. A success conforms to the type. |
| Codec.Decode | dynomite/src/lib.rs:402-426 | A success conforms to the type. A non-option type whose field is absent gives InvalidType, and InvalidFormat only happens with the field present. An `Option` never reports InvalidType. |
| Codec.DecodeList | dynomite/src/lib.rs:402-409 | A successful list decode has one conforming value per element. |
| Codec.DecodeFields | dynomite-derive/src/lib.rs:206-227 | The decoded values conform to the field list. The residual map is a sub-map of the input without any claimed name, and is exactly input minus claimed names when there is no remainder field. |
| Codec.DecodeField | dynomite-derive/src/lib.rs:210-218 | One field's decode removes exactly the names it claims and leaves the other entries untouched. |
| CodecProps.RoundTrip | dynomite/src/lib.rs:175-180 | `from_attr(into_attr(v)) == Ok(v)` for every well-formed type and every conforming value. This includes lists, options, maps, sets, numbers, unit enums and nested items, when no skip predicate fires on a field inside that value (`CodecProps.NothingSkipped`). Under a predicate that never fires this holds for every conforming value (`CodecProps.NeverSkipsNothing`). |
| CodecProps.MapRoundTrip | dynomite/src/lib.rs:234-265 | A string-keyed map round-trips through `m` when no skip predicate fires inside any of its values. |
| CodecProps.NumberSetDecode | dynomite/src/lib.rs:457-464 | Decoding `ns` succeeds exactly when every listed text parses, to the set of the parsed values. Otherwise it fails with InvalidFormat. |
| CodecProps.NumberTextsParse | dynomite/src/lib.rs:451-461 | Each member's text parses back to that member. |
| CodecProps.ParsedSet | dynomite/src/lib.rs:457-463 | The values parsed from the texts form the set the texts were written from. |
| CodecProps.NumberTextsDecode | dynomite/src/lib.rs:457-463 | Parseable texts decode to the number set of their values. |
| CodecProps.NumberSetRoundTrip | dynomite/src/lib.rs:447-467 | A number set, in any enumeration order, decodes back to itself. |
| CodecProps.ListRoundTrip | dynomite/src/lib.rs:395-410 | A list decodes back to itself, order and duplicates kept, when no skip predicate fires inside any item. |
| CodecProps.FieldsRoundTrip | dynomite-derive/src/lib.rs:163-227 | A field list decodes its own encoding from any map that agrees with that encoding on the claimed names, leaving the unclaimed rest, when no skip predicate fires on these values. |
| CodecProps.RecordRoundTrip | dynomite-derive/src/lib.rs:16-36 | A derived record's map has exactly the claimed names and `from_attrs(into(x))` returns `x` with nothing left over, when no skip predicate fires on `x`. |
| CodecProps.FieldRoundTrip | dynomite-derive/src/lib.rs:210-218 | One field decodes its own entries back from any agreeing map when its own and its nested skip predicates do not fire. |
| CodecProps.NeverSkipsNothing | dynomite-derive/src/lib.rs:166-174 | A skip predicate that never fires skips no field inside any conforming value, so the round trips above hold for every value under it. |
| CodecProps.DecodeReadsOnlySlot | dynomite/src/lib.rs:292-294 | Two wire values that agree on a type's field decode identically as that type. Decoders ignore the other nine fields. |
| CodecProps.ReadAsOtherType | dynomite/src/lib.rs:369-371 | A value read as a non-option type stored in another field gives InvalidType. |
| CodecProps.OptionCodec | dynomite/src/lib.rs:412-426 | `None` encodes with no field set and `Some(x)` encodes exactly as `x`. Decoding gives `None` exactly on the inner InvalidType, `Some(x)` exactly when the inner decode gives `x`, and any other inner error unchanged. |
| CodecProps.NestedOptionCollapses | dynomite/src/lib.rs:412-418 | `Some(None)` and `None` of `Option<Option<String>>` encode to the same value. |
| CodecProps.OptionSwallowsNestedTypeError | dynomite/src/lib.rs:419-424 | An element type error deep inside an optional list decodes as `None`, not as an error. |
| CodecProps.EncodeListElements | dynomite/src/lib.rs:396-400 | Element i of the encoded list is the encoding of item i. |
| CodecProps.DecodeListElements | dynomite/src/lib.rs:402-409 | A list decodes exactly when every element decodes, and element i of the result is element i decoded. |
| CodecProps.DecodeListFirstError | dynomite/src/lib.rs:402-409 | A failed list decode reports the error of the first failing element. |
| CodecProps.EncodeMapEntries | dynomite/src/lib.rs:236-242 | A map's `m` has the same keys, each value encoded. |
| CodecProps.DecodeMapEntries | dynomite/src/lib.rs:191-216 | A map decodes exactly when every value decodes, to the same keys with each value decoded. A failure is the error of some failing entry. |
| CodecProps.DecodeSetMembers | dynomite/src/lib.rs:312-359 | String and binary sets decode to the set of listed members, so duplicates collapse. |
| CodecProps.NumberDecode | dynomite/src/lib.rs:437-442 | For every integer kind and attribute value: a missing `n` is InvalidType; otherwise decoding yields a number exactly when `parse` accepts the text, and that number is the parsed value; a refused text is InvalidFormat. |
| CodecProps.DecodeNumberCases | dynomite/src/lib.rs:437-442 | Examples: "abc" as u32, "65536" as u16 and "-1" as u32 are InvalidFormat; a u32 stored under `s` is InvalidType; "+7" as u32 and "-007" as i16 decode to 7 and -7. |
| CodecProps.UnitEnumCodec | dynomite-derive/src/lib.rs:119-124 | A unit enum decodes exactly when `s` names a variant. Any other name gives InvalidFormat. |
| MapperProps.EncodeFieldsAppend | dynomite-derive/src/lib.rs:166-180 | The map of a concatenated field list is the union of the parts' maps, with the later fields winning. |
| MapperProps.DecodeFieldsAppend | dynomite-derive/src/lib.rs:210-224 | Decoding a concatenated field list decodes the first part, then the second from what is left. The first error wins. |
| MapperProps.EncodeFieldsAt | dynomite-derive/src/lib.rs:166-174 | A plain field's wire name holds its encoded value, unless its skip predicate fires, in which case the name is absent. |
| MapperProps.EncodeFieldsSplice | dynomite-derive/src/attr.rs:39-40 | Each claimed name in a record's map comes from the one field that claims it. A flattened field's entries are spliced in unchanged. |
| MapperProps.DecodeFailsAt | dynomite-derive/src/lib.rs:213-216 | An absent wire name with no usable default gives `MissingField` with that name. A present value that fails gives that value's error. |
| MapperProps.DefaultOnlyWhenAbsent | dynomite-derive/src/attr.rs:27-28 | A `default` field takes its type's default only when its name is absent, and a present value must decode. |
| MapperProps.UnclaimedKeysIgnored | dynomite-derive/src/lib.rs:210-224 | Extra unclaimed keys do not change a record's decode and are passed through in the residual map. |
| MapperProps.UnclaimedKeysIgnoredByField | dynomite-derive/src/lib.rs:213-216 | The same holds for one field. |
| MapperProps.LoneRemainder | dynomite/tests/derived.rs:68-69 | A lone flattened `Attributes` field encodes as its own map and captures the whole input. |
| MapperProps.RemainderCapture | dynomite/tests/derived.rs:60-75 | A trailing remainder captures exactly the entries the fields before it did not claim. |
| MapperProps.RemainderRoundTrip | dynomite/tests/derived.rs:60-70 | A record with a trailing remainder round-trips when the remainder's keys are not claimed by the other fields and no skip predicate fires on the other fields' values. |
| Keys.FieldWithMarker | dynomite-derive/src/lib.rs:292-303 | The marked field is found when exactly one field carries the marker. The result is none when no field does, and an error naming the marker exactly when two fields do. |
| Keys.KeyPositions | dynomite-derive/src/lib.rs:256-281 | Key positions are found only when a partition key exists, and the sort key is present exactly when a field is marked. No key is produced exactly when no field is a partition key. A repeated marker is refused. |
| Keys.StripDirectives | dynomite-derive/src/lib.rs:333-341 | A key field keeps its name, wire name and type and loses every other marker. |
| Keys.KeyFields | dynomite-derive/src/lib.rs:328-351 | The key struct has the partition field and, when present, the sort field, in that order, markers stripped. |
| Keys.KeyValues | dynomite-derive/src/lib.rs:308-321 | The key struct takes the current values of those fields. |
| Keys.KeyOf | dynomite-derive/src/lib.rs:256-281 | `key()` holds exactly the partition key's name and, when present, the sort key's name. |
| Keys.KeyIsKeyStructEncoding | dynomite/tests/derived.rs:92-99 | `key()` equals the encoding of the `{Name}Key` struct built from the same values. |
| Keys.KeyIsRestrictedEncoding | dynomite-derive/src/lib.rs:308-321 | Every entry of `key()` is the entry of the full item's map under the same name. |
| Keys.KeyFieldsWellFormed | dynomite-derive/src/lib.rs:328-351 | The key struct is a well-formed record claiming exactly the key names. |
| Keys.KeyStructRoundTrip | dynomite-derive/src/lib.rs:28-35 | The `{Name}Key` struct round-trips whenever no skip predicate fires on the key values. |
| Directives.Lookup | dynomite-derive/src/attr.rs:125-127 | Lookup finds an entry under the key when one exists, and finds nothing exactly when no entry has that key. |
| Directives.ParseEntry | dynomite-derive/src/attr.rs:156-171 | An entry reads as a key with an optional literal, and a parenthesised entry is refused. |
| Directives.ParseAll | dynomite-derive/src/attr.rs:98-110 | A directive list parses exactly when every entry does, to the entries' kinds in order. |
| Directives.ParseAttrCases | dynomite-derive/src/attr.rs:98-153 | For any table, a parenthesised entry is refused. A literal-taking key needs `= "lit"` and its constructor's acceptance. A bare key must have no literal. Any other key is unknown. |
| Directives.FieldTableKeys | dynomite-derive/src/attr.rs:47-60 | The field table has exactly `rename` and `skip_serializing_if` with a value, and `default`, `partition_key`, `sort_key` and `flatten` without. |
| Directives.FieldDirectives | dynomite-derive/src/attr.rs:47-60 | A field entry is accepted exactly in its six well-formed shapes, each misuse gets its own refusal, and a non-path skip literal is refused. |
| Directives.FieldDirectiveKinds | dynomite-derive/src/attr.rs:25-45 | Each accepted field entry parses to the directive its key names. |
| Directives.EnumAndVariantDirectives | dynomite-derive/src/attr.rs:62-83 | An enum accepts only `tag = "..."` and a variant only `rename = "..."`. Field keys are unknown there. |
| Directives.IdentIsPath | dynomite-derive/src/attr.rs:50-52 | A plain identifier is a path. |
| Directives.TwoSegmentPath | dynomite-derive/src/attr.rs:50-52 | `a::b` with identifiers a and b is a path. |
| Directives.PathsAccepted | dynomite/tests/integration/skip_serializing_if.rs:8-24 | `is_zero`, `str::is_empty` and `String::is_empty` are paths. |
| Directives.PathsRejected | dynomite/trybuild-tests/fail/incorrect-fn-path-in-skip-serializing-if.rs:3-19 | "true", "2 + 2" and "\|\| true" are not paths. |
| Derive.FirstRename | dynomite-derive/src/attr.rs:30-31 | The rename is the first `rename` directive's literal, and there is none exactly when no `rename` is given. |
| Derive.FirstSkip | dynomite-derive/src/attr.rs:42-44 | The skip predicate is the first `skip_serializing_if` path, and there is none exactly when none is given. |
| Derive.CheckField | dynomite-derive/src/attr.rs:26-44 | Given the parsed directives, a field is plain exactly when `flatten` is absent. It then keeps its type, is stored under the first `rename` (else its identifier), has `default`, `partition_key` and `sort_key` set exactly when given, and is skipped by the first `skip_serializing_if` path. It is flattened exactly when `flatten` is its only directive and its type is a derived struct or an `Attributes` map. Otherwise `flatten` with `default` is refused with its own error, with any other directive as non-exclusive, and on any other type as not flattenable. |
| Derive.FieldMeaning | dynomite-derive/src/attr.rs:26-59 | The same, read off the directive entries as written. Any entry that does not parse refuses the field. The wire name is the literal of the first `rename` entry, each flag is set exactly when its key is written, and the skip path is the literal of the first `skip_serializing_if` entry. |
| Derive.BuildFields | dynomite/trybuild-tests/dynomite-unknown-attr.rs:3-9 | A field list builds exactly when every field does, in order. Otherwise it reports the first failing field's error. |
| Derive.ExpandItem | dynomite-derive/src/lib.rs:130-137 | `derive(Item)` is refused on anything but a struct. It propagates field and key errors, and otherwise yields the fields and a valid key spec. |
| Derive.ExpandAttributes | dynomite/trybuild-tests/fail/non-unique-fat-enum-tags.rs:3-13 | `derive(Attributes)` refuses a tuple or unit struct. For a struct with named fields it succeeds exactly when every field builds; the result then lists one built field per declared field, in declaration order and under the same identifiers. Otherwise it reports the first failing field's error. For an enum it succeeds exactly when the enum's and the variants' directives parse and the variant tags are distinct, and then yields those tags; otherwise it gives the tag check's refusal. |
| Derive.ExpandAttr | dynomite-derive/src/lib.rs:66-72 | `derive(Attribute)` is refused on anything but an enum, and yields a unit enum with the variants' names in order. |
| Derive.VariantTags | dynomite-derive/src/attr.rs:75-83 | Each variant's tag is its `rename` or its name, in order, once every variant's directives parse. |
| Derive.FirstDuplicate | dynomite/trybuild-tests/fail/non-unique-fat-enum-tags.rs:3-10 | No duplicate is found exactly when the tags are distinct, and a reported tag occurs twice. |
| Derive.ValidateTags | dynomite/trybuild-tests/fail/non-unique-fat-enum-tags.rs:3-10 | An enum's tags are accepted exactly when distinct. Otherwise the refusal names a tag two variants share. |
| DeriveExamples.AttributesDuplicateTag | dynomite/trybuild-tests/fail/non-unique-fat-enum-tags.rs:3-10 | `derive(Attributes)` on the test's enum is refused only for the tag "Bar" that two variants share. |
| DeriveExamples.AttributesDistinctTags | dynomite/trybuild-tests/fail/non-unique-fat-enum-tags.rs:3-10 | Without the clashing rename, the same enum derives `Attributes` with tags "Bar" and "Bruh". |
| DeriveExamples.RecipeDirectives | dynomite/tests/derived.rs:34 | `partition_key, rename = "RecipeId"` parses to those two directives. |
| DeriveExamples.RecipeIdBuilt | dynomite/tests/derived.rs:34-35 | Recipe's id field is a partition key with wire name "RecipeId". |
| DeriveExamples.RecipeFieldsBuilt | dynomite/tests/derived.rs:32-37 | Recipe's declaration builds to its two fields. |
| DeriveExamples.RecipeExpands | dynomite/tests/derived.rs:32-37 | `derive(Item)` on Recipe yields its fields with id as partition key and no sort key. |
| DeriveExamples.DefaultWithFlattenRefused | dynomite/trybuild-tests/fail/default-with-flatten.rs:3-7 | `default, flatten` on one field is refused. |
| DeriveExamples.UnknownDirectiveRefused | dynomite/trybuild-tests/dynomite-unknown-attr.rs:3-9 | `#[dynomite(typo)]` refuses the derive as an unexpected directive. |
| DeriveExamples.SkipPathRefused | dynomite/trybuild-tests/fail/incorrect-fn-path-in-skip-serializing-if.rs:3-19 | The three non-path literals are refused as invalid paths. |
| DeriveExamples.DuplicateTagRefused | dynomite/trybuild-tests/fail/non-unique-fat-enum-tags.rs:3-10 | Renaming `Baz` to "Bar" clashes with `Bar`. |
| DeriveExamples.WrongDeclarationRefused | dynomite-derive/src/lib.rs:130-137 | `Item` on a tuple struct or enum and `Attribute` on a struct are refused. |
| DerivedTests.RecipeWellFormed | dynomite/tests/derived.rs:32-37 | Recipe's wire names are "RecipeId" and "servings". |
| DerivedTests.DerivedKey | dynomite/tests/derived.rs:92-99 | For every id and servings, `Recipe.key()` equals `RecipeKey{id}.into()`, the one entry "RecipeId". |
| DerivedTests.FieldRename | dynomite/tests/derived.rs:120-132 | For every Recipe, its map has "RecipeId" but not "id" and decodes back to it. |
| DerivedTests.BookWellFormed | dynomite/tests/derived.rs:24-30 | Book, with a unit-enum field and an optional list of Authors, is a well-formed record. |
| DerivedTests.ToAndFromBook | dynomite/tests/derived.rs:101-109 | For every title, a Book with the default category and no authors round-trips. |
| DerivedTests.DeriveAttr | dynomite/tests/derived.rs:111-118 | `Foo::Bar` round-trips through `into_attr` / `from_attr`. |
| DerivedTests.FlattenNames | dynomite/tests/derived.rs:39-58 | FlattenRoot claims exactly id, a, b and c, its nested flatten included. |
| DerivedTests.FlattenTest | dynomite/tests/derived.rs:134-153 | For every value, the map's keys are exactly id, a, b and c, with no "flat" or "flat_nested", and it decodes back. |
| DerivedTests.FlattenRoundTrip | dynomite/tests/derived.rs:134-153 | The same for every value that conforms to FlattenRoot's schema. |
| MapperProps.PrefixLeavesExtra | dynomite/tests/derived.rs:60-70 | Decoding a record's map with unclaimed entries added gives the record back and leaves exactly those entries, when no skip predicate fires on the record's values. |
| DerivedTests.RemainingPrefixFacts | dynomite/tests/derived.rs:60-75 | The fields before the remainder claim exactly a, b and c. HasC takes "c". |
| DerivedTests.AdditionalNames | dynomite/tests/derived.rs:77-84 | AdditionalPropsVerbatim's wire names are a to e. |
| DerivedTests.AdditionalEncoding | dynomite/tests/derived.rs:156-164 | Its map has exactly the keys a to e, each holding its field's encoding. |
| DerivedTests.PrefixDecodes | dynomite/tests/derived.rs:164-169 | a, b and the HasC collector decode from that map and leave exactly d and e. |
| DerivedTests.AdditionalProps | dynomite/tests/derived.rs:155-176 | For every value, RemainingPropsInMap decodes a, b and c and collects exactly d and e, not c, into its remainder. |
| SkipTests.SkipDirectiveBuilt | dynomite/tests/integration/skip_serializing_if.rs:8-9 | A field whose only directive is `skip_serializing_if = "path"` builds to a plain field with that predicate. |
| DeriveExamples.UndecoratedBuilt | dynomite/tests/integration/skip_serializing_if.rs:26 | A field with no directive builds to a plain field with none. |
| SkipTests.KeptEntry | dynomite-derive/src/attr.rs:42-44 | A field whose predicate does not fire yields its one entry. |
| SkipTests.SkippedEntry | dynomite-derive/src/attr.rs:42-44 | A field whose predicate fires yields no entry. |
| SkipTests.ExpectedMaps | dynomite/tests/integration/skip_serializing_if.rs:43-49 | The test's two `attr_map!` literals are the expected maps. |
| SkipTests.GamerSkips | dynomite/tests/integration/skip_serializing_if.rs:17-27 | The Gamer's empty name is left out, while surname "Fish" and the undecorated empty label are kept. |
| SkipTests.GamerNested | dynomite/tests/integration/skip_serializing_if.rs:10 | The nested Gamer is written under `m` with its own skip rules applied. |
| SkipTests.SmokeTest | dynomite/tests/integration/skip_serializing_if.rs:29-52 | The item's map equals the test's literal: exactly card and gamer, no deck, and no name inside gamer. |
| SkipTests.SkippedFieldNotRecovered | dynomite/tests/integration/skip_serializing_if.rs:3-11 | Reading that map back fails with `MissingField("deck")`, since a skipped field without `default` cannot be recovered. |

## Left out

- The `f32` / `f64` impls: floating-point text formatting is not modelled, so only the six integer kinds are.
- The `Uuid` impl (behind a feature flag): UUID text syntax is not modelled.
- The retry policy, the `DynamoDbExt` stream helpers and the rusoto client: these are I/O and concurrency around the codec.
- Derive.ExpandAttributes: the tagged-union (fat enum) codec of `derive(Attributes)` on enums is not modelled, because its generator is not part of this model; for an enum only the tag check is modelled (`Derive.ValidateTags`), and the result carries the tags. A tuple or unit struct is refused (`NotAStruct`), following the name of the trybuild test attributes-derived-unamed-fields-struct.rs; the generator's own refusal is not part of this model.
- Proc-macro token handling: declarations are modelled as data (`Derive.Decl`), and a refusal is a `DeriveError` instead of a compile error.
- The order in which a `HashSet` or `HashMap` is written out or read: a number set is written in an arbitrary enumeration (`Base.Enumerate`). When several entries of a map fail to decode, which entry's error is reported is unspecified (`CodecProps.DecodeMapEntries`).
- The `is_zero` / `is_empty` predicates and any other `skip_serializing_if` function: these are user code, so a skip predicate is a parameter (`Codec.SkipOracle`).
- MapperProps.DefaultOnlyWhenAbsent: covers only types whose default the library or the standard library defines (`Schema.DefaultOf`). A `Default` impl of a user struct or enum is user code and is not modelled, so for an absent `default` field of such a type the model reports `MissingField` where the program calls that impl.
- Test4 and Test5 of incorrect-fn-path-in-skip-serializing-if.rs: they are refused by the Rust type checker (wrong function signature), not by the derive.
- Directives.IsPath: accepts identifiers joined by `::`, with an optional leading `::`. `self`, `Self`, `super`, `crate` and `try` are accepted as segments in any position, as a path parser accepts them; where the compiler later allows them is not modelled. Generic arguments and raw identifiers are not modelled. Whitespace around a segment or around `::` (`" is_zero"`, `"a ::b"`) and identifiers with non-ASCII letters (`"is_zéro"`) are refused here, while the token-level path parse of dynomite-derive/src/attr.rs:51 accepts them.
- CodecProps.RoundTrip: requires a well-formed type. This excludes `Option<Option<T>>`, which does not round-trip in the code because `Some(None)` encodes like `None` (`CodecProps.NestedOptionCollapses`). It also excludes a remainder field inside a nested record.
- CodecProps.RoundTrip: requires that no skip predicate fires on a field inside the value being encoded (`CodecProps.NothingSkipped`). The same precondition, on the values involved, holds for `CodecProps.MapRoundTrip`, `CodecProps.ListRoundTrip`, `CodecProps.FieldsRoundTrip`, `CodecProps.RecordRoundTrip`, `CodecProps.FieldRoundTrip`, `MapperProps.RemainderRoundTrip`, `MapperProps.PrefixLeavesExtra` and `Keys.KeyStructRoundTrip`. A skipped field without `default` does not come back (`SkipTests.SkippedFieldNotRecovered`).
- Codec.EncodeScalar: a plain, non-flattened field of the raw `Attributes` type (`Schema.Ty.TAttrs`) is encoded as the map itself under `m` and decoded back unchanged, which assumes an identity `Attribute` impl for `AttributeValue`. dynomite/src/lib.rs:194-477 has no such impl, so there the program would not compile such a field; the model accepts it (`Derive.CheckField` builds it) rather than refusing it.
- Derive.FirstRename: the generator for `rename` is not part of this model, and the first `rename` of a field is assumed to win.
- Derive.FirstSkip: likewise the first `skip_serializing_if` of a field is assumed to give its predicate.
- Derive.EffectiveTag: likewise the first `rename` of an enum variant is assumed to give its tag; `Derive.VariantTags` rests on the same reading.
- Derive.CheckField: flatten combined with a directive other than `default` is refused as non-exclusive. The generator for `flatten` is not part of this model, and this reading follows the directive's documented meaning: the field is replaced by its subfields, so no other directive applies to it.
- Keys.KeyPositions: a field marked both `partition_key` and `sort_key` is refused, because the generated key struct would declare it twice.
- The `null` field of `AttributeValue`: no decoder reads it and no encoder sets it.
- The `#[hash]` / `#[range]` markers of the older generator are modelled by their successors, `partition_key` / `sort_key`. `key()` is keyed by the field's wire name, since the derived_key test requires the renamed partition key to appear under "RecipeId".
- `Option` decoding: in the code, an absent value decodes as `None` and any inner InvalidType becomes `None`, so there is no explicit `NULL` attribute. The model follows the code.
- The Blackjack and Gamer schemas are written as field lists. Their directives are covered by `SkipTests.SkipDirectiveBuilt` and `Directives.PathsAccepted` for every field shape they use, not by building the two declarations literally.

=== FILE: attr_map.dfy ===
/** The `attr_map!` macro (dynomite/src/lib.rs:534-552): a map built by
    inserting `key => value.into_attr()` pairs in the order written. The
    values are taken already encoded. */
module AttrMaps {
  import opened Wire

  /** The map after inserting every pair in order. */
  function AttrMap(entries: seq<(string, AttributeValue)>): (r: Attributes)
    ensures r.Keys == set i | 0 <= i < |entries| :: entries[i].0
    decreases |entries|
  {
    if |entries| == 0 then map[]
    else
      var n := |entries| - 1;
      var before := AttrMap(entries[..n]);
      assert forall i :: 0 <= i < n ==> entries[..n][i] == entries[i];
      before[entries[n].0 := entries[n].1]
  }

  /** A key maps to the value of its last pair: a repeated key keeps the
      value written last. */
  lemma {:induction false} LastWins(entries: seq<(string, AttributeValue)>, i: int)
    requires 0 <= i < |entries|
    requires forall j :: i < j < |entries| ==> entries[j].0 != entries[i].0
    ensures entries[i].0 in AttrMap(entries)
    ensures AttrMap(entries)[entries[i].0] == entries[i].1
    decreases |entries|
  {
    var n := |entries| - 1;
    if i < n {
      LastWins(entries[..n], i);
      assert entries[..n][i] == entries[i];
    }
  }

  /** The map of a sequence of pairs with distinct keys holds every pair. */
  lemma DistinctKeysKept(entries: seq<(string, AttributeValue)>)
    requires forall i, j :: 0 <= i < j < |entries| ==> entries[i].0 != entries[j].0
    ensures forall i :: 0 <= i < |entries| ==> AttrMap(entries)[entries[i].0] == entries[i].1
  {
    forall i | 0 <= i < |entries| ensures AttrMap(entries)[entries[i].0] == entries[i].1 {
      LastWins(entries, i);
    }
  }

  /** `attr_map!{"k" => 1, "k" => 2}` holds only the second value. */
  lemma RepeatedKey(k: string, a: AttributeValue, b: AttributeValue)
    ensures AttrMap([(k, a), (k, b)]) == map[k := b]
  {
    var e := [(k, a), (k, b)];
    assert e[..1][..0] == [];
    assert AttrMap(e[..1]) == map[k := a];
  }

  /** `attr_map!` with two different keys holds both pairs. */
  lemma TwoKeys(k1: string, a: AttributeValue, k2: string, b: AttributeValue)
    requires k1 != k2
    ensures AttrMap([(k1, a), (k2, b)]) == map[k1 := a, k2 := b]
  {
    var e := [(k1, a), (k2, b)];
    assert e[..1][..0] == [];
    assert AttrMap(e[..1]) == map[k1 := a];
  }
}

=== FILE: base.dfy ===
/** Option and Result wrappers, and small sequence helpers shared by the model. */
module Base {

  /** Rust's `Option<T>`. */
  datatype Option<+T> = None | Some(value: T)

  /** Rust's `Result<T, E>`, usable with `:-`. */
  datatype Result<+T, +E> = Ok(value: T) | Err(error: E) {
    predicate IsFailure() {
      Err?
    }

    function PropagateFailure<U>(): Result<U, E>
      requires Err?
    {
      Err(error)
    }

    function Extract(): T
      requires Ok?
    {
      value
    }
  }

  /** No element occurs twice. */
  ghost predicate Distinct<T>(s: seq<T>) {
    forall i, j :: 0 <= i < |s| && 0 <= j < |s| && i != j ==> s[i] != s[j]
  }

  /** A concatenation is duplicate-free exactly when both parts are and they share nothing. */
  lemma DistinctConcat<T>(a: seq<T>, b: seq<T>)
    ensures Distinct(a + b) <==>
      Distinct(a) && Distinct(b) && forall i, j :: 0 <= i < |a| && 0 <= j < |b| ==> a[i] != b[j]
  {
    var c := a + b;
    if Distinct(a) && Distinct(b) && forall i, j :: 0 <= i < |a| && 0 <= j < |b| ==> a[i] != b[j] {
      forall i, j | 0 <= i < |c| && 0 <= j < |c| && i != j
        ensures c[i] != c[j]
      {
        if i < |a| && j >= |a| {
          assert c[j] == b[j - |a|];
        } else if i >= |a| && j < |a| {
          assert c[i] == b[i - |a|];
        }
      }
    }
    if Distinct(c) {
      forall i, j | 0 <= i < |a| && 0 <= j < |a| && i != j
        ensures a[i] != a[j]
      {
        assert a[i] == c[i] && a[j] == c[j];
      }
      forall i, j | 0 <= i < |b| && 0 <= j < |b| && i != j
        ensures b[i] != b[j]
      {
        assert b[i] == c[|a| + i] && b[j] == c[|a| + j];
      }
      forall i, j | 0 <= i < |a| && 0 <= j < |b|
        ensures a[i] != b[j]
      {
        assert a[i] == c[i] && b[j] == c[|a| + j];
      }
    }
  }

  /** Some duplicate-free enumeration of a finite set, in an unspecified order
      (the iteration order of a Rust `HashSet`). */
  ghost function Enumerate<T(!new)>(s: set<T>): (r: seq<T>)
    ensures |r| == |s|
    ensures forall x :: x in s <==> x in r
    ensures Distinct(r)
    decreases s
  {
    if s == {} then []
    else
      var x :| x in s;
      var rest := Enumerate(s - {x});
      [x] + rest
  }
}

=== FILE: codec.dfy ===
/** The `Attribute` impls of the standard types (dynomite/src/lib.rs) and the
    derived `Into<Attributes>` / `FromAttributes` impls of records, as one
    type-directed interpreter. Records live here too because an `Item` nested
    in another value is encoded under `m` through its own `from_attrs`.

    Encoding is ghost because Rust's `HashSet` and `HashMap` iterate in an
    unspecified order: a set is written out in some enumeration of it, and
    when several map entries fail to decode, some one entry's error is returned. */
module Codec {
  import opened Base
  import opened Errors
  import opened Wire
  import opened Numbers
  import opened Schema

  /** Decides, for the path written in `skip_serializing_if = "path"` and the
      field's value, whether the entry is left out. The named predicate is
      user code, so it is a parameter. */
  type SkipOracle = (string, Val) -> bool

  ghost predicate NeverSkips(skip: SkipOracle) {
    forall path, v :: !skip(path, v)
  }

  /** The field of a plain field's entry is left out of the encoded map. */
  predicate Skipped(f: Field, v: Val, skip: SkipOracle)
    requires f.Plain?
  {
    f.opts.skipIf.Some? && skip(f.opts.skipIf.value, v)
  }

  /** No skip predicate fires anywhere inside `v`: not on a field of a
      record it holds, nor on one of a nested or flattened record. */
  ghost predicate NothingSkipped(t: Ty, v: Val, skip: SkipOracle)
    requires Conforms(v, t)
    decreases TySize(t), 0
  {
    match t
    case TList(e) => forall i :: 0 <= i < |v.items| ==> NothingSkipped(e, v.items[i], skip)
    case TOption(i) => v.opt.Some? ==> NothingSkipped(i, v.opt.value, skip)
    case TMap(e) => forall k :: k in v.entries ==> NothingSkipped(e, v.entries[k], skip)
    case TRecord(fs) => FieldsNothingSkipped(fs, v.fields, skip)
    case _ => true
  }

  ghost predicate FieldsNothingSkipped(fs: seq<Field>, vs: seq<Val>, skip: SkipOracle)
    requires FieldsConform(fs, vs)
    decreases FieldsSize(fs), 1
  {
    |fs| > 0 ==>
      assert FieldsSize(fs) == FieldSize(fs[0]) + FieldsSize(fs[1..]);
      FieldNothingSkipped(fs[0], vs[0], skip) && FieldsNothingSkipped(fs[1..], vs[1..], skip)
  }

  ghost predicate FieldNothingSkipped(f: Field, v: Val, skip: SkipOracle)
    requires FieldConforms(f, v)
    decreases FieldSize(f), 0
  {
    match f
    case Plain(_, _, ty) => !Skipped(f, v, skip) && NothingSkipped(ty, v, skip)
    case Flat(_, FlatRecord(sub)) => FieldsNothingSkipped(sub, v.fields, skip)
    case Flat(_, FlatRest) => true
  }

  /** Each number as its decimal text, in order. */
  function NumberTexts(xs: seq<int>): (r: seq<string>)
    ensures |r| == |xs|
    ensures forall i :: 0 <= i < |xs| ==> r[i] == ToDecimal(xs[i])
  {
    seq(|xs|, i requires 0 <= i < |xs| => ToDecimal(xs[i]))
  }

  /** The types whose values hold no other value. */
  predicate Scalar(t: Ty) {
    !(t.TList? || t.TOption? || t.TMap? || t.TRecord?)
  }

  /** `into_attr` of a scalar type. */
  ghost function EncodeScalar(t: Ty, v: Val): (av: AttributeValue)
    requires Scalar(t) && Conforms(v, t)
    ensures OnlyAt(av, SlotOf(t)) && Present(av, SlotOf(t))
  {
    assert Empty.isNull.None?;
    match t
    case TString => Empty.(s := Some(v.str))
    case TBool => Empty.(boolean := Some(v.flag))
    case TBinary => Empty.(b := Some(v.bytes))
    case TInt(_) => Empty.(n := Some(ToDecimal(v.num)))
    case TStringSet => Empty.(ss := Some(Enumerate(v.strs)))
    case TBinarySet => Empty.(bs := Some(Enumerate(v.blobs)))
    case TNumberSet(_) => Empty.(ns := Some(NumberTexts(Enumerate(v.nums))))
    case TUnitEnum(_) => Empty.(s := Some(v.name))
    case TAttrs => Empty.(m := Some(v.attrs))
  }

  /** `into_attr`: total, and sets exactly the field that `from_attr` reads
      (`None` sets no field at all). */
  ghost function Encode(t: Ty, v: Val, skip: SkipOracle): (av: AttributeValue)
    requires Conforms(v, t)
    ensures OnlyAt(av, SlotOf(t))
    ensures !t.TOption? ==> Present(av, SlotOf(t))
    decreases TySize(t), 0, 0
  {
    match t
    case TList(e) => Empty.(l := Some(EncodeList(e, v.items, skip)))
    case TOption(i) =>
      (match v.opt
       case Some(x) => Encode(i, x, skip)
       case None => Empty)
    case TMap(e) => Empty.(m := Some(map k | k in v.entries :: Encode(e, v.entries[k], skip)))
    case TRecord(fs) => Empty.(m := Some(EncodeFields(fs, v.fields, skip)))
    case _ => EncodeScalar(t, v)
  }

  /** The elements of a `Vec`, encoded one by one, in order. */
  ghost function EncodeList(e: Ty, items: seq<Val>, skip: SkipOracle): (r: seq<AttributeValue>)
    requires forall i :: 0 <= i < |items| ==> Conforms(items[i], e)
    ensures |r| == |items|
    decreases TySize(e), 1, |items|
  {
    if |items| == 0 then []
    else [Encode(e, items[0], skip)] + EncodeList(e, items[1..], skip)
  }

  /** The derived `From<Record> for Attributes`: fields in declaration order,
      a later entry overwriting an earlier one under the same key. */
  ghost function EncodeFields(fs: seq<Field>, vs: seq<Val>, skip: SkipOracle): (r: Attributes)
    requires FieldsConform(fs, vs)
    ensures !HasRest(fs) ==> r.Keys <= Claimed(fs)
    ensures FieldsNothingSkipped(fs, vs, skip) ==> Claimed(fs) <= r.Keys
    decreases FieldsSize(fs), 1, 0
  {
    if |fs| == 0 then map[]
    else
      assert FieldsSize(fs) == FieldSize(fs[0]) + FieldsSize(fs[1..]);
      ClaimedCons(fs);
      assert FieldConforms(fs[0], vs[0]) && FieldsConform(fs[1..], vs[1..]);
      EncodeField(fs[0], vs[0], skip) + EncodeFields(fs[1..], vs[1..], skip)
  }

  /** The entries one field contributes: a plain field its wire name (none if
      its skip predicate holds), a flattened record its own entries, a
      remainder map its entries verbatim. */
  ghost function EncodeField(f: Field, v: Val, skip: SkipOracle): (r: Attributes)
    requires FieldConforms(f, v)
    ensures !FieldHasRest(f) ==> r.Keys <= FieldClaimed(f)
    ensures FieldNothingSkipped(f, v, skip) ==> FieldClaimed(f) <= r.Keys
    decreases FieldSize(f), 0, 0
  {
    match f
    case Plain(_, _, ty) =>
      if Skipped(f, v, skip) then map[]
      else map[WireName(f) := Encode(ty, v, skip)]
    case Flat(_, FlatRecord(sub)) => EncodeFields(sub, v.fields, skip)
    case Flat(_, FlatRest) => v.attrs
  }

  /** `from_attr` of a scalar type. */
  ghost function DecodeScalar(t: Ty, av: AttributeValue): (r: Result<Val, AttributeError>)
    requires Scalar(t)
    ensures r.Ok? ==> Conforms(r.value, t)
    ensures !Present(av, SlotOf(t)) <==> r == Err(InvalidType)
    ensures r == Err(InvalidFormat) ==> Present(av, SlotOf(t))
  {
    match t
    case TString =>
      if av.s.Some? then Ok(VStr(av.s.value)) else Err(InvalidType)
    case TBool =>
      if av.boolean.Some? then Ok(VBool(av.boolean.value)) else Err(InvalidType)
    case TBinary =>
      if av.b.Some? then Ok(VBytes(av.b.value)) else Err(InvalidType)
    case TInt(k) =>
      if av.n.None? then Err(InvalidType)
      else
        (match Parse(k, av.n.value)
         case Some(x) => Ok(VInt(x))
         case None => Err(InvalidFormat))
    case TStringSet =>
      if av.ss.Some? then Ok(VStrSet(set x | x in av.ss.value)) else Err(InvalidType)
    case TBinarySet =>
      if av.bs.Some? then Ok(VBytesSet(set x | x in av.bs.value)) else Err(InvalidType)
    case TNumberSet(k) =>
      if av.ns.None? then Err(InvalidType)
      else
        var texts := av.ns.value;
        if forall i :: 0 <= i < |texts| ==> Parse(k, texts[i]).Some? then
          Ok(VIntSet(set i | 0 <= i < |texts| :: Parse(k, texts[i]).value))
        else Err(InvalidFormat)
    case TUnitEnum(names) =>
      if av.s.None? then Err(InvalidType)
      else if av.s.value in names then Ok(VVariant(av.s.value))
      else Err(InvalidFormat)
    case TAttrs =>
      if av.m.Some? then Ok(VAttrs(av.m.value)) else Err(InvalidType)
  }

  /** `from_attr`: reads only the field `SlotOf(t)`. An absent field is
      `InvalidType`; `InvalidFormat` only ever reports a field that is present. */
  ghost function Decode(t: Ty, av: AttributeValue): (r: Result<Val, AttributeError>)
    ensures r.Ok? ==> Conforms(r.value, t)
    ensures !t.TOption? && !Present(av, SlotOf(t)) ==> r == Err(InvalidType)
    ensures r == Err(InvalidFormat) ==> Present(av, SlotOf(t))
    ensures t.TOption? ==> r != Err(InvalidType)
    decreases TySize(t), 0, 0
  {
    match t
    case TList(e) =>
      if av.l.None? then Err(InvalidType)
      else
        var items :- DecodeList(e, av.l.value);
        Ok(VList(items))
    case TOption(i) =>
      (match Decode(i, av)
       case Ok(x) => Ok(VOpt(Some(x)))
       case Err(InvalidType) => Ok(VOpt(None))
       case Err(err) => Err(err))
    case TMap(e) =>
      if av.m.None? then Err(InvalidType)
      else
        var entries := av.m.value;
        if forall k :: k in entries ==> Decode(e, entries[k]).Ok? then
          Ok(VMap(map k | k in entries :: Decode(e, entries[k]).value))
        else
          var k :| k in entries && Decode(e, entries[k]).Err?;
          Err(Decode(e, entries[k]).error)
    case TRecord(fs) =>
      if av.m.None? then Err(InvalidType)
      else
        var decoded :- DecodeFields(fs, av.m.value);
        Ok(VRecord(decoded.0))
    case _ => DecodeScalar(t, av)
  }

  /** The elements of an `l`, decoded in order; the first failure is returned. */
  ghost function DecodeList(e: Ty, xs: seq<AttributeValue>): (r: Result<seq<Val>, AttributeError>)
    ensures r.Ok? ==> |r.value| == |xs|
    ensures r.Ok? ==> forall i :: 0 <= i < |xs| ==> Conforms(r.value[i], e)
    decreases TySize(e), 1, |xs|
  {
    if |xs| == 0 then Ok([])
    else
      var x :- Decode(e, xs[0]);
      var rest :- DecodeList(e, xs[1..]);
      Ok([x] + rest)
  }

  /** The derived `from_attrs`: fields in declaration order, each taking the
      keys it claims out of what the earlier fields left. Returns the values
      and the residual map; keys no field claims are ignored. */
  ghost function DecodeFields(fs: seq<Field>, attrs: Attributes): (r: Result<(seq<Val>, Attributes), AttributeError>)
    ensures r.Ok? ==> FieldsConform(fs, r.value.0)
    ensures r.Ok? ==> r.value.1.Keys <= attrs.Keys - Claimed(fs)
    ensures r.Ok? ==> forall k :: k in r.value.1 ==> r.value.1[k] == attrs[k]
    ensures r.Ok? && !HasRest(fs) ==> r.value.1 == attrs - Claimed(fs)
    decreases FieldsSize(fs), 1, 0
  {
    if |fs| == 0 then Ok(([], attrs))
    else
      assert FieldsSize(fs) == FieldSize(fs[0]) + FieldsSize(fs[1..]);
      ClaimedCons(fs);
      var head :- DecodeField(fs[0], attrs);
      var rest :- DecodeFields(fs[1..], head.1);
      Ok(([head.0] + rest.0, rest.1))
  }

  /** One field's value and what it leaves of the map. A plain field removes
      its wire name (absent: the type's default if the field is `default`,
      else `MissingField` with the wire name); a flattened record decodes
      from the map; a remainder map takes all of it. */
  ghost function DecodeField(f: Field, attrs: Attributes): (r: Result<(Val, Attributes), AttributeError>)
    ensures r.Ok? ==> FieldConforms(f, r.value.0)
    ensures r.Ok? ==> r.value.1.Keys <= attrs.Keys - FieldClaimed(f)
    ensures r.Ok? ==> forall k :: k in r.value.1 ==> r.value.1[k] == attrs[k]
    ensures r.Ok? && !FieldHasRest(f) ==> r.value.1 == attrs - FieldClaimed(f)
    decreases FieldSize(f), 0, 0
  {
    match f
    case Plain(_, opts, ty) =>
      var key := WireName(f);
      if key in attrs then
        var x :- Decode(ty, attrs[key]);
        Ok((x, attrs - {key}))
      else if opts.useDefault && DefaultOf(ty).Some? then
        Ok((DefaultOf(ty).value, attrs))
      else
        Err(MissingField(key))
    case Flat(_, FlatRecord(sub)) =>
      var inner :- DecodeFields(sub, attrs);
      Ok((VRecord(inner.0), inner.1))
    case Flat(_, FlatRest) =>
      Ok((VAttrs(attrs), map[]))
  }

  /** The keys the first field claims, followed by those of the rest. */
  lemma ClaimedCons(fs: seq<Field>)
    requires |fs| > 0
    ensures Names(fs) == FieldNames(fs[0]) + Names(fs[1..])
    ensures Claimed(fs) == FieldClaimed(fs[0]) + Claimed(fs[1..])
    ensures HasRest(fs) <==> FieldHasRest(fs[0]) || HasRest(fs[1..])
  {
  }
}

=== FILE: codec_props.dfy ===
/** What the codec promises: encoding then decoding gives the value back,
    each decoder looks only at its own field, and the `Option`, list, map and
    set rules of dynomite/src/lib.rs. */
module CodecProps {
  import opened Base
  import opened Errors
  import opened Wire
  import opened Numbers
  import opened Schema
  import opened Codec

  /** How a duplicate-free name list splits over its first field. */
  lemma NamesSplit(fs: seq<Field>)
    requires |fs| > 0 && Distinct(Names(fs))
    ensures Distinct(FieldNames(fs[0])) && Distinct(Names(fs[1..]))
    ensures FieldClaimed(fs[0]) !! Claimed(fs[1..])
  {
    ClaimedCons(fs);
    DistinctConcat(FieldNames(fs[0]), Names(fs[1..]));
  }

  /** `from_attr(into_attr(v)) == Ok(v)` for every schema without a nested
      option or remainder map, whenever no skip predicate fires inside `v`. */
  lemma {:induction false} RoundTrip(t: Ty, v: Val, skip: SkipOracle)
    requires WellFormed(t) && Conforms(v, t) && NothingSkipped(t, v, skip)
    ensures Decode(t, Encode(t, v, skip)) == Ok(v)
    decreases TySize(t), 0, 0
  {
    match t
    case TString =>
    case TBool =>
    case TBinary =>
    case TInt(k) =>
      ParseToDecimal(k, v.num);
    case TStringSet =>
      assert (set x | x in Enumerate(v.strs)) == v.strs;
    case TBinarySet =>
      assert (set x | x in Enumerate(v.blobs)) == v.blobs;
    case TNumberSet(k) =>
      NumberSetRoundTrip(k, v.nums);
    case TList(e) =>
      ListRoundTrip(e, v.items, skip);
    case TOption(i) =>
      if v.opt.Some? {
        RoundTrip(i, v.opt.value, skip);
      } else {
        assert !Present(Empty, SlotOf(i));
      }
    case TMap(e) =>
      MapRoundTrip(e, v.entries, skip);
    case TRecord(fs) =>
      var attrs := EncodeFields(fs, v.fields, skip);
      FieldsRoundTrip(fs, v.fields, skip, attrs);
      assert attrs - Claimed(fs) == map[];
    case TUnitEnum(_) =>
    case TAttrs =>
  }

  /** A string-keyed map decodes back entry by entry. */
  lemma {:induction false} MapRoundTrip(e: Ty, entries: map<string, Val>, skip: SkipOracle)
    requires WellFormed(e)
    requires forall k :: k in entries ==> Conforms(entries[k], e) && NothingSkipped(e, entries[k], skip)
    ensures Decode(TMap(e), Encode(TMap(e), VMap(entries), skip)) == Ok(VMap(entries))
    decreases TySize(e), 1, 0
  {
    var encoded := map k | k in entries :: Encode(e, entries[k], skip);
    assert Encode(TMap(e), VMap(entries), skip) == Empty.(m := Some(encoded));
    forall k | k in encoded ensures Decode(e, encoded[k]) == Ok(entries[k]) {
      RoundTrip(e, entries[k], skip);
    }
    MapDecodes(e, encoded, entries);
  }

  /** A map whose every entry decodes decodes to the map of decoded entries. */
  lemma MapDecodes(e: Ty, encoded: map<string, AttributeValue>, entries: map<string, Val>)
    requires encoded.Keys == entries.Keys
    requires forall k :: k in encoded ==> Decode(e, encoded[k]) == Ok(entries[k])
    ensures Decode(TMap(e), Empty.(m := Some(encoded))) == Ok(VMap(entries))
  {
    var av := Empty.(m := Some(encoded));
    assert av.m == Some(encoded);
    assert forall k :: k in encoded ==> Decode(e, encoded[k]).Ok?;
    var back := map k | k in encoded :: Decode(e, encoded[k]).value;
    assert back == entries;
  }

  /** A single number decodes to exactly the value `parse` gives its text;
      a text `parse` refuses is `InvalidFormat`, and a missing `n` is
      `InvalidType`. */
  lemma NumberDecode(k: IntKind, av: AttributeValue)
    ensures av.n.None? ==> Decode(TInt(k), av) == Err(InvalidType)
    ensures av.n.Some? ==> forall x :: Decode(TInt(k), av) == Ok(VInt(x)) <==> Parse(k, av.n.value) == Some(x)
    ensures av.n.Some? && Parse(k, av.n.value).None? ==> Decode(TInt(k), av) == Err(InvalidFormat)
  {
  }

  /** A number set decodes when every text parses, to the set of parsed
      values (duplicates collapse); one malformed text is `InvalidFormat`. */
  lemma NumberSetDecode(k: IntKind, av: AttributeValue)
    requires av.ns.Some?
    ensures var r := Decode(TNumberSet(k), av);
      && (r.Ok? <==> forall i :: 0 <= i < |av.ns.value| ==> Parse(k, av.ns.value[i]).Some?)
      && (r.Ok? ==> forall x :: x in r.value.nums <==>
            exists i :: 0 <= i < |av.ns.value| && Parse(k, av.ns.value[i]) == Some(x))
      && (r.Err? ==> r.error == InvalidFormat)
  {
  }

  /** Every printed number parses back to itself. */
  lemma NumberTextsParse(k: IntKind, xs: seq<int>)
    requires forall i :: 0 <= i < |xs| ==> InRange(k, xs[i])
    ensures forall i :: 0 <= i < |xs| ==> Parse(k, NumberTexts(xs)[i]) == Some(xs[i])
  {
    forall i | 0 <= i < |xs| ensures Parse(k, NumberTexts(xs)[i]) == Some(xs[i]) {
      ParseToDecimal(k, xs[i]);
    }
  }

  /** The set of parsed texts is the set of the numbers they print. */
  lemma ParsedSet(k: IntKind, xs: seq<int>, texts: seq<string>)
    requires |texts| == |xs|
    requires forall i :: 0 <= i < |xs| ==> Parse(k, texts[i]) == Some(xs[i])
    ensures (set i | 0 <= i < |texts| :: Parse(k, texts[i]).value) == (set x | x in xs)
  {
    var back := set i | 0 <= i < |texts| :: Parse(k, texts[i]).value;
    forall x | x in xs ensures x in back {
      var i :| 0 <= i < |xs| && xs[i] == x;
      assert Parse(k, texts[i]).value == x;
    }
  }

  /** Texts that all parse decode to the set of their values. */
  lemma NumberTextsDecode(k: IntKind, texts: seq<string>, nums: set<int>)
    requires forall i :: 0 <= i < |texts| ==> Parse(k, texts[i]).Some?
    requires (set i | 0 <= i < |texts| :: Parse(k, texts[i]).value) == nums
    ensures Decode(TNumberSet(k), Empty.(ns := Some(texts))) == Ok(VIntSet(nums))
  {
  }

  /** The members of a set's enumeration are the set. */
  lemma EnumeratedSet(nums: set<int>)
    ensures (set x | x in Enumerate(nums)) == nums
  {
  }

  /** Decoding the printed enumeration of a number set gives the set back. */
  lemma NumberSetRoundTrip(k: IntKind, nums: set<int>)
    requires forall x :: x in nums ==> InRange(k, x)
    ensures Decode(TNumberSet(k), Empty.(ns := Some(NumberTexts(Enumerate(nums))))) == Ok(VIntSet(nums))
  {
    var xs := Enumerate(nums);
    var texts := NumberTexts(xs);
    NumberTextsParse(k, xs);
    ParsedSet(k, xs, texts);
    EnumeratedSet(nums);
    NumberTextsDecode(k, texts, nums);
  }

  lemma {:induction false} ListRoundTrip(e: Ty, items: seq<Val>, skip: SkipOracle)
    requires WellFormed(e)
    requires forall i :: 0 <= i < |items| ==> Conforms(items[i], e) && NothingSkipped(e, items[i], skip)
    ensures DecodeList(e, EncodeList(e, items, skip)) == Ok(items)
    decreases TySize(e), 1, |items|
  {
    if |items| > 0 {
      var enc := EncodeList(e, items, skip);
      RoundTrip(e, items[0], skip);
      ListRoundTrip(e, items[1..], skip);
      assert enc[1..] == EncodeList(e, items[1..], skip);
      assert [items[0]] + items[1..] == items;
    }
  }

  /** The derived `from_attrs` undoes `into`: any map that agrees with the
      encoding on the keys the fields claim decodes to the field values, with
      exactly the unclaimed keys left over. */
  lemma {:induction false} FieldsRoundTrip(fs: seq<Field>, vs: seq<Val>, skip: SkipOracle, attrs: Attributes)
    requires FieldsWellFormed(fs) && !HasRest(fs) && Distinct(Names(fs))
    requires FieldsConform(fs, vs) && FieldsNothingSkipped(fs, vs, skip)
    requires forall k :: k in Claimed(fs) ==> k in attrs && attrs[k] == EncodeFields(fs, vs, skip)[k]
    ensures DecodeFields(fs, attrs) == Ok((vs, attrs - Claimed(fs)))
    decreases FieldsSize(fs), 1, 0
  {
    if |fs| == 0 {
      assert attrs - Claimed(fs) == attrs;
    } else {
      assert FieldsSize(fs) == FieldSize(fs[0]) + FieldsSize(fs[1..]);
      assert FieldConforms(fs[0], vs[0]) && FieldsConform(fs[1..], vs[1..]);
      assert FieldNothingSkipped(fs[0], vs[0], skip) && FieldsNothingSkipped(fs[1..], vs[1..], skip);
      ClaimedCons(fs);
      NamesSplit(fs);
      var tail, tvs := fs[1..], vs[1..];
      var headEnc := EncodeField(fs[0], vs[0], skip);
      var tailEnc := EncodeFields(tail, tvs, skip);
      assert EncodeFields(fs, vs, skip) == headEnc + tailEnc;
      forall k | k in FieldClaimed(fs[0]) ensures k in attrs && attrs[k] == headEnc[k] {
        assert k !in tailEnc;
      }
      FieldRoundTrip(fs[0], vs[0], skip, attrs);
      var rest := attrs - FieldClaimed(fs[0]);
      forall k | k in Claimed(tail) ensures k in rest && rest[k] == tailEnc[k] {
        assert k !in FieldClaimed(fs[0]);
      }
      FieldsRoundTrip(tail, tvs, skip, rest);
      assert rest - Claimed(tail) == attrs - Claimed(fs);
      assert [vs[0]] + tvs == vs;
      assert DecodeFields(fs, attrs) == Ok(([vs[0]] + tvs, rest - Claimed(tail)));
    }
  }

  /** A record's own encoding holds exactly the keys its fields claim and
      decodes back to its field values with nothing left over. */
  lemma RecordRoundTrip(fs: seq<Field>, vs: seq<Val>, skip: SkipOracle)
    requires RecordWellFormed(fs) && FieldsConform(fs, vs) && FieldsNothingSkipped(fs, vs, skip)
    ensures EncodeFields(fs, vs, skip).Keys == Claimed(fs)
    ensures DecodeFields(fs, EncodeFields(fs, vs, skip)) == Ok((vs, map[]))
  {
    var attrs := EncodeFields(fs, vs, skip);
    FieldsRoundTrip(fs, vs, skip, attrs);
    assert attrs - Claimed(fs) == map[];
  }

  lemma {:induction false} FieldRoundTrip(f: Field, v: Val, skip: SkipOracle, attrs: Attributes)
    requires FieldWellFormed(f) && !FieldHasRest(f) && Distinct(FieldNames(f))
    requires FieldConforms(f, v) && FieldNothingSkipped(f, v, skip)
    requires forall k :: k in FieldClaimed(f) ==> k in attrs && attrs[k] == EncodeField(f, v, skip)[k]
    ensures DecodeField(f, attrs) == Ok((v, attrs - FieldClaimed(f)))
    decreases FieldSize(f), 0, 0
  {
    match f
    case Plain(_, _, ty) =>
      var w := WireName(f);
      assert w in FieldClaimed(f);
      RoundTrip(ty, v, skip);
    case Flat(_, FlatRecord(sub)) =>
      FieldsRoundTrip(sub, v.fields, skip, attrs);
  }

  /** An oracle that never fires leaves every value whole. */
  lemma {:induction false} NeverSkipsNothing(t: Ty, v: Val, skip: SkipOracle)
    requires Conforms(v, t) && NeverSkips(skip)
    ensures NothingSkipped(t, v, skip)
    decreases TySize(t), 0
  {
    match t
    case TList(e) =>
      forall i | 0 <= i < |v.items| ensures NothingSkipped(e, v.items[i], skip) {
        NeverSkipsNothing(e, v.items[i], skip);
      }
    case TOption(i) =>
      if v.opt.Some? {
        NeverSkipsNothing(i, v.opt.value, skip);
      }
    case TMap(e) =>
      forall k | k in v.entries ensures NothingSkipped(e, v.entries[k], skip) {
        NeverSkipsNothing(e, v.entries[k], skip);
      }
    case TRecord(fs) =>
      NeverSkipsNothingInFields(fs, v.fields, skip);
    case _ =>
  }

  lemma {:induction false} NeverSkipsNothingInFields(fs: seq<Field>, vs: seq<Val>, skip: SkipOracle)
    requires FieldsConform(fs, vs) && NeverSkips(skip)
    ensures FieldsNothingSkipped(fs, vs, skip)
    decreases FieldsSize(fs), 1
  {
    if |fs| > 0 {
      assert FieldsSize(fs) == FieldSize(fs[0]) + FieldsSize(fs[1..]);
      assert FieldConforms(fs[0], vs[0]) && FieldsConform(fs[1..], vs[1..]);
      NeverSkipsNothingInField(fs[0], vs[0], skip);
      NeverSkipsNothingInFields(fs[1..], vs[1..], skip);
    }
  }

  lemma {:induction false} NeverSkipsNothingInField(f: Field, v: Val, skip: SkipOracle)
    requires FieldConforms(f, v) && NeverSkips(skip)
    ensures FieldNothingSkipped(f, v, skip)
    decreases FieldSize(f), 0
  {
    match f
    case Plain(_, _, ty) => NeverSkipsNothing(ty, v, skip);
    case Flat(_, FlatRecord(sub)) => NeverSkipsNothingInFields(sub, v.fields, skip);
    case Flat(_, FlatRest) =>
  }

  /** Each decoder reads only its own field of the AttributeValue: values
      that agree there decode alike, whatever else they carry. */
  lemma {:induction false} DecodeReadsOnlySlot(t: Ty, a1: AttributeValue, a2: AttributeValue)
    requires SameAt(a1, a2, SlotOf(t))
    ensures Decode(t, a1) == Decode(t, a2)
    decreases t
  {
    if t.TOption? {
      DecodeReadsOnlySlot(t.inner, a1, a2);
    }
  }

  /** A value written for one type and read as a type that expects a
      different field is `InvalidType`. */
  lemma ReadAsOtherType(t: Ty, u: Ty, v: Val, skip: SkipOracle)
    requires Conforms(v, t) && !u.TOption? && SlotOf(u) != SlotOf(t)
    ensures Decode(u, Encode(t, v, skip)) == Err(InvalidType)
  {
    OnlyAtExcludes(Encode(t, v, skip), SlotOf(t), SlotOf(u));
  }

  /** `Option<T>`: `None` sets no field at all and `Some(x)` is stored as `x`;
      on decoding, exactly an `InvalidType` from `T` becomes `None`, a value
      becomes `Some`, and any other error passes through. */
  lemma OptionCodec(t: Ty, av: AttributeValue, skip: SkipOracle)
    requires !t.TOption?
    ensures forall s :: !Present(Encode(TOption(t), VOpt(None), skip), s)
    ensures forall x :: Conforms(x, t) ==> Encode(TOption(t), VOpt(Some(x)), skip) == Encode(t, x, skip)
    ensures Decode(TOption(t), av) == Ok(VOpt(None)) <==> Decode(t, av) == Err(InvalidType)
    ensures forall x :: Decode(TOption(t), av) == Ok(VOpt(Some(x))) <==> Decode(t, av) == Ok(x)
    ensures forall e :: e != InvalidType ==> (Decode(TOption(t), av) == Err(e) <==> Decode(t, av) == Err(e))
    ensures !Present(av, SlotOf(t)) ==> Decode(TOption(t), av) == Ok(VOpt(None))
  {
  }

  /** `Option<Option<T>>` cannot round-trip: `Some(None)` and `None` are
      written identically. */
  lemma NestedOptionCollapses(skip: SkipOracle)
    ensures Encode(TOption(TOption(TString)), VOpt(Some(VOpt(None))), skip)
         == Encode(TOption(TOption(TString)), VOpt(None), skip)
  {
  }

  /** The `InvalidType` that `Option` turns into `None` may come from deep
      inside: a list of numbers holding a string element reads as `None`. */
  lemma OptionSwallowsNestedTypeError()
    ensures Decode(TOption(TList(TInt(U32))), Empty.(l := Some([Empty.(s := Some("x"))])))
         == Ok(VOpt(None))
  {
    var xs := [Empty.(s := Some("x"))];
    assert DecodeList(TInt(U32), xs) == Err(InvalidType) by {
      assert Decode(TInt(U32), xs[0]) == Err(InvalidType);
    }
  }

  /** `Vec` encoding keeps order and duplicates: element `i` of the list is
      the encoding of item `i`. */
  lemma {:induction false} EncodeListElements(e: Ty, items: seq<Val>, skip: SkipOracle)
    requires forall i :: 0 <= i < |items| ==> Conforms(items[i], e)
    ensures forall i :: 0 <= i < |items| ==> EncodeList(e, items, skip)[i] == Encode(e, items[i], skip)
    decreases |items|
  {
    if |items| > 0 {
      var tail := items[1..];
      assert forall i :: 0 <= i < |tail| ==> tail[i] == items[i + 1];
      EncodeListElements(e, tail, skip);
      var r, rt := EncodeList(e, items, skip), EncodeList(e, tail, skip);
      assert r == [Encode(e, items[0], skip)] + rt;
      forall i | 1 <= i < |items| ensures r[i] == Encode(e, items[i], skip) {
        assert r[i] == rt[i - 1];
      }
    }
  }

  /** `Vec` decoding succeeds exactly when every element decodes, giving the
      elements in order. */
  lemma {:induction false} DecodeListElements(e: Ty, xs: seq<AttributeValue>)
    ensures DecodeList(e, xs).Ok? <==> forall i :: 0 <= i < |xs| ==> Decode(e, xs[i]).Ok?
    ensures DecodeList(e, xs).Ok? ==>
      forall i :: 0 <= i < |xs| ==> DecodeList(e, xs).value[i] == Decode(e, xs[i]).value
    decreases |xs|
  {
    if |xs| > 0 {
      var r := DecodeList(e, xs);
      var tail := xs[1..];
      var rt := DecodeList(e, tail);
      DecodeListElements(e, tail);
      assert forall i :: 1 <= i < |xs| ==> xs[i] == tail[i - 1];
      if r.Ok? {
        assert r.value == [Decode(e, xs[0]).value] + rt.value;
        forall i | 1 <= i < |xs| ensures r.value[i] == Decode(e, xs[i]).value {
          assert r.value[i] == rt.value[i - 1];
        }
      }
    }
  }

  /** A failing `Vec` decode reports the error of the first element that fails. */
  lemma {:induction false} DecodeListFirstError(e: Ty, xs: seq<AttributeValue>)
    requires DecodeList(e, xs).Err?
    ensures exists i ::
      && 0 <= i < |xs|
      && Decode(e, xs[i]) == Err(DecodeList(e, xs).error)
      && forall j :: 0 <= j < i ==> Decode(e, xs[j]).Ok?
    decreases |xs|
  {
    var r := DecodeList(e, xs);
    var tail := xs[1..];
    if Decode(e, xs[0]).Ok? {
      assert DecodeList(e, tail) == Err(r.error);
      DecodeListFirstError(e, tail);
      var i :| 0 <= i < |tail| && Decode(e, tail[i]) == Err(r.error)
        && forall j :: 0 <= j < i ==> Decode(e, tail[j]).Ok?;
      assert xs[i + 1] == tail[i];
      forall j | 0 <= j < i + 1 ensures Decode(e, xs[j]).Ok? {
        if j > 0 {
          assert xs[j] == tail[j - 1];
        }
      }
    } else {
      assert Decode(e, xs[0]) == Err(r.error);
    }
  }

  /** `HashMap<String, A>`: the encoding has the same keys, each value
      encoded on its own. */
  lemma EncodeMapEntries(e: Ty, v: Val, skip: SkipOracle)
    requires Conforms(v, TMap(e))
    ensures Encode(TMap(e), v, skip).m.value.Keys == v.entries.Keys
    ensures forall k :: k in v.entries ==> Encode(TMap(e), v, skip).m.value[k] == Encode(e, v.entries[k], skip)
  {
  }

  /** Map decoding succeeds exactly when every entry decodes, keeping the
      keys; otherwise the error is that of some failing entry. */
  lemma DecodeMapEntries(e: Ty, av: AttributeValue)
    requires av.m.Some?
    ensures Decode(TMap(e), av).Ok? <==> forall k :: k in av.m.value ==> Decode(e, av.m.value[k]).Ok?
    ensures Decode(TMap(e), av).Ok? ==>
      && Decode(TMap(e), av).value.entries.Keys == av.m.value.Keys
      && forall k :: k in av.m.value ==> Decode(TMap(e), av).value.entries[k] == Decode(e, av.m.value[k]).value
    ensures Decode(TMap(e), av).Err? ==>
      exists k :: k in av.m.value && Decode(e, av.m.value[k]) == Err(Decode(TMap(e), av).error)
  {
  }

  /** Sets decode to the set of listed members: duplicates on the wire collapse. */
  lemma DecodeSetMembers(av: AttributeValue)
    ensures av.ss.Some? ==> Decode(TStringSet, av) == Ok(VStrSet(set x | x in av.ss.value))
    ensures av.bs.Some? ==> Decode(TBinarySet, av) == Ok(VBytesSet(set x | x in av.bs.value))
    ensures Decode(TStringSet, Empty.(ss := Some(["a", "a", "b"]))) == Ok(VStrSet({"a", "b"}))
  {
    var xs := ["a", "a", "b"];
    assert (set x | x in xs) == {"a", "b"};
  }

  /** Worked examples of `NumberDecode`: "abc" as u32, "65536" as u16 and
      "-1" as u32 are `InvalidFormat`; a u32 stored under `s` is
      `InvalidType`; "+7" as u32 and "-007" as i16 decode. */
  lemma DecodeNumberCases()
    ensures Decode(TInt(U32), Empty.(n := Some("abc"))) == Err(InvalidFormat)
    ensures Decode(TInt(U16), Empty.(n := Some("65536"))) == Err(InvalidFormat)
    ensures Decode(TInt(U32), Empty.(n := Some("-1"))) == Err(InvalidFormat)
    ensures Decode(TInt(U32), Empty.(s := Some("1"))) == Err(InvalidType)
    ensures Decode(TInt(U32), Empty.(n := Some("+7"))) == Ok(VInt(7))
    ensures Decode(TInt(I16), Empty.(n := Some("-007"))) == Ok(VInt(-7))
  {
    ParseRejects();
    ParseAcceptsSignAndLeadingZeros();
  }

  /** A unit enum is stored as its variant name under `s`; an unknown name is
      `InvalidFormat`. */
  lemma UnitEnumCodec(names: seq<string>, av: AttributeValue)
    requires av.s.Some?
    ensures Decode(TUnitEnum(names), av).Ok? <==> av.s.value in names
    ensures Decode(TUnitEnum(names), av).Err? ==> Decode(TUnitEnum(names), av).error == InvalidFormat
  {
  }
}

=== FILE: derive.dfy ===
/** What the derives make of a type declaration (dynomite-derive/src/lib.rs,
    extended with the directives of dynomite-derive/src/attr.rs): the field
    schema of a struct, the key positions of an `Item`, the variant list of a
    unit enum, and the tag table of a tagged enum. Declarations arrive already
    parsed: each field with its directive entries and its resolved type. */
module Derive {
  import opened Base
  import opened Schema
  import opened Directives
  import opened Keys

  /** A named struct field as declared. */
  datatype FieldDecl = FieldDecl(ident: string, attrs: seq<Meta>, ty: Ty)

  /** An enum variant as declared (its payload, if any, is not modelled). */
  datatype VariantDecl = VariantDecl(ident: string, attrs: seq<Meta>)

  datatype Decl =
    | StructDecl(name: string, fields: seq<FieldDecl>)
    /** A tuple or unit struct: no named fields. */
    | TupleStructDecl(name: string)
    | EnumDecl(name: string, attrs: seq<Meta>, variants: seq<VariantDecl>)

  /** What `#[derive(Item)]` generates: the field schema and, when a field is
      marked as partition key, the key positions for `key()` and `{Name}Key`. */
  datatype ItemSchema = ItemSchema(name: string, fields: seq<Field>, key: Option<KeySpec>)

  /** What `#[derive(Attributes)]` generates: the field schema of a struct, or
      the distinct variant tags of a tagged-union enum. */
  datatype AttributesSchema =
    | StructFields(fields: seq<Field>)
    | TaggedEnum(tags: seq<string>)

  /** The literal of the first `rename` among the directives. */
  function FirstRename(kinds: seq<FieldAttrKind>): (r: Option<string>)
    ensures r.None? <==> forall i :: 0 <= i < |kinds| ==> !kinds[i].Rename?
    ensures r.Some? ==> exists i ::
      && 0 <= i < |kinds|
      && kinds[i] == Rename(r.value)
      && (forall j :: 0 <= j < i ==> !kinds[j].Rename?)
    ensures forall i :: FirstOf(kinds, IsRename, i) ==> r == Some(kinds[i].name)
  {
    if |kinds| == 0 then None
    else if kinds[0].Rename? then Some(kinds[0].name)
    else
      var r := FirstRename(kinds[1..]);
      assert forall i :: 1 <= i < |kinds| ==> kinds[i] == kinds[1..][i - 1];
      assert forall i :: FirstOf(kinds, IsRename, i) ==> FirstOf(kinds[1..], IsRename, i - 1);
      if r.Some? then
        var i :| 0 <= i < |kinds[1..]| && kinds[1..][i] == Rename(r.value)
          && forall j :: 0 <= j < i ==> !kinds[1..][j].Rename?;
        assert kinds[i + 1] == Rename(r.value);
        r
      else r
  }

  /** The path of the first `skip_serializing_if` among the directives. */
  function FirstSkip(kinds: seq<FieldAttrKind>): (r: Option<string>)
    ensures r.None? <==> forall i :: 0 <= i < |kinds| ==> !kinds[i].SkipSerializingIf?
    ensures r.Some? ==> exists i ::
      && 0 <= i < |kinds|
      && kinds[i] == SkipSerializingIf(r.value)
      && (forall j :: 0 <= j < i ==> !kinds[j].SkipSerializingIf?)
    ensures forall i :: FirstOf(kinds, IsSkip, i) ==> r == Some(kinds[i].path)
  {
    if |kinds| == 0 then None
    else if kinds[0].SkipSerializingIf? then Some(kinds[0].path)
    else
      var r := FirstSkip(kinds[1..]);
      assert forall i :: 1 <= i < |kinds| ==> kinds[i] == kinds[1..][i - 1];
      assert forall i :: FirstOf(kinds, IsSkip, i) ==> FirstOf(kinds[1..], IsSkip, i - 1);
      if r.Some? then
        var i :| 0 <= i < |kinds[1..]| && kinds[1..][i] == SkipSerializingIf(r.value)
          && forall j :: 0 <= j < i ==> !kinds[1..][j].SkipSerializingIf?;
        assert kinds[i + 1] == SkipSerializingIf(r.value);
        r
      else r
  }

  /** The options a plain field's directives set. */
  function OptsOf(kinds: seq<FieldAttrKind>): Opts {
    Opts(FirstRename(kinds), Default in kinds, PartitionKey in kinds, SortKey in kinds, FirstSkip(kinds))
  }

  /** One field: its directives parsed, then checked. */
  function BuildField(d: FieldDecl): (r: Result<Field, DeriveError>)
    ensures ParseAll(d.attrs, FieldTable).Err? ==> r == Err(ParseAll(d.attrs, FieldTable).error)
    ensures ParseAll(d.attrs, FieldTable).Ok? ==> r == CheckField(d, ParseAll(d.attrs, FieldTable).value)
  {
    var kinds :- ParseAll(d.attrs, FieldTable);
    CheckField(d, kinds)
  }

  /** What a field's parsed directives make of it. Without `flatten` the field
      is plain, keeps its type, is stored under the first `rename` (else its
      identifier), has `default`, `partition_key` and `sort_key` set exactly
      when given, and is skipped by the first `skip_serializing_if` path.
      `flatten` takes no companion directive (`default` with it has an error
      of its own) and needs a derived struct or an `Attributes` map. */
  function CheckField(d: FieldDecl, kinds: seq<FieldAttrKind>): (r: Result<Field, DeriveError>)
    ensures r.Ok? ==> r.value.ident == d.ident
    ensures r.Ok? && r.value.Plain? <==> Flatten !in kinds
    ensures r.Ok? && r.value.Flat? <==>
      Flatten in kinds && (forall k :: k in kinds ==> k == Flatten) && (d.ty.TRecord? || d.ty.TAttrs?)
    ensures Flatten in kinds && Default in kinds ==> r == Err(DefaultWithFlatten(d.ident))
    ensures Flatten in kinds && Default !in kinds && (exists k :: k in kinds && k != Flatten) ==>
      r == Err(FlattenNotExclusive(d.ident))
    ensures Flatten in kinds && (forall k :: k in kinds ==> k == Flatten) && !d.ty.TRecord? && !d.ty.TAttrs? ==>
      r == Err(FlattenNotAttributes(d.ident))
    ensures r.Ok? && r.value.Plain? ==>
      && r.value.ty == d.ty
      && (r.value.opts.useDefault <==> Default in kinds)
      && (r.value.opts.partitionKey <==> PartitionKey in kinds)
      && (r.value.opts.sortKey <==> SortKey in kinds)
      && ((forall i :: 0 <= i < |kinds| ==> !kinds[i].Rename?) ==> WireName(r.value) == d.ident)
      && (forall i :: FirstOf(kinds, IsRename, i) ==> WireName(r.value) == kinds[i].name)
      && (r.value.opts.skipIf.None? <==> forall i :: 0 <= i < |kinds| ==> !kinds[i].SkipSerializingIf?)
      && (forall i :: FirstOf(kinds, IsSkip, i) ==> r.value.opts.skipIf == Some(kinds[i].path))
    ensures r.Ok? && r.value.Flat? ==>
      && (d.ty.TRecord? ==> r.value.target == FlatRecord(d.ty.fields))
      && (d.ty.TAttrs? ==> r.value.target == FlatRest)
  {
    if Flatten !in kinds then Ok(Plain(d.ident, OptsOf(kinds), d.ty))
    else if Default in kinds then Err(DefaultWithFlatten(d.ident))
    else if exists k :: k in kinds && k != Flatten then Err(FlattenNotExclusive(d.ident))
    else
      match d.ty
      case TRecord(sub) => Ok(Flat(d.ident, FlatRecord(sub)))
      case TAttrs => Ok(Flat(d.ident, FlatRest))
      case _ => Err(FlattenNotAttributes(d.ident))
  }

  predicate IsRename(k: FieldAttrKind) { k.Rename? }
  predicate IsSkip(k: FieldAttrKind) { k.SkipSerializingIf? }
  function RenameLit(k: FieldAttrKind): string { if k.Rename? then k.name else "" }
  function SkipLit(k: FieldAttrKind): string { if k.SkipSerializingIf? then k.path else "" }

  /** Element `i` is the first one `picks` selects. */
  ghost predicate FirstOf<T>(xs: seq<T>, picks: T -> bool, i: int) {
    && 0 <= i < |xs|
    && picks(xs[i])
    && (forall j :: 0 <= j < i ==> !picks(xs[j]))
  }

  /** Entry `i` is the first entry written under `key`, and it carries a literal. */
  ghost predicate FirstWritten(ms: seq<Meta>, key: string, i: int) {
    && 0 <= i < |ms|
    && ms[i].KeyValue?
    && ms[i].key == key
    && (forall j :: 0 <= j < i ==> ms[j].key != key)
  }

  /** A field's directive entries as written decide the field: any entry
      that does not parse refuses it; otherwise it is plain exactly when no
      entry is `flatten`, stored under the first `rename` literal (else its
      identifier), with `default`, `partition_key` and `sort_key` set exactly
      when written, and skipped by the first `skip_serializing_if` path. It
      is flattened exactly when every entry is `flatten` and its type is a
      derived struct or an `Attributes` map. */
  lemma FieldMeaning(d: FieldDecl)
    ensures (exists i :: 0 <= i < |d.attrs| && ParseAttr(d.attrs[i], FieldTable).Err?) ==> BuildField(d).Err?
    ensures (forall i :: 0 <= i < |d.attrs| ==> ParseAttr(d.attrs[i], FieldTable).Ok?) ==>
      var r := BuildField(d);
      && (r.Ok? && r.value.Plain? <==> forall i :: 0 <= i < |d.attrs| ==> d.attrs[i].key != "flatten")
      && (r.Ok? && r.value.Flat? <==>
            && |d.attrs| > 0
            && (forall i :: 0 <= i < |d.attrs| ==> d.attrs[i].key == "flatten")
            && (d.ty.TRecord? || d.ty.TAttrs?))
    ensures BuildField(d).Ok? && BuildField(d).value.Plain? ==>
      var f := BuildField(d).value;
      && (f.opts.useDefault <==> exists i :: 0 <= i < |d.attrs| && d.attrs[i].key == "default")
      && (f.opts.partitionKey <==> exists i :: 0 <= i < |d.attrs| && d.attrs[i].key == "partition_key")
      && (f.opts.sortKey <==> exists i :: 0 <= i < |d.attrs| && d.attrs[i].key == "sort_key")
      && ((forall i :: 0 <= i < |d.attrs| ==> d.attrs[i].key != "rename") ==> WireName(f) == d.ident)
      && (forall i :: FirstWritten(d.attrs, "rename", i) ==> WireName(f) == d.attrs[i].lit)
      && (f.opts.skipIf.None? <==> forall i :: 0 <= i < |d.attrs| ==> d.attrs[i].key != "skip_serializing_if")
      && (forall i :: FirstWritten(d.attrs, "skip_serializing_if", i) ==> f.opts.skipIf == Some(d.attrs[i].lit))
  {
    if ParseAll(d.attrs, FieldTable).Ok? {
      FieldMeaningShape(d);
      FieldMeaningFlags(d);
      FieldMeaningName(d);
      FieldMeaningSkip(d);
    }
  }

  /** Each accepted entry's kind follows from its key. */
  lemma KindsFollowKeys(ms: seq<Meta>)
    requires ParseAll(ms, FieldTable).Ok?
    ensures var kinds := ParseAll(ms, FieldTable).value;
      && |kinds| == |ms|
      && (forall i :: 0 <= i < |ms| ==> (ms[i].key == "default" <==> kinds[i] == Default))
      && (forall i :: 0 <= i < |ms| ==> (ms[i].key == "partition_key" <==> kinds[i] == PartitionKey))
      && (forall i :: 0 <= i < |ms| ==> (ms[i].key == "sort_key" <==> kinds[i] == SortKey))
      && (forall i :: 0 <= i < |ms| ==> (ms[i].key == "flatten" <==> kinds[i] == Flatten))
      && (forall i :: 0 <= i < |ms| ==> (ms[i].key == "rename" <==> kinds[i].Rename?))
      && (forall i :: 0 <= i < |ms| && kinds[i].Rename? ==> ms[i].KeyValue? && kinds[i].name == ms[i].lit)
      && (forall i :: 0 <= i < |ms| ==> (ms[i].key == "skip_serializing_if" <==> kinds[i].SkipSerializingIf?))
      && (forall i :: 0 <= i < |ms| && kinds[i].SkipSerializingIf? ==> ms[i].KeyValue? && kinds[i].path == ms[i].lit)
  {
    forall i | 0 <= i < |ms|
      ensures KindOfKey(ms[i], ParseAttr(ms[i], FieldTable).value.kind)
    {
      KindOfKeyHolds(ms[i]);
    }
  }

  /** The kind an accepted field directive parses to, read off its key. */
  ghost predicate KindOfKey(m: Meta, kind: FieldAttrKind) {
    && (m.key == "default" <==> kind == Default)
    && (m.key == "partition_key" <==> kind == PartitionKey)
    && (m.key == "sort_key" <==> kind == SortKey)
    && (m.key == "flatten" <==> kind == Flatten)
    && (m.key == "rename" <==> kind.Rename?)
    && (kind.Rename? ==> m.KeyValue? && kind.name == m.lit)
    && (m.key == "skip_serializing_if" <==> kind.SkipSerializingIf?)
    && (kind.SkipSerializingIf? ==> m.KeyValue? && kind.path == m.lit)
  }

  lemma KindOfKeyHolds(m: Meta)
    requires ParseAttr(m, FieldTable).Ok?
    ensures KindOfKey(m, ParseAttr(m, FieldTable).value.kind)
  {
    FieldDirectives(m);
    FieldDirectiveKinds(m);
  }

  /** Kinds that follow their entries' keys: a bare directive's kind appears
      exactly when its key is written. */
  lemma KindFollows(ms: seq<Meta>, kinds: seq<FieldAttrKind>, key: string, kind: FieldAttrKind)
    requires |ms| == |kinds|
    requires forall i :: 0 <= i < |ms| ==> (ms[i].key == key <==> kinds[i] == kind)
    ensures kind in kinds <==> exists i :: 0 <= i < |ms| && ms[i].key == key
  {
    assert kind in kinds <==> exists i :: 0 <= i < |kinds| && kinds[i] == kind;
  }

  /** Kinds that follow their entries' keys: every kind is `Flatten` exactly
      when every key is `flatten`. */
  lemma OnlyFlattenFollows(ms: seq<Meta>, kinds: seq<FieldAttrKind>)
    requires |ms| == |kinds|
    requires forall i :: 0 <= i < |ms| ==> (ms[i].key == "flatten" <==> kinds[i] == Flatten)
    ensures (forall k :: k in kinds ==> k == Flatten) <==> forall i :: 0 <= i < |ms| ==> ms[i].key == "flatten"
  {
    if forall k :: k in kinds ==> k == Flatten {
      forall i | 0 <= i < |ms| ensures ms[i].key == "flatten" {
        assert kinds[i] in kinds;
      }
    }
    if forall i :: 0 <= i < |ms| ==> ms[i].key == "flatten" {
      forall k | k in kinds ensures k == Flatten {
        var i :| 0 <= i < |kinds| && kinds[i] == k;
      }
    }
  }

  /** Kinds that follow their entries' keys: the first entry with a literal
      under `key` lines up with the first kind `picks` selects. */
  lemma FirstFollows(ms: seq<Meta>, kinds: seq<FieldAttrKind>, key: string, picks: FieldAttrKind -> bool, lit: FieldAttrKind -> string)
    requires |ms| == |kinds|
    requires forall i :: 0 <= i < |ms| ==> (ms[i].key == key <==> picks(kinds[i]))
    requires forall i :: 0 <= i < |ms| && picks(kinds[i]) ==> ms[i].KeyValue? && lit(kinds[i]) == ms[i].lit
    ensures (forall i :: 0 <= i < |ms| ==> ms[i].key != key) <==> forall i :: 0 <= i < |kinds| ==> !picks(kinds[i])
    ensures forall i :: FirstWritten(ms, key, i) ==> FirstOf(kinds, picks, i) && lit(kinds[i]) == ms[i].lit
  {
  }

  lemma FieldMeaningShape(d: FieldDecl)
    requires ParseAll(d.attrs, FieldTable).Ok?
    ensures var r := BuildField(d);
      && (r.Ok? && r.value.Plain? <==> forall i :: 0 <= i < |d.attrs| ==> d.attrs[i].key != "flatten")
      && (r.Ok? && r.value.Flat? <==>
            && |d.attrs| > 0
            && (forall i :: 0 <= i < |d.attrs| ==> d.attrs[i].key == "flatten")
            && (d.ty.TRecord? || d.ty.TAttrs?))
  {
    var kinds := ParseAll(d.attrs, FieldTable).value;
    KindsFollowKeys(d.attrs);
    KindFollows(d.attrs, kinds, "flatten", Flatten);
    OnlyFlattenFollows(d.attrs, kinds);
  }

  lemma FieldMeaningFlags(d: FieldDecl)
    requires ParseAll(d.attrs, FieldTable).Ok?
    ensures BuildField(d).Ok? && BuildField(d).value.Plain? ==>
      var f := BuildField(d).value;
      && (f.opts.useDefault <==> exists i :: 0 <= i < |d.attrs| && d.attrs[i].key == "default")
      && (f.opts.partitionKey <==> exists i :: 0 <= i < |d.attrs| && d.attrs[i].key == "partition_key")
      && (f.opts.sortKey <==> exists i :: 0 <= i < |d.attrs| && d.attrs[i].key == "sort_key")
  {
    var kinds := ParseAll(d.attrs, FieldTable).value;
    KindsFollowKeys(d.attrs);
    KindFollows(d.attrs, kinds, "default", Default);
    KindFollows(d.attrs, kinds, "partition_key", PartitionKey);
    KindFollows(d.attrs, kinds, "sort_key", SortKey);
  }

  lemma FieldMeaningName(d: FieldDecl)
    requires ParseAll(d.attrs, FieldTable).Ok?
    ensures BuildField(d).Ok? && BuildField(d).value.Plain? ==>
      var f := BuildField(d).value;
      && ((forall i :: 0 <= i < |d.attrs| ==> d.attrs[i].key != "rename") ==> WireName(f) == d.ident)
      && (forall i :: FirstWritten(d.attrs, "rename", i) ==> WireName(f) == d.attrs[i].lit)
  {
    var kinds := ParseAll(d.attrs, FieldTable).value;
    KindsFollowKeys(d.attrs);
    FirstFollows(d.attrs, kinds, "rename", IsRename, RenameLit);
  }

  lemma FieldMeaningSkip(d: FieldDecl)
    requires ParseAll(d.attrs, FieldTable).Ok?
    ensures BuildField(d).Ok? && BuildField(d).value.Plain? ==>
      var f := BuildField(d).value;
      && (f.opts.skipIf.None? <==> forall i :: 0 <= i < |d.attrs| ==> d.attrs[i].key != "skip_serializing_if")
      && (forall i :: FirstWritten(d.attrs, "skip_serializing_if", i) ==> f.opts.skipIf == Some(d.attrs[i].lit))
  {
    var kinds := ParseAll(d.attrs, FieldTable).value;
    KindsFollowKeys(d.attrs);
    FirstFollows(d.attrs, kinds, "skip_serializing_if", IsSkip, SkipLit);
  }

  /** Every field in declaration order; the first refusal wins. */
  function BuildFields(ds: seq<FieldDecl>): (r: Result<seq<Field>, DeriveError>)
    ensures r.Ok? <==> forall i :: 0 <= i < |ds| ==> BuildField(ds[i]).Ok?
    ensures r.Ok? ==> |r.value| == |ds| && forall i :: 0 <= i < |ds| ==> r.value[i] == BuildField(ds[i]).value
    ensures r.Err? ==> exists i ::
      && 0 <= i < |ds|
      && BuildField(ds[i]).Err?
      && r.error == BuildField(ds[i]).error
      && (forall j :: 0 <= j < i ==> BuildField(ds[j]).Ok?)
  {
    if |ds| == 0 then Ok([])
    else
      match BuildField(ds[0])
      case Err(e) => Err(e)
      case Ok(f) =>
        var rest := BuildFields(ds[1..]);
        if rest.Err? then
          FirstFailureShift(ds, BuildField, rest.error);
          Err(rest.error)
        else
          AllOkShift(ds, BuildField, f, rest.value);
          Ok([f] + rest.value)
  }

  /** When the first element and every element of the tail succeed, every
      element succeeds and the results line up. */
  lemma AllOkShift<X, Y, E>(xs: seq<X>, f: X -> Result<Y, E>, y: Y, ys: seq<Y>)
    requires |xs| > 0 && f(xs[0]) == Ok(y) && |ys| == |xs| - 1
    requires forall i :: 0 <= i < |xs[1..]| ==> f(xs[1..][i]).Ok? && ys[i] == f(xs[1..][i]).value
    ensures forall i :: 0 <= i < |xs| ==> f(xs[i]).Ok? && ([y] + ys)[i] == f(xs[i]).value
  {
    forall i | 0 <= i < |xs| ensures f(xs[i]).Ok? && ([y] + ys)[i] == f(xs[i]).value {
      if i > 0 {
        assert xs[i] == xs[1..][i - 1];
      }
    }
  }

  /** When the first element succeeds, the first failure of the tail is the
      first failure of the whole sequence, one position later. */
  lemma FirstFailureShift<X, Y, E>(xs: seq<X>, f: X -> Result<Y, E>, e: E)
    requires |xs| > 0 && f(xs[0]).Ok?
    requires exists i ::
      && 0 <= i < |xs[1..]|
      && f(xs[1..][i]).Err?
      && e == f(xs[1..][i]).error
      && (forall j :: 0 <= j < i ==> f(xs[1..][j]).Ok?)
    ensures exists i ::
      && 0 <= i < |xs|
      && f(xs[i]).Err?
      && e == f(xs[i]).error
      && (forall j :: 0 <= j < i ==> f(xs[j]).Ok?)
  {
    var i :| && 0 <= i < |xs[1..]|
             && f(xs[1..][i]).Err?
             && e == f(xs[1..][i]).error
             && (forall j :: 0 <= j < i ==> f(xs[1..][j]).Ok?);
    assert xs[i + 1] == xs[1..][i];
    forall j | 0 <= j < i + 1 ensures f(xs[j]).Ok? {
      if j > 0 {
        assert xs[j] == xs[1..][j - 1];
      }
    }
  }

  /** Fields that each build give the list of what they build. */
  lemma BuildFieldsOk(ds: seq<FieldDecl>, fs: seq<Field>)
    requires |ds| == |fs|
    requires forall i :: 0 <= i < |ds| ==> BuildField(ds[i]) == Ok(fs[i])
    ensures BuildFields(ds) == Ok(fs)
  {
    var r := BuildFields(ds);
    assert r.Ok?;
    assert r.value == fs;
  }

  /** `expand_item`: only a struct with named fields derives `Item`; its
      fields are built, then its key markers are checked. */
  function ExpandItem(d: Decl): (r: Result<ItemSchema, DeriveError>)
    ensures !d.StructDecl? ==> r == Err(NotAStruct(d.name))
    ensures d.StructDecl? && BuildFields(d.fields).Err? ==> r == Err(BuildFields(d.fields).error)
    ensures d.StructDecl? && BuildFields(d.fields).Ok? ==>
      var fs := BuildFields(d.fields).value;
      match KeyPositions(fs)
      case Err(e) => r == Err(e)
      case Ok(key) => r == Ok(ItemSchema(d.name, fs, key))
    ensures r.Ok? && r.value.key.Some? ==> ValidSpec(r.value.fields, r.value.key.value)
  {
    match d
    case StructDecl(name, decls) =>
      var fs :- BuildFields(decls);
      var key :- KeyPositions(fs);
      Ok(ItemSchema(name, fs, key))
    case _ => Err(NotAStruct(d.name))
  }

  /** `#[derive(Attributes)]`: a struct with named fields gets the same field
      schema as an item, with no key; an enum is a tagged union whose variant
      tags must be distinct; a tuple or unit struct is refused. */
  function ExpandAttributes(d: Decl): (r: Result<AttributesSchema, DeriveError>)
    ensures d.TupleStructDecl? ==> r == Err(NotAStruct(d.name))
    ensures d.StructDecl? ==> (r.Ok? <==> forall i :: 0 <= i < |d.fields| ==> BuildField(d.fields[i]).Ok?)
    ensures d.StructDecl? && r.Ok? ==>
      && r.value.StructFields?
      && |r.value.fields| == |d.fields|
      && (forall i :: 0 <= i < |d.fields| ==> r.value.fields[i] == BuildField(d.fields[i]).value)
      && (forall i :: 0 <= i < |d.fields| ==> r.value.fields[i].ident == d.fields[i].ident)
    ensures d.StructDecl? && r.Err? ==> exists i ::
      && 0 <= i < |d.fields|
      && BuildField(d.fields[i]).Err?
      && r.error == BuildField(d.fields[i]).error
      && (forall j :: 0 <= j < i ==> BuildField(d.fields[j]).Ok?)
    ensures d.EnumDecl? && r.Ok? ==>
      && r.value.TaggedEnum?
      && Distinct(r.value.tags)
      && VariantTags(d.variants) == Ok(r.value.tags)
    ensures d.EnumDecl? && ParseAll(d.attrs, EnumTable).Ok? && VariantTags(d.variants).Ok? ==>
      (r.Ok? <==> Distinct(VariantTags(d.variants).value))
    ensures d.EnumDecl? && r.Err? ==> ValidateTags(d) == Err(r.error)
  {
    match d
    case StructDecl(_, decls) =>
      var fs :- BuildFields(decls);
      Ok(StructFields(fs))
    case TupleStructDecl(name) => Err(NotAStruct(name))
    case EnumDecl(_, _, _) =>
      var tags :- ValidateTags(d);
      Ok(TaggedEnum(tags))
  }

  /** `expand_attr` / `make_dynomite_attr`: only an enum derives `Attribute`,
      and each variant travels as its own name. */
  function ExpandAttr(d: Decl): (r: Result<Ty, DeriveError>)
    ensures !d.EnumDecl? ==> r == Err(NotAnEnum(d.name))
    ensures d.EnumDecl? ==>
      && r.Ok? && r.value.TUnitEnum?
      && |r.value.variants| == |d.variants|
      && (forall i :: 0 <= i < |d.variants| ==> r.value.variants[i] == d.variants[i].ident)
  {
    match d
    case EnumDecl(_, _, vs) => Ok(TUnitEnum(seq(|vs|, i requires 0 <= i < |vs| => vs[i].ident)))
    case _ => Err(NotAnEnum(d.name))
  }

  /** A variant's wire tag: its `rename`, else its name. */
  function EffectiveTag(v: VariantDecl, kinds: seq<VariantAttrKind>): string {
    if |kinds| > 0 then kinds[0].name else v.ident
  }

  /** The tags of the variants in order; the first refusal wins. */
  function VariantTags(vs: seq<VariantDecl>): (r: Result<seq<string>, DeriveError>)
    ensures r.Ok? <==> forall i :: 0 <= i < |vs| ==> ParseAll(vs[i].attrs, VariantTable).Ok?
    ensures r.Ok? ==>
      && |r.value| == |vs|
      && (forall i :: 0 <= i < |vs| ==> r.value[i] == EffectiveTag(vs[i], ParseAll(vs[i].attrs, VariantTable).value))
  {
    if |vs| == 0 then Ok([])
    else
      assert forall i :: 1 <= i < |vs| ==> vs[i] == vs[1..][i - 1];
      var kinds :- ParseAll(vs[0].attrs, VariantTable);
      var rest :- VariantTags(vs[1..]);
      Ok([EffectiveTag(vs[0], kinds)] + rest)
  }

  /** The earliest tag that occurs again later, if any. */
  function FirstDuplicate(tags: seq<string>): (r: Option<string>)
    ensures r.None? <==> Distinct(tags)
    ensures r.Some? ==> exists i, j :: 0 <= i < j < |tags| && tags[i] == r.value && tags[j] == r.value
  {
    if |tags| == 0 then None
    else
      var r := FirstDuplicate(tags[1..]);
      assert forall i :: 1 <= i < |tags| ==> tags[i] == tags[1..][i - 1];
      if tags[0] in tags[1..] then
        var j :| 0 <= j < |tags[1..]| && tags[1..][j] == tags[0];
        assert tags[j + 1] == tags[0];
        Some(tags[0])
      else
        DistinctCons(tags);
        if r.Some? then
          var i, j :| 0 <= i < j < |tags[1..]| && tags[1..][i] == r.value && tags[1..][j] == r.value;
          assert tags[i + 1] == r.value && tags[j + 1] == r.value;
          r
        else r
  }

  /** A sequence is duplicate-free when its head does not recur and its tail is duplicate-free. */
  lemma DistinctCons<T>(s: seq<T>)
    requires |s| > 0
    ensures Distinct(s) <==> s[0] !in s[1..] && Distinct(s[1..])
  {
    DistinctConcat([s[0]], s[1..]);
    assert [s[0]] + s[1..] == s;
  }

  /** The tag table of an enum: the enum's own directives are checked, then
      each variant's; two variants with the same wire tag are refused. */
  function ValidateTags(d: Decl): (r: Result<seq<string>, DeriveError>)
    ensures !d.EnumDecl? ==> r == Err(NotAnEnum(d.name))
    ensures r.Ok? ==> ParseAll(d.attrs, EnumTable).Ok? && VariantTags(d.variants) == Ok(r.value)
    ensures r.Ok? ==> Distinct(r.value)
    ensures d.EnumDecl? && ParseAll(d.attrs, EnumTable).Ok? && VariantTags(d.variants).Ok? ==>
      (r.Ok? <==> Distinct(VariantTags(d.variants).value))
    ensures d.EnumDecl? && ParseAll(d.attrs, EnumTable).Ok? && VariantTags(d.variants).Ok? && r.Err? ==>
      && r.error.DuplicateTag?
      && exists i, j ::
        && 0 <= i < j < |d.variants|
        && VariantTags(d.variants).value[i] == r.error.tag
        && VariantTags(d.variants).value[j] == r.error.tag
  {
    match d
    case EnumDecl(_, attrs, vs) =>
      var _ :- ParseAll(attrs, EnumTable);
      var tags :- VariantTags(vs);
      var dup := FirstDuplicate(tags);
      if dup.Some? then
        var i, j :| 0 <= i < j < |tags| && tags[i] == dup.value && tags[j] == dup.value;
        assert VariantTags(vs).value[i] == dup.value && VariantTags(vs).value[j] == dup.value;
        Err(DuplicateTag(dup.value))
      else Ok(tags)
    case _ => Err(NotAnEnum(d.name))
  }
}

=== FILE: derive_examples.dfy ===
/** Declarations from the repository's tests, run through the derives: the
    schemas the passing tests use and the refusals the compile-fail tests
    expect (dynomite/trybuild-tests). */
module DeriveExamples {
  import opened Base
  import opened Numbers
  import opened Schema
  import opened Directives
  import opened Keys
  import opened Derive

  /** `#[dynomite(partition_key, rename = "RecipeId")] id: String, servings: u64`. */
  const RecipeDecl: Decl := StructDecl("Recipe", [
    FieldDecl("id", [Word("partition_key"), KeyValue("rename", "RecipeId")], TString),
    FieldDecl("servings", [], TInt(U64))])

  const RecipeFields: seq<Field> := [
    Plain("id", NoOpts.(rename := Some("RecipeId"), partitionKey := true), TString),
    Plain("servings", NoOpts, TInt(U64))]

  lemma RecipeDirectives()
    ensures ParseAll([Word("partition_key"), KeyValue("rename", "RecipeId")], FieldTable)
      == Ok([PartitionKey, Rename("RecipeId")])
  {
    var pk, rn := Word("partition_key"), KeyValue("rename", "RecipeId");
    FieldDirectives(pk);
    FieldDirectiveKinds(pk);
    FieldDirectives(rn);
    FieldDirectiveKinds(rn);
    ParseAllOk([pk, rn], FieldTable, [PartitionKey, Rename("RecipeId")]);
  }

  /** The options `partition_key, rename = ...` set. */
  lemma KeyRenameOpts(name: string)
    ensures OptsOf([PartitionKey, Rename(name)]) == NoOpts.(rename := Some(name), partitionKey := true)
  {
    var kinds := [PartitionKey, Rename(name)];
    assert FirstRename(kinds) == Some(name);
    assert FirstSkip(kinds[1..]) == None;
    assert FirstSkip(kinds) == None;
  }

  lemma RecipeIdBuilt()
    ensures BuildField(RecipeDecl.fields[0]) == Ok(RecipeFields[0])
  {
    RecipeDirectives();
    KeyRenameOpts("RecipeId");
  }

  /** A field with no directive. */
  lemma UndecoratedBuilt(ident: string, ty: Ty)
    ensures BuildField(FieldDecl(ident, [], ty)) == Ok(Plain(ident, NoOpts, ty))
  {
    assert ParseAll([], FieldTable) == Ok([]);
  }

  lemma BuildTwo(d0: FieldDecl, d1: FieldDecl, f0: Field, f1: Field)
    requires BuildField(d0) == Ok(f0) && BuildField(d1) == Ok(f1)
    ensures BuildFields([d0, d1]) == Ok([f0, f1])
  {
    var ds, fs := [d0, d1], [f0, f1];
    forall i | 0 <= i < |ds| ensures BuildField(ds[i]) == Ok(fs[i]) {
      if i == 0 {
        assert ds[i] == d0 && fs[i] == f0;
      } else {
        assert ds[i] == d1 && fs[i] == f1;
      }
    }
    BuildFieldsOk(ds, fs);
  }

  lemma RecipeFieldsBuilt()
    ensures BuildFields(RecipeDecl.fields) == Ok(RecipeFields)
  {
    RecipeIdBuilt();
    UndecoratedBuilt("servings", TInt(U64));
    BuildTwo(RecipeDecl.fields[0], RecipeDecl.fields[1], RecipeFields[0], RecipeFields[1]);
  }

  /** Two fields, the first the partition key and neither a sort key. */
  lemma FirstIsPartitionKey(fs: seq<Field>)
    requires |fs| == 2 && Marked(fs[0], false) && !Marked(fs[1], false)
    requires !Marked(fs[0], true) && !Marked(fs[1], true)
    ensures KeyPositions(fs) == Ok(Some(KeySpec(0, None)))
  {
    var h, s := FieldWithMarker(fs, false), FieldWithMarker(fs, true);
    assert s == Ok(None);
    assert h.Ok? && h != Ok(None);
    assert h == Ok(Some(0));
  }

  lemma RecipeExpands()
    ensures ExpandItem(RecipeDecl) == Ok(ItemSchema("Recipe", RecipeFields, Some(KeySpec(0, None))))
  {
    RecipeFieldsBuilt();
    FirstIsPartitionKey(RecipeFields);
  }

  /** default-with-flatten.rs: `#[dynomite(default, flatten)] flat: Flattened`. */
  lemma DefaultWithFlattenRefused()
    ensures BuildField(FieldDecl("flat", [Word("default"), Word("flatten")], TRecord([Plain("a", NoOpts, TInt(U32))])))
      == Err(DefaultWithFlatten("flat"))
  {
    var df, fl := Word("default"), Word("flatten");
    FieldDirectives(df);
    FieldDirectiveKinds(df);
    FieldDirectives(fl);
    FieldDirectiveKinds(fl);
    ParseAllOk([df, fl], FieldTable, [Default, Flatten]);
  }

  /** dynomite-unknown-attr.rs: `#[dynomite(typo)]` on the second field refuses the derive. */
  lemma UnknownDirectiveRefused()
    ensures ExpandItem(StructDecl("Foo", [
      FieldDecl("key", [Word("partition_key")], TString),
      FieldDecl("fail", [Word("typo")], TString)])) == Err(UnexpectedAttr("typo"))
  {
    var pk, typo := Word("partition_key"), Word("typo");
    FieldDirectives(pk);
    FieldDirectiveKinds(pk);
    FieldDirectives(typo);
    ParseAllOk([pk], FieldTable, [PartitionKey]);
    assert [typo][0] == typo;
    assert ParseAll([typo], FieldTable) == Err(UnexpectedAttr("typo"));
    var ds := [FieldDecl("key", [pk], TString), FieldDecl("fail", [typo], TString)];
    assert BuildField(ds[0]).Ok?;
    assert BuildField(ds[1]) == Err(UnexpectedAttr("typo"));
  }

  /** incorrect-fn-path-in-skip-serializing-if.rs, Test1 to Test3: a literal
      that is not a path is refused. */
  lemma SkipPathRefused()
    ensures BuildField(FieldDecl("field", [KeyValue("skip_serializing_if", "true")], TInt(U32)))
      == Err(InvalidPath("true"))
    ensures BuildField(FieldDecl("field", [KeyValue("skip_serializing_if", "2 + 2")], TInt(U32)))
      == Err(InvalidPath("2 + 2"))
    ensures BuildField(FieldDecl("field", [KeyValue("skip_serializing_if", "|| true")], TInt(U32)))
      == Err(InvalidPath("|| true"))
  {
    PathsRejected();
    FieldDirectives(KeyValue("skip_serializing_if", "true"));
    FieldDirectives(KeyValue("skip_serializing_if", "2 + 2"));
    FieldDirectives(KeyValue("skip_serializing_if", "|| true"));
  }

  /** non-unique-fat-enum-tags.rs: `Baz` renamed to "Bar" clashes with `Bar`. */
  lemma DuplicateTagRefused()
    ensures ValidateTags(EnumDecl("Foo", [KeyValue("tag", "kind")], [
      VariantDecl("Bar", []),
      VariantDecl("Baz", [KeyValue("rename", "Bar")]),
      VariantDecl("Bruh", [])])) == Err(DuplicateTag("Bar"))
  {
    var tag, rn := KeyValue("tag", "kind"), KeyValue("rename", "Bar");
    EnumAndVariantDirectives(tag);
    EnumAndVariantDirectives(rn);
    ParseAllOk([tag], EnumTable, [Tag("kind")]);
    ParseAllOk([rn], VariantTable, [VariantRename("Bar")]);
    assert ParseAll([], VariantTable) == Ok([]);
    var vs := [VariantDecl("Bar", []), VariantDecl("Baz", [rn]), VariantDecl("Bruh", [])];
    assert EffectiveTag(vs[1], [VariantRename("Bar")]) == "Bar";
    var r := VariantTags(vs);
    assert r.Ok?;
    assert r.value[0] == "Bar" && r.value[1] == "Bar" && r.value[2] == "Bruh";
    assert r.value == ["Bar", "Bar", "Bruh"];
    var tags := ["Bar", "Bar", "Bruh"];
    assert tags[0] in tags[1..];
  }

  /** `derive(Attributes)` on the enum of non-unique-fat-enum-tags.rs fails
      only on the clashing tag. */
  lemma AttributesDuplicateTag()
    ensures ExpandAttributes(EnumDecl("Foo", [KeyValue("tag", "kind")], [
      VariantDecl("Bar", []),
      VariantDecl("Baz", [KeyValue("rename", "Bar")]),
      VariantDecl("Bruh", [])])) == Err(DuplicateTag("Bar"))
  {
    DuplicateTagRefused();
  }

  /** Without the clashing rename, the same enum derives `Attributes`. */
  lemma AttributesDistinctTags()
    ensures ExpandAttributes(EnumDecl("Foo", [KeyValue("tag", "kind")], [
      VariantDecl("Bar", []),
      VariantDecl("Bruh", [])])) == Ok(TaggedEnum(["Bar", "Bruh"]))
  {
    DistinctTagsAccepted();
  }

  lemma DistinctTagsAccepted()
    ensures ValidateTags(EnumDecl("Foo", [KeyValue("tag", "kind")], [
      VariantDecl("Bar", []),
      VariantDecl("Bruh", [])])) == Ok(["Bar", "Bruh"])
  {
    var tag := KeyValue("tag", "kind");
    EnumAndVariantDirectives(tag);
    ParseAllOk([tag], EnumTable, [Tag("kind")]);
    var vs := [VariantDecl("Bar", []), VariantDecl("Bruh", [])];
    PlainVariantTags(vs);
    var tags := ["Bar", "Bruh"];
    assert Distinct(tags);
  }

  /** Two variants without directives are tagged by their names. */
  lemma PlainVariantTags(vs: seq<VariantDecl>)
    requires |vs| == 2 && vs[0].attrs == [] && vs[1].attrs == []
    ensures VariantTags(vs) == Ok([vs[0].ident, vs[1].ident])
  {
    NoVariantDirectives();
    var r := VariantTags(vs);
    assert r.value[0] == EffectiveTag(vs[0], []) == vs[0].ident;
    assert r.value[1] == EffectiveTag(vs[1], []) == vs[1].ident;
    assert r.value == [vs[0].ident, vs[1].ident];
  }

  /** A variant without directives parses to no directive kinds. */
  lemma NoVariantDirectives()
    ensures ParseAll([], VariantTable) == Ok([])
  {
  }

  /** A derive on the wrong kind of declaration is refused. */
  lemma WrongDeclarationRefused()
    ensures ExpandItem(TupleStructDecl("Foo")) == Err(NotAStruct("Foo"))
    ensures ExpandItem(EnumDecl("Foo", [], [])) == Err(NotAStruct("Foo"))
    ensures ExpandAttr(StructDecl("Foo", [])) == Err(NotAnEnum("Foo"))
    ensures ExpandAttributes(TupleStructDecl("Foo")) == Err(NotAStruct("Foo"))
  {
  }
}

=== FILE: derived_tests.dfy ===
/** The schemas and assertions of dynomite/tests/derived.rs, stated for all
    the values the tests pick one of where the model allows. */
module DerivedTests {
  import opened Base
  import opened Wire
  import opened Numbers
  import opened Schema
  import opened Codec
  import opened CodecProps
  import opened MapperProps
  import opened Keys
  import opened DeriveExamples

  /** No field of these schemas has a skip predicate. */
  const NoSkip: SkipOracle := (path: string, v: Val) => false

  lemma NoSkipNeverSkips()
    ensures NeverSkips(NoSkip)
  {
  }

  // ---- Recipe (the `derived_key` and `field_rename` tests) ----

  const RecipeKey: KeySpec := KeySpec(0, None)

  /** A well-formed record's encoding has exactly the names it claims and
      decodes back to the same values. */
  lemma RoundTripWithKeys(fs: seq<Field>, vs: seq<Val>, keys: set<string>)
    requires RecordWellFormed(fs) && FieldsConform(fs, vs) && Claimed(fs) == keys
    ensures EncodeFields(fs, vs, NoSkip).Keys == keys
    ensures DecodeFields(fs, EncodeFields(fs, vs, NoSkip)) == Ok((vs, map[]))
  {
    NoSkipNeverSkips();
    NeverSkipsNothingInFields(fs, vs, NoSkip);
    RecordRoundTrip(fs, vs, NoSkip);
  }

  /** The per-list facts of a two-field list, from those of its fields. */
  lemma Two(f0: Field, f1: Field, v0: Val, v1: Val)
    ensures Names([f0, f1]) == FieldNames(f0) + FieldNames(f1)
    ensures HasRest([f0, f1]) <==> FieldHasRest(f0) || FieldHasRest(f1)
    ensures FieldsWellFormed([f0, f1]) <==> FieldWellFormed(f0) && FieldWellFormed(f1)
    ensures FieldsConform([f0, f1], [v0, v1]) <==> FieldConforms(f0, v0) && FieldConforms(f1, v1)
  {
    FieldsCons(f1, [], v1, []);
    FieldsCons(f0, [f1], v0, [v1]);
    assert [f1] + [] == [f1] && [v1] + [] == [v1];
    assert [f0] + [f1] == [f0, f1] && [v0] + [v1] == [v0, v1];
    assert FieldNames(f1) + [] == FieldNames(f1);
  }

  /** The per-list facts of a three-field list, from those of its fields. */
  lemma Three(f0: Field, f1: Field, f2: Field, v0: Val, v1: Val, v2: Val)
    ensures Names([f0, f1, f2]) == FieldNames(f0) + FieldNames(f1) + FieldNames(f2)
    ensures HasRest([f0, f1, f2]) <==> FieldHasRest(f0) || FieldHasRest(f1) || FieldHasRest(f2)
    ensures FieldsWellFormed([f0, f1, f2]) <==> FieldWellFormed(f0) && FieldWellFormed(f1) && FieldWellFormed(f2)
    ensures FieldsConform([f0, f1, f2], [v0, v1, v2]) <==>
      FieldConforms(f0, v0) && FieldConforms(f1, v1) && FieldConforms(f2, v2)
  {
    Two(f1, f2, v1, v2);
    FieldsCons(f0, [f1, f2], v0, [v1, v2]);
    ConsTwo(f0, f1, f2);
    ConsTwo(v0, v1, v2);
  }

  lemma ConsTwo<T>(a: T, b: T, c: T)
    ensures [a] + [b, c] == [a, b, c]
  {
  }

  lemma RecipeWellFormed()
    ensures Names(RecipeFields) == ["RecipeId", "servings"]
    ensures Claimed(RecipeFields) == {"RecipeId", "servings"}
    ensures RecordWellFormed(RecipeFields)
  {
    Two(RecipeFields[0], RecipeFields[1], VStr(""), VStr(""));
  }

  lemma RecipeConforms(id: string, servings: int)
    requires InRange(U64, servings)
    ensures FieldsConform(RecipeFields, [VStr(id), VInt(servings)])
  {
    Two(RecipeFields[0], RecipeFields[1], VStr(id), VInt(servings));
  }

  /** `derived_key`: `key()` of a Recipe is the encoding of `RecipeKey { id }`,
      whose one field keeps the wire name "RecipeId". */
  lemma DerivedKey(id: string, servings: int)
    requires InRange(U64, servings)
    ensures FieldsConform(RecipeFields, [VStr(id), VInt(servings)])
    ensures KeyFields(RecipeFields, RecipeKey) == [Plain("id", NoOpts.(rename := Some("RecipeId")), TString)]
    ensures KeyValues([VStr(id), VInt(servings)], RecipeKey) == [VStr(id)]
    ensures FieldsConform(KeyFields(RecipeFields, RecipeKey), KeyValues([VStr(id), VInt(servings)], RecipeKey))
    ensures KeyOf(RecipeFields, [VStr(id), VInt(servings)], RecipeKey, NoSkip)
      == EncodeFields(KeyFields(RecipeFields, RecipeKey), KeyValues([VStr(id), VInt(servings)], RecipeKey), NoSkip)
    ensures KeyOf(RecipeFields, [VStr(id), VInt(servings)], RecipeKey, NoSkip)
      == map["RecipeId" := Empty.(s := Some(id))]
  {
    RecipeConforms(id, servings);
    KeyIsKeyStructEncoding(RecipeFields, [VStr(id), VInt(servings)], RecipeKey, NoSkip);
  }

  /** `field_rename`: the id travels under "RecipeId" and never under "id",
      and the record decodes back from its encoding with nothing left over. */
  lemma FieldRename(id: string, servings: int)
    requires InRange(U64, servings)
    ensures FieldsConform(RecipeFields, [VStr(id), VInt(servings)])
    ensures var attrs := EncodeFields(RecipeFields, [VStr(id), VInt(servings)], NoSkip);
      && "RecipeId" in attrs
      && "id" !in attrs
      && DecodeFields(RecipeFields, attrs) == Ok(([VStr(id), VInt(servings)], map[]))
  {
    var vs := [VStr(id), VInt(servings)];
    RecipeConforms(id, servings);
    RecipeWellFormed();
    NoSkipNeverSkips();
    NeverSkipsNothingInFields(RecipeFields, vs, NoSkip);
    RecordRoundTrip(RecipeFields, vs, NoSkip);
  }

  // ---- Book (the `to_and_from_book` test) ----

  const AuthorFields: seq<Field> := [Plain("name", NoOpts.(partitionKey := true), TString)]

  const CategoryTy: Ty := TUnitEnum(["Foo"])

  const BookFields: seq<Field> := [
    Plain("title", NoOpts.(partitionKey := true), TString),
    Plain("category", NoOpts, CategoryTy),
    Plain("authors", NoOpts, TOption(TList(TRecord(AuthorFields))))]

  lemma BookWellFormed()
    ensures RecordWellFormed(BookFields)
  {
    var fs := BookFields;
    FieldsCons(AuthorFields[0], [], VStr(""), []);
    assert AuthorFields == [AuthorFields[0]] + [];
    assert Names(AuthorFields) == ["name"];
    assert RecordWellFormed(AuthorFields);
    assert WellFormed(TRecord(AuthorFields));
    assert WellFormed(TList(TRecord(AuthorFields)));
    assert WellFormed(TOption(TList(TRecord(AuthorFields))));
    Three(fs[0], fs[1], fs[2], VStr(""), VStr(""), VStr(""));
    assert Names(fs) == ["title", "category", "authors"];
  }

  /** `to_and_from_book`: a Book with the default category and no authors
      decodes back from its encoding. */
  lemma ToAndFromBook(title: string)
    ensures FieldsConform(BookFields, [VStr(title), VVariant("Foo"), VOpt(None)])
    ensures var vs := [VStr(title), VVariant("Foo"), VOpt(None)];
      DecodeFields(BookFields, EncodeFields(BookFields, vs, NoSkip)) == Ok((vs, map[]))
  {
    var fs, vs := BookFields, [VStr(title), VVariant("Foo"), VOpt(None)];
    Three(fs[0], fs[1], fs[2], vs[0], vs[1], vs[2]);
    BookWellFormed();
    NoSkipNeverSkips();
    NeverSkipsNothingInFields(fs, vs, NoSkip);
    RecordRoundTrip(fs, vs, NoSkip);
  }

  /** `derive_attr`: the variant of a one-variant unit enum round-trips. */
  lemma DeriveAttr()
    ensures Decode(TUnitEnum(["Bar"]), Encode(TUnitEnum(["Bar"]), VVariant("Bar"), NoSkip)) == Ok(VVariant("Bar"))
  {
  }

  // ---- FlattenRoot (the `flatten` test) ----

  const NestedFields: seq<Field> := [Plain("b", NoOpts, TInt(U64)), Plain("c", NoOpts, TBool)]

  const FlattenedFields: seq<Field> := [Plain("a", NoOpts, TBool), Flat("flat_nested", FlatRecord(NestedFields))]

  const FlattenRootFields: seq<Field> := [
    Plain("id", NoOpts.(partitionKey := true), TString),
    Flat("flat", FlatRecord(FlattenedFields))]

  lemma FlattenNames()
    ensures Names(NestedFields) == ["b", "c"]
    ensures Names(FlattenedFields) == ["a", "b", "c"]
    ensures Names(FlattenRootFields) == ["id", "a", "b", "c"]
    ensures Claimed(FlattenRootFields) == {"id", "a", "b", "c"}
    ensures RecordWellFormed(FlattenRootFields)
  {
    var x := VStr("");
    Two(NestedFields[0], NestedFields[1], x, x);
    Two(FlattenedFields[0], FlattenedFields[1], x, x);
    Two(FlattenRootFields[0], FlattenRootFields[1], x, x);
  }

  function FlattenRootValue(id: string, a: bool, b: int, c: bool): seq<Val> {
    [VStr(id), VRecord([VBool(a), VRecord([VInt(b), VBool(c)])])]
  }

  lemma FlattenRootConforms(id: string, a: bool, b: int, c: bool)
    requires InRange(U64, b)
    ensures FieldsConform(FlattenRootFields, FlattenRootValue(id, a, b, c))
  {
    var nv := [VInt(b), VBool(c)];
    Two(NestedFields[0], NestedFields[1], nv[0], nv[1]);
    var fv := [VBool(a), VRecord(nv)];
    Two(FlattenedFields[0], FlattenedFields[1], fv[0], fv[1]);
    var rv := FlattenRootValue(id, a, b, c);
    Two(FlattenRootFields[0], FlattenRootFields[1], rv[0], rv[1]);
  }

  /** `flatten`: the nested fields are spliced into the top level (keys
      exactly id, a, b and c; no "flat", no "flat_nested"), and the value
      decodes back. */
  lemma FlattenTest(id: string, a: bool, b: int, c: bool)
    requires InRange(U64, b)
    ensures FieldsConform(FlattenRootFields, FlattenRootValue(id, a, b, c))
    ensures var attrs := EncodeFields(FlattenRootFields, FlattenRootValue(id, a, b, c), NoSkip);
      && attrs.Keys == {"id", "a", "b", "c"}
      && "flat" !in attrs && "flat_nested" !in attrs
      && DecodeFields(FlattenRootFields, attrs) == Ok((FlattenRootValue(id, a, b, c), map[]))
  {
    FlattenRootConforms(id, a, b, c);
    FlattenRoundTrip(FlattenRootValue(id, a, b, c));
  }

  /** Every FlattenRoot value encodes to exactly id, a, b and c and decodes back. */
  lemma FlattenRoundTrip(vs: seq<Val>)
    requires FieldsConform(FlattenRootFields, vs)
    ensures var attrs := EncodeFields(FlattenRootFields, vs, NoSkip);
      && attrs.Keys == {"id", "a", "b", "c"}
      && "flat" !in attrs && "flat_nested" !in attrs
      && DecodeFields(FlattenRootFields, attrs) == Ok((vs, map[]))
  {
    FlattenRootShape();
    RoundTripWithKeys(FlattenRootFields, vs, {"id", "a", "b", "c"});
  }

  lemma FlattenRootShape()
    ensures Claimed(FlattenRootFields) == {"id", "a", "b", "c"}
    ensures RecordWellFormed(FlattenRootFields)
  {
    FlattenNames();
  }

  // ---- RemainingPropsInMap (the `additional_props` test) ----

  const HasCFields: seq<Field> := [Plain("c", NoOpts, TInt(U32))]

  /** The fields of RemainingPropsInMap before its remainder map. */
  const RemainingPrefix: seq<Field> := [
    Plain("a", NoOpts, TBool),
    Plain("b", NoOpts, TInt(U32)),
    Flat("original_c_collector", FlatRecord(HasCFields))]

  const RemainingPropsFields: seq<Field> := RemainingPrefix + [Flat("remainder", FlatRest)]

  const AdditionalPropsFields: seq<Field> := [
    Plain("a", NoOpts, TBool),
    Plain("b", NoOpts, TInt(U32)),
    Plain("c", NoOpts, TInt(U32)),
    Plain("d", NoOpts, TString),
    Plain("e", NoOpts, TInt(U32))]

  lemma RemainingPrefixFacts()
    ensures Claimed(RemainingPrefix) == {"a", "b", "c"}
    ensures RecordWellFormed(RemainingPrefix)
  {
    var p, x := RemainingPrefix, VStr("");
    FieldsCons(HasCFields[0], [], x, []);
    assert HasCFields == [HasCFields[0]] + [];
    assert Names(HasCFields) == ["c"];
    Three(p[0], p[1], p[2], x, x, x);
    assert Names(p) == ["a", "b", "c"];
  }

  function AdditionalValue(a: bool, b: int, c: int, d: string, e: int): seq<Val> {
    [VBool(a), VInt(b), VInt(c), VStr(d), VInt(e)]
  }

  function RemainingValue(a: bool, b: int, c: int): seq<Val> {
    [VBool(a), VInt(b), VRecord([VInt(c)])]
  }

  lemma AdditionalNameList()
    ensures Names(AdditionalPropsFields) == ["a", "b", "c", "d", "e"]
    ensures !HasRest(AdditionalPropsFields)
  {
    var fs, x := AdditionalPropsFields, VStr("");
    var p, q := fs[..2], fs[2..];
    assert fs == p + q;
    Two(fs[0], fs[1], x, x);
    Three(fs[2], fs[3], fs[4], x, x, x);
    assert p == [fs[0], fs[1]] && q == [fs[2], fs[3], fs[4]];
    NamesAppend(p, q);
  }

  lemma AdditionalNames()
    ensures Names(AdditionalPropsFields) == ["a", "b", "c", "d", "e"]
    ensures Claimed(AdditionalPropsFields) == {"a", "b", "c", "d", "e"}
    ensures !HasRest(AdditionalPropsFields) && Distinct(Names(AdditionalPropsFields))
  {
    AdditionalNameList();
  }

  lemma AdditionalConforms(a: bool, b: int, c: int, d: string, e: int)
    requires InRange(U32, b) && InRange(U32, c) && InRange(U32, e)
    ensures FieldsConform(AdditionalPropsFields, AdditionalValue(a, b, c, d, e))
  {
    var fs, vs := AdditionalPropsFields, AdditionalValue(a, b, c, d, e);
    var p, q, vp, vq := fs[..2], fs[2..], vs[..2], vs[2..];
    assert fs == p + q && vs == vp + vq;
    Two(fs[0], fs[1], vs[0], vs[1]);
    Three(fs[2], fs[3], fs[4], vs[2], vs[3], vs[4]);
    assert p == [fs[0], fs[1]] && q == [fs[2], fs[3], fs[4]];
    assert vp == [vs[0], vs[1]] && vq == [vs[2], vs[3], vs[4]];
    ConformAppend(p, q, vp, vq);
  }

  lemma RemainingConforms(a: bool, b: int, c: int)
    requires InRange(U32, b) && InRange(U32, c)
    ensures FieldsConform(HasCFields, [VInt(c)])
    ensures FieldsConform(RemainingPrefix, RemainingValue(a, b, c))
  {
    var p, pv := RemainingPrefix, RemainingValue(a, b, c);
    FieldsCons(HasCFields[0], [], VInt(c), []);
    assert HasCFields == [HasCFields[0]] + [] && [VInt(c)] == [VInt(c)] + [];
    Three(p[0], p[1], p[2], pv[0], pv[1], pv[2]);
  }

  /** AdditionalPropsVerbatim's encoding holds field i under its name. */
  lemma AdditionalEntry(a: bool, b: int, c: int, d: string, e: int, i: int)
    requires InRange(U32, b) && InRange(U32, c) && InRange(U32, e) && 0 <= i < 5
    ensures FieldsConform(AdditionalPropsFields, AdditionalValue(a, b, c, d, e))
    ensures var attrs := EncodeFields(AdditionalPropsFields, AdditionalValue(a, b, c, d, e), NoSkip);
      var f := AdditionalPropsFields[i];
      && Conforms(AdditionalValue(a, b, c, d, e)[i], f.ty)
      && WireName(f) in attrs
      && attrs[WireName(f)] == Encode(f.ty, AdditionalValue(a, b, c, d, e)[i], NoSkip)
  {
    var fs, vs := AdditionalPropsFields, AdditionalValue(a, b, c, d, e);
    AdditionalConforms(a, b, c, d, e);
    AdditionalNames();
    NoSkipNeverSkips();
    EncodeFieldsAt(fs, vs, NoSkip, i);
  }

  /** AdditionalPropsVerbatim's encoding: one entry per field. */
  lemma AdditionalEncoding(a: bool, b: int, c: int, d: string, e: int)
    requires InRange(U32, b) && InRange(U32, c) && InRange(U32, e)
    ensures FieldsConform(AdditionalPropsFields, AdditionalValue(a, b, c, d, e))
    ensures var attrs := EncodeFields(AdditionalPropsFields, AdditionalValue(a, b, c, d, e), NoSkip);
      && attrs.Keys == {"a", "b", "c", "d", "e"}
      && attrs["a"] == Encode(TBool, VBool(a), NoSkip)
      && attrs["b"] == Encode(TInt(U32), VInt(b), NoSkip)
      && attrs["c"] == Encode(TInt(U32), VInt(c), NoSkip)
      && attrs["d"] == Encode(TString, VStr(d), NoSkip)
      && attrs["e"] == Encode(TInt(U32), VInt(e), NoSkip)
  {
    AdditionalConforms(a, b, c, d, e);
    AdditionalNames();
    AdditionalFirstEntries(a, b, c, d, e);
    AdditionalLastEntries(a, b, c, d, e);
  }

  lemma AdditionalFirstEntries(a: bool, b: int, c: int, d: string, e: int)
    requires InRange(U32, b) && InRange(U32, c) && InRange(U32, e)
    ensures FieldsConform(AdditionalPropsFields, AdditionalValue(a, b, c, d, e))
    ensures var attrs := EncodeFields(AdditionalPropsFields, AdditionalValue(a, b, c, d, e), NoSkip);
      && "a" in attrs && attrs["a"] == Encode(TBool, VBool(a), NoSkip)
      && "b" in attrs && attrs["b"] == Encode(TInt(U32), VInt(b), NoSkip)
      && "c" in attrs && attrs["c"] == Encode(TInt(U32), VInt(c), NoSkip)
  {
    AdditionalEntry(a, b, c, d, e, 0);
    AdditionalEntry(a, b, c, d, e, 1);
    AdditionalEntry(a, b, c, d, e, 2);
  }

  lemma AdditionalLastEntries(a: bool, b: int, c: int, d: string, e: int)
    requires InRange(U32, b) && InRange(U32, c) && InRange(U32, e)
    ensures FieldsConform(AdditionalPropsFields, AdditionalValue(a, b, c, d, e))
    ensures var attrs := EncodeFields(AdditionalPropsFields, AdditionalValue(a, b, c, d, e), NoSkip);
      && "d" in attrs && attrs["d"] == Encode(TString, VStr(d), NoSkip)
      && "e" in attrs && attrs["e"] == Encode(TInt(U32), VInt(e), NoSkip)
  {
    AdditionalEntry(a, b, c, d, e, 3);
    AdditionalEntry(a, b, c, d, e, 4);
  }

  /** HasC, flattened, writes its one entry "c". */
  lemma CollectorEntry(c: int)
    requires InRange(U32, c)
    ensures var f, v := Flat("original_c_collector", FlatRecord(HasCFields)), VRecord([VInt(c)]);
      && FieldConforms(f, v)
      && "c" in FieldClaimed(f)
      && "c" in EncodeField(f, v, NoSkip)
      && EncodeField(f, v, NoSkip)["c"] == Encode(TInt(U32), VInt(c), NoSkip)
  {
    RemainingConforms(true, 0, c);
    assert Names(HasCFields) == ["c"];
    NoSkipNeverSkips();
    EncodeFieldsAt(HasCFields, [VInt(c)], NoSkip, 0);
  }

  /** The flattened HasC writes "c" into RemainingPropsInMap's encoding. */
  lemma PrefixEncodesC(a: bool, b: int, c: int)
    requires InRange(U32, b) && InRange(U32, c)
    ensures FieldsConform(RemainingPrefix, RemainingValue(a, b, c))
    ensures var enc := EncodeFields(RemainingPrefix, RemainingValue(a, b, c), NoSkip);
      "c" in enc && enc["c"] == Encode(TInt(U32), VInt(c), NoSkip)
  {
    var p, pv := RemainingPrefix, RemainingValue(a, b, c);
    RemainingConforms(a, b, c);
    RemainingPrefixFacts();
    CollectorEntry(c);
    assert p[2] == Flat("original_c_collector", FlatRecord(HasCFields)) && pv[2] == VRecord([VInt(c)]);
    EncodeFieldsSplice(p, pv, NoSkip, 2, "c");
  }

  /** RemainingPropsInMap's fields before the remainder write a, b, and c
      through the flattened HasC. */
  lemma PrefixEncoding(a: bool, b: int, c: int)
    requires InRange(U32, b) && InRange(U32, c)
    ensures FieldsConform(RemainingPrefix, RemainingValue(a, b, c))
    ensures var enc := EncodeFields(RemainingPrefix, RemainingValue(a, b, c), NoSkip);
      && enc.Keys == {"a", "b", "c"}
      && enc["a"] == Encode(TBool, VBool(a), NoSkip)
      && enc["b"] == Encode(TInt(U32), VInt(b), NoSkip)
      && enc["c"] == Encode(TInt(U32), VInt(c), NoSkip)
  {
    var p, pv := RemainingPrefix, RemainingValue(a, b, c);
    RemainingConforms(a, b, c);
    RemainingPrefixFacts();
    NoSkipNeverSkips();
    EncodeFieldsAt(p, pv, NoSkip, 0);
    EncodeFieldsAt(p, pv, NoSkip, 1);
    PrefixEncodesC(a, b, c);
  }

  /** On the keys RemainingPropsInMap's leading fields claim, the
      AdditionalPropsVerbatim encoding agrees with theirs. */
  lemma PrefixAgrees(a: bool, b: int, c: int, d: string, e: int)
    requires InRange(U32, b) && InRange(U32, c) && InRange(U32, e)
    ensures FieldsConform(AdditionalPropsFields, AdditionalValue(a, b, c, d, e))
    ensures FieldsConform(RemainingPrefix, RemainingValue(a, b, c))
    ensures var attrs := EncodeFields(AdditionalPropsFields, AdditionalValue(a, b, c, d, e), NoSkip);
      var enc := EncodeFields(RemainingPrefix, RemainingValue(a, b, c), NoSkip);
      forall k :: k in Claimed(RemainingPrefix) ==> k in attrs && k in enc && attrs[k] == enc[k]
  {
    AdditionalEncoding(a, b, c, d, e);
    PrefixEncoding(a, b, c);
    RemainingPrefixFacts();
    AgreeOnABC(EncodeFields(AdditionalPropsFields, AdditionalValue(a, b, c, d, e), NoSkip),
      EncodeFields(RemainingPrefix, RemainingValue(a, b, c), NoSkip), Claimed(RemainingPrefix));
  }

  lemma AgreeOnABC(attrs: Attributes, enc: Attributes, keys: set<string>)
    requires keys == {"a", "b", "c"} && enc.Keys == keys && keys <= attrs.Keys
    requires attrs["a"] == enc["a"] && attrs["b"] == enc["b"] && attrs["c"] == enc["c"]
    ensures forall k :: k in keys ==> k in attrs && k in enc && attrs[k] == enc[k]
  {
  }

  /** Removing a, b and c from a map over a to e leaves d and e. */
  lemma DropThree(attrs: Attributes, dv: AttributeValue, ev: AttributeValue)
    requires attrs.Keys == {"a", "b", "c", "d", "e"} && attrs["d"] == dv && attrs["e"] == ev
    ensures attrs - {"a", "b", "c"} == map["d" := dv, "e" := ev]
  {
    var rest := attrs - {"a", "b", "c"};
    assert rest.Keys == {"d", "e"};
  }

  /** The fields before the remainder take a, b and c, and leave d and e. */
  lemma PrefixDecodes(a: bool, b: int, c: int, d: string, e: int)
    requires InRange(U32, b) && InRange(U32, c) && InRange(U32, e)
    ensures FieldsConform(AdditionalPropsFields, AdditionalValue(a, b, c, d, e))
    ensures var attrs := EncodeFields(AdditionalPropsFields, AdditionalValue(a, b, c, d, e), NoSkip);
      var extra := map["d" := Encode(TString, VStr(d), NoSkip), "e" := Encode(TInt(U32), VInt(e), NoSkip)];
      && attrs - Claimed(RemainingPrefix) == extra
      && DecodeFields(RemainingPrefix, attrs) == Ok((RemainingValue(a, b, c), extra))
  {
    PrefixAgrees(a, b, c, d, e);
    AdditionalEncoding(a, b, c, d, e);
    RemainingPrefixFacts();
    var attrs := EncodeFields(AdditionalPropsFields, AdditionalValue(a, b, c, d, e), NoSkip);
    DropThree(attrs, Encode(TString, VStr(d), NoSkip), Encode(TInt(U32), VInt(e), NoSkip));
    DecodeAgreeing(RemainingPrefix, RemainingValue(a, b, c), attrs);
  }

  /** A record decodes from any map that agrees with its encoding on the
      names it claims, leaving the rest. */
  lemma DecodeAgreeing(p: seq<Field>, pv: seq<Val>, attrs: Attributes)
    requires RecordWellFormed(p) && FieldsConform(p, pv)
    requires forall k :: k in Claimed(p) ==>
      k in attrs && k in EncodeFields(p, pv, NoSkip) && attrs[k] == EncodeFields(p, pv, NoSkip)[k]
    ensures DecodeFields(p, attrs) == Ok((pv, attrs - Claimed(p)))
  {
    NoSkipNeverSkips();
    NeverSkipsNothingInFields(p, pv, NoSkip);
    FieldsRoundTrip(p, pv, NoSkip, attrs);
  }

  /** `additional_props`: decoding AdditionalPropsVerbatim's encoding as
      RemainingPropsInMap gives a, b and c to their fields, and the
      remainder holds exactly d and e: HasC, declared first, took "c". */
  lemma AdditionalProps(a: bool, b: int, c: int, d: string, e: int)
    requires InRange(U32, b) && InRange(U32, c) && InRange(U32, e)
    ensures FieldsConform(AdditionalPropsFields, AdditionalValue(a, b, c, d, e))
    ensures var attrs := EncodeFields(AdditionalPropsFields, AdditionalValue(a, b, c, d, e), NoSkip);
      var extra := map["d" := Encode(TString, VStr(d), NoSkip), "e" := Encode(TInt(U32), VInt(e), NoSkip)];
      DecodeFields(RemainingPropsFields, attrs)
        == Ok((RemainingValue(a, b, c) + [VAttrs(extra)], map[]))
  {
    PrefixDecodes(a, b, c, d, e);
    RemainingPrefixFacts();
    var attrs := EncodeFields(AdditionalPropsFields, AdditionalValue(a, b, c, d, e), NoSkip);
    RemainderCapture(RemainingPrefix, "remainder", attrs);
  }
}

=== FILE: directives.dfy ===
/** The `#[dynomite(...)]` directive surface (dynomite-derive/src/attr.rs):
    how one comma-separated entry is read, the per-field, per-enum and
    per-variant tables of accepted keys, and the compile-time errors. Token
    streams and spans are not modelled: an entry is already split into its
    key and its optional string literal. */
module Directives {
  import opened Base

  /** One entry as written: `key`, `key = "lit"`, or `key(...)`. */
  datatype Meta = Word(key: string) | KeyValue(key: string, lit: string) | Call(key: string)

  /** `MetadataEntry`: a key and an optional string literal. */
  datatype MetadataEntry = MetadataEntry(key: string, val: Option<string>)

  /** Every way a derive is refused at compile time. */
  datatype DeriveError =
    | UnexpectedParen(key: string)
    | UnexpectedAttr(key: string)
    | ExpectedValue(key: string)
    | ExpectedNoValue(key: string)
    | InvalidPath(lit: string)
    | DefaultWithFlatten(field: string)
    | FlattenNotExclusive(field: string)
    | FlattenNotAttributes(field: string)
    | DuplicateKeyMarker(marker: string)
    | SameFieldBothKeys(field: string)
    | DuplicateTag(tag: string)
    | NotAStruct(name: string)
    | NotAnEnum(name: string)

  datatype FieldAttrKind =
    | Default
    | Rename(name: string)
    | PartitionKey
    | SortKey
    | Flatten
    | SkipSerializingIf(path: string)

  datatype EnumAttrKind = Tag(name: string)

  datatype VariantAttrKind = VariantRename(name: string)

  /** A `DynomiteAttr` impl: the keys that require a literal, each with the
      constructor applied to it, and the keys that must stand alone. */
  datatype Table<K> = Table(kvs: seq<(string, string -> Result<K, DeriveError>)>, keys: seq<(string, K)>)

  /** A parsed directive: the key as written and what it means. */
  datatype Attr<K> = Attr(ident: string, kind: K)

  predicate IsIdentStart(c: char) {
    'a' <= c <= 'z' || 'A' <= c <= 'Z' || c == '_'
  }

  predicate IsIdentChar(c: char) {
    IsIdentStart(c) || '0' <= c <= '9'
  }

  /** The keywords that cannot be a path segment. `self`, `Self`, `super`,
      `crate` and `try` are left out: a path segment may be one of them. */
  const Keywords: set<string> := {
    "_", "as", "async", "await", "break", "const", "continue", "dyn", "else", "enum",
    "extern", "false", "fn", "for", "if", "impl", "in", "let", "loop", "match", "mod",
    "move", "mut", "pub", "ref", "return", "static", "struct", "trait", "true", "type",
    "unsafe", "use", "where", "while"
  }

  /** The words reserved for future use, which cannot be a path segment either. */
  const ReservedWords: set<string> := {
    "abstract", "become", "box", "do", "final", "macro", "override", "priv", "typeof",
    "unsized", "virtual", "yield"
  }

  predicate Reserved(s: string) {
    s in Keywords || s in ReservedWords
  }

  /** The length of the longest prefix of identifier characters. */
  function IdentPrefix(s: string): (n: nat)
    ensures n <= |s|
    ensures forall i :: 0 <= i < n ==> IsIdentChar(s[i])
    ensures n < |s| ==> !IsIdentChar(s[n])
  {
    if |s| == 0 || !IsIdentChar(s[0]) then 0 else 1 + IdentPrefix(s[1..])
  }

  predicate IsIdent(s: string) {
    |s| > 0 && IsIdentStart(s[0]) && (forall i :: 0 <= i < |s| ==> IsIdentChar(s[i])) && !Reserved(s)
  }

  /** Identifiers separated by `::`. */
  predicate IsSegments(s: string)
    decreases |s|
  {
    var n := IdentPrefix(s);
    && IsIdent(s[..n])
    && (n == |s| || (n + 2 <= |s| && s[n..n + 2] == "::" && IsSegments(s[n + 2..])))
  }

  /** The literal parses as a path such as `is_zero` or `String::is_empty`
      (plain segments only: no generic arguments, no raw identifiers). */
  predicate IsPath(s: string) {
    if |s| >= 2 && s[..2] == "::" then IsSegments(s[2..]) else IsSegments(s)
  }

  const FieldTable: Table<FieldAttrKind> := Table(
    [ ("rename", (lit: string) => Ok(Rename(lit))),
      ("skip_serializing_if",
        (lit: string) => if IsPath(lit) then Ok(SkipSerializingIf(lit)) else Err(InvalidPath(lit))) ],
    [ ("default", Default), ("partition_key", PartitionKey), ("sort_key", SortKey), ("flatten", Flatten) ])

  const EnumTable: Table<EnumAttrKind> := Table([("tag", (lit: string) => Ok(Tag(lit)))], [])

  const VariantTable: Table<VariantAttrKind> := Table([("rename", (lit: string) => Ok(VariantRename(lit)))], [])

  /** The first entry of the table under `key`. */
  function Lookup<V>(table: seq<(string, V)>, key: string): (r: Option<V>)
    ensures r.None? <==> forall i :: 0 <= i < |table| ==> table[i].0 != key
    ensures r.Some? ==> exists i :: 0 <= i < |table| && table[i].0 == key && table[i].1 == r.value
  {
    if |table| == 0 then None
    else if table[0].0 == key then Some(table[0].1)
    else
      var r := Lookup(table[1..], key);
      assert forall i :: 1 <= i < |table| ==> table[i] == table[1..][i - 1];
      r
  }

  /** `MetadataEntry::parse`: a parenthesised entry is refused outright. */
  function ParseEntry(m: Meta): (r: Result<MetadataEntry, DeriveError>)
    ensures r.Ok? <==> !m.Call?
    ensures r.Ok? ==> r.value.key == m.key && (r.value.val.Some? <==> m.KeyValue?)
    ensures r.Ok? && m.KeyValue? ==> r.value.val == Some(m.lit)
    ensures r.Err? ==> r.error == UnexpectedParen(m.key)
  {
    match m
    case Call(k) => Err(UnexpectedParen(k))
    case Word(k) => Ok(MetadataEntry(k, None))
    case KeyValue(k, lit) => Ok(MetadataEntry(k, Some(lit)))
  }

  /** `try_attr_with_val`: a key from the literal-taking list needs a literal. */
  function TryWithVal<K>(e: MetadataEntry, kvs: seq<(string, string -> Result<K, DeriveError>)>): Result<Option<K>, DeriveError> {
    match Lookup(kvs, e.key)
    case None => Ok(None)
    case Some(ctor) =>
      if e.val.None? then Err(ExpectedValue(e.key))
      else
        var kind :- ctor(e.val.value);
        Ok(Some(kind))
  }

  /** `try_attr_without_val`: a key from the bare list must have no literal. */
  function TryWithoutVal<K>(e: MetadataEntry, keys: seq<(string, K)>): Result<Option<K>, DeriveError> {
    match Lookup(keys, e.key)
    case None => Ok(None)
    case Some(kind) =>
      if e.val.Some? then Err(ExpectedNoValue(e.key)) else Ok(Some(kind))
  }

  /** `Attr::parse`: the literal-taking keys first, then the bare keys; a key
      in neither list is refused. */
  function ParseAttr<K>(m: Meta, table: Table<K>): Result<Attr<K>, DeriveError> {
    var e :- ParseEntry(m);
    var withVal :- TryWithVal(e, table.kvs);
    if withVal.Some? then Ok(Attr(e.key, withVal.value))
    else
      var bare :- TryWithoutVal(e, table.keys);
      if bare.Some? then Ok(Attr(e.key, bare.value))
      else Err(UnexpectedAttr(e.key))
  }

  /** Every entry of one `#[dynomite(...)]` list, in order; the first refusal wins. */
  function ParseAll<K>(ms: seq<Meta>, table: Table<K>): (r: Result<seq<K>, DeriveError>)
    ensures r.Ok? <==> forall i :: 0 <= i < |ms| ==> ParseAttr(ms[i], table).Ok?
    ensures r.Ok? ==> |r.value| == |ms| && forall i :: 0 <= i < |ms| ==> r.value[i] == ParseAttr(ms[i], table).value.kind
  {
    if |ms| == 0 then Ok([])
    else
      var first :- ParseAttr(ms[0], table);
      var rest :- ParseAll(ms[1..], table);
      assert forall i :: 1 <= i < |ms| ==> ms[i] == ms[1..][i - 1];
      Ok([first.kind] + rest)
  }

  /** Entries that each parse give the list of their meanings. */
  lemma ParseAllOk<K>(ms: seq<Meta>, table: Table<K>, kinds: seq<K>)
    requires |ms| == |kinds|
    requires forall i :: 0 <= i < |ms| ==> ParseAttr(ms[i], table).Ok? && ParseAttr(ms[i], table).value.kind == kinds[i]
    ensures ParseAll(ms, table) == Ok(kinds)
  {
    var r := ParseAll(ms, table);
    assert r.Ok?;
    assert r.value == kinds;
  }

  /** `KeyIn(table, key)`: the key appears in the table. */
  ghost predicate KeyIn<V>(table: seq<(string, V)>, key: string) {
    exists i :: 0 <= i < |table| && table[i].0 == key
  }

  /** How any table reads an entry: a parenthesised entry is refused; a
      literal-taking key is accepted exactly when written `key = "lit"` and its
      constructor accepts the literal; a bare key is accepted exactly when
      written alone; any other key is unknown. */
  lemma ParseAttrCases<K>(m: Meta, table: Table<K>)
    ensures m.Call? ==> ParseAttr(m, table) == Err(UnexpectedParen(m.key))
    ensures !m.Call? && KeyIn(table.kvs, m.key) ==>
      var ctor := Lookup(table.kvs, m.key).value;
      && (m.Word? ==> ParseAttr(m, table) == Err(ExpectedValue(m.key)))
      && (m.KeyValue? ==>
            && (ParseAttr(m, table).Ok? <==> ctor(m.lit).Ok?)
            && (ParseAttr(m, table).Ok? ==> ParseAttr(m, table).value == Attr(m.key, ctor(m.lit).value))
            && (ParseAttr(m, table).Err? ==> ParseAttr(m, table).error == ctor(m.lit).error))
    ensures !m.Call? && !KeyIn(table.kvs, m.key) && KeyIn(table.keys, m.key) ==>
      && (m.KeyValue? ==> ParseAttr(m, table) == Err(ExpectedNoValue(m.key)))
      && (m.Word? ==> ParseAttr(m, table) == Ok(Attr(m.key, Lookup(table.keys, m.key).value)))
    ensures !m.Call? && !KeyIn(table.kvs, m.key) && !KeyIn(table.keys, m.key) ==>
      ParseAttr(m, table) == Err(UnexpectedAttr(m.key))
  {
  }

  /** Which keys each field table lists. */
  lemma FieldTableKeys(key: string)
    ensures KeyIn(FieldTable.kvs, key) <==> key == "rename" || key == "skip_serializing_if"
    ensures KeyIn(FieldTable.keys, key) <==> key in {"default", "partition_key", "sort_key", "flatten"}
    ensures key == "rename" ==> Lookup(FieldTable.kvs, key) == Some(FieldTable.kvs[0].1)
    ensures key == "skip_serializing_if" ==> Lookup(FieldTable.kvs, key) == Some(FieldTable.kvs[1].1)
    ensures key == "default" ==> Lookup(FieldTable.keys, key) == Some(Default)
    ensures key == "partition_key" ==> Lookup(FieldTable.keys, key) == Some(PartitionKey)
    ensures key == "sort_key" ==> Lookup(FieldTable.keys, key) == Some(SortKey)
    ensures key == "flatten" ==> Lookup(FieldTable.keys, key) == Some(Flatten)
  {
    var kvs, keys := FieldTable.kvs, FieldTable.keys;
    assert kvs[0].0 == "rename" && kvs[1].0 == "skip_serializing_if";
    assert keys[0].0 == "default" && keys[1].0 == "partition_key";
    assert keys[2].0 == "sort_key" && keys[3].0 == "flatten";
  }

  /** Field directives: `default`, `partition_key`, `sort_key` and `flatten`
      are accepted only bare, `rename` only with a literal, and
      `skip_serializing_if` only with a literal that is a path; other keys and
      parenthesised entries are refused. */
  lemma FieldDirectives(m: Meta)
    ensures ParseAttr(m, FieldTable).Ok? <==>
      || (m.Word? && m.key in {"default", "partition_key", "sort_key", "flatten"})
      || (m.KeyValue? && m.key == "rename")
      || (m.KeyValue? && m.key == "skip_serializing_if" && IsPath(m.lit))
    ensures m.Word? && m.key in {"rename", "skip_serializing_if"} ==>
      ParseAttr(m, FieldTable) == Err(ExpectedValue(m.key))
    ensures m.KeyValue? && m.key in {"default", "partition_key", "sort_key", "flatten"} ==>
      ParseAttr(m, FieldTable) == Err(ExpectedNoValue(m.key))
    ensures m.KeyValue? && m.key == "skip_serializing_if" && !IsPath(m.lit) ==>
      ParseAttr(m, FieldTable) == Err(InvalidPath(m.lit))
    ensures !m.Call? && m.key !in {"rename", "skip_serializing_if", "default", "partition_key", "sort_key", "flatten"} ==>
      ParseAttr(m, FieldTable) == Err(UnexpectedAttr(m.key))
  {
    ParseAttrCases(m, FieldTable);
    FieldTableKeys(m.key);
  }

  /** What each accepted field directive means. */
  lemma FieldDirectiveKinds(m: Meta)
    requires ParseAttr(m, FieldTable).Ok?
    ensures var kind := ParseAttr(m, FieldTable).value.kind;
      && (m.key == "default" <==> kind == Default)
      && (m.key == "partition_key" <==> kind == PartitionKey)
      && (m.key == "sort_key" <==> kind == SortKey)
      && (m.key == "flatten" <==> kind == Flatten)
      && (m.key == "rename" <==> m.KeyValue? && kind == Rename(m.lit))
      && (m.key == "skip_serializing_if" <==> m.KeyValue? && kind == SkipSerializingIf(m.lit))
  {
    ParseAttrCases(m, FieldTable);
    FieldTableKeys(m.key);
  }

  /** At enum level only `tag = "..."` is accepted; at variant level only
      `rename = "..."`. Field-only keys are unknown there. */
  lemma EnumAndVariantDirectives(m: Meta)
    ensures ParseAttr(m, EnumTable).Ok? <==> m.KeyValue? && m.key == "tag"
    ensures m.KeyValue? && m.key == "tag" ==> ParseAttr(m, EnumTable).value.kind == Tag(m.lit)
    ensures ParseAttr(m, VariantTable).Ok? <==> m.KeyValue? && m.key == "rename"
    ensures m.KeyValue? && m.key == "rename" ==> ParseAttr(m, VariantTable).value.kind == VariantRename(m.lit)
    ensures !m.Call? && m.key in {"default", "flatten", "partition_key", "sort_key", "skip_serializing_if"} ==>
      && ParseAttr(m, EnumTable) == Err(UnexpectedAttr(m.key))
      && ParseAttr(m, VariantTable) == Err(UnexpectedAttr(m.key))
  {
    ParseAttrCases(m, EnumTable);
    ParseAttrCases(m, VariantTable);
    assert KeyIn(EnumTable.kvs, "tag") by { assert EnumTable.kvs[0].0 == "tag"; }
    assert KeyIn(VariantTable.kvs, "rename") by { assert VariantTable.kvs[0].0 == "rename"; }
  }

  /** `IdentPrefix` is the length of the run of identifier characters. */
  lemma {:induction false} IdentPrefixIs(s: string, n: nat)
    requires n <= |s| && (forall i :: 0 <= i < n ==> IsIdentChar(s[i]))
    requires n < |s| ==> !IsIdentChar(s[n])
    ensures IdentPrefix(s) == n
    decreases n
  {
    if n > 0 {
      IdentPrefixIs(s[1..], n - 1);
    }
  }

  /** A single identifier is a path. */
  lemma IdentIsPath(s: string)
    requires IsIdent(s) && (|s| < 2 || s[..2] != "::")
    ensures IsPath(s)
  {
    IdentPrefixIs(s, |s|);
    assert s[..|s|] == s;
  }

  /** `a::b` is a path when `a` and `b` are identifiers. */
  lemma TwoSegmentPath(a: string, b: string)
    requires IsIdent(a) && IsIdent(b)
    ensures IsPath(a + "::" + b)
  {
    var s := a + "::" + b;
    IdentPrefixIs(s, |a|);
    assert s[..|a|] == a && s[|a|..|a| + 2] == "::" && s[|a| + 2..] == b;
    IdentPrefixIs(b, |b|);
    assert b[..|b|] == b;
    assert !IsIdentChar(':');
  }

  /** The predicate paths of the skip tests are accepted. */
  lemma PathsAccepted()
    ensures IsPath("is_zero")
    ensures IsPath("str::is_empty")
    ensures IsPath("String::is_empty")
  {
    PredicateIdents();
    TypeIdents();
    IdentIsPath("is_zero");
    TwoSegmentPath("str", "is_empty");
    assert "str" + "::" + "is_empty" == "str::is_empty";
    TwoSegmentPath("String", "is_empty");
    assert "String" + "::" + "is_empty" == "String::is_empty";
  }

  /** The predicate names of the skip tests are not reserved words. */
  lemma PredicateIdents()
    ensures IsIdent("is_zero") && IsIdent("is_empty")
  {
    assert "is_zero" !in Keywords && "is_zero" !in ReservedWords;
    assert "is_empty" !in Keywords && "is_empty" !in ReservedWords;
  }

  /** The type names of the skip tests are not reserved words. */
  lemma TypeIdents()
    ensures IsIdent("str") && IsIdent("String")
  {
    assert "str" !in Keywords && "str" !in ReservedWords;
    assert "String" !in Keywords && "String" !in ReservedWords;
  }

  /** A keyword, an expression and a closure are not paths. */
  lemma PathsRejected()
    ensures !IsPath("true")
    ensures !IsPath("2 + 2")
    ensures !IsPath("|| true")
  {
    IdentPrefixIs("true", 4);
    assert "true"[..4] == "true";
    assert "2 + 2"[0] == '2' && "2 + 2"[1] == ' ';
    IdentPrefixIs("2 + 2", 1);
    assert "|| true"[0] == '|';
    IdentPrefixIs("|| true", 0);
  }
}

=== FILE: errors.dfy ===
/** The runtime error taxonomy of the codec (dynomite/src/error.rs). */
module Errors {

  /** Exactly three runtime error kinds. */
  datatype AttributeError =
    /** The expected field of the AttributeValue is present but its contents are malformed. */
    | InvalidFormat
    /** The AttributeValue does not carry the field the target type expects. */
    | InvalidType
    /** A named attribute the record needs is absent from the map. */
    | MissingField(name: string)

  const InvalidFormatText: string := "Invalid format"
  const InvalidTypeText: string := "Invalid type"
  const MissingFieldPrefix: string := "Missing field "

  /** The `Display` text of an error. */
  function Display(e: AttributeError): (s: string)
    ensures e.MissingField? <==> |s| >= |MissingFieldPrefix| && s[..|MissingFieldPrefix|] == MissingFieldPrefix
    ensures e.MissingField? ==> s[|MissingFieldPrefix|..] == e.name
    ensures e == InvalidFormat ==> s == InvalidFormatText
    ensures e == InvalidType ==> s == InvalidTypeText
  {
    match e
    case InvalidFormat =>
      assert InvalidFormatText[0] != MissingFieldPrefix[0];
      InvalidFormatText
    case InvalidType => InvalidTypeText
    case MissingField(name) => MissingFieldPrefix + name
  }

  /** Distinct errors display differently: the text identifies the error, including the missing name. */
  lemma {:induction false} DisplayInjective(e1: AttributeError, e2: AttributeError)
    requires Display(e1) == Display(e2)
    ensures e1 == e2
  {
    if e1.MissingField? && e2.MissingField? {
      var s := Display(e1);
      assert e1.name == s[|MissingFieldPrefix|..] == e2.name;
    }
  }
}

=== FILE: keys.dfy ===
/** The primary key of an item (dynomite-derive/src/lib.rs:256-351): the
    partition-key field, the optional sort-key field, the `key()` map built
    from them, and the `{Name}Key` struct that holds only them. */
module Keys {
  import opened Base
  import opened Wire
  import opened Schema
  import opened Codec
  import opened Directives
  import opened CodecProps
  import opened MapperProps

  /** The field carries the partition-key marker (with `sort`, the sort-key marker). */
  predicate Marked(f: Field, sort: bool) {
    f.Plain? && (if sort then f.opts.sortKey else f.opts.partitionKey)
  }

  function MarkerName(sort: bool): string {
    if sort then "sort_key" else "partition_key"
  }

  /** The positions of the marked fields, in increasing order. */
  function MarkedIndices(fs: seq<Field>, sort: bool): (r: seq<int>)
    ensures forall i :: i in r <==> 0 <= i < |fs| && Marked(fs[i], sort)
    ensures forall a, b :: 0 <= a < b < |r| ==> r[a] < r[b]
    ensures forall a :: 0 <= a < |r| ==> 0 <= r[a] < |fs|
  {
    if |fs| == 0 then []
    else
      var n := |fs| - 1;
      var before := MarkedIndices(fs[..n], sort);
      assert forall i :: 0 <= i < n ==> fs[..n][i] == fs[i];
      if Marked(fs[n], sort) then before + [n] else before
  }

  /** `field_with_attribute`: the one marked field, none, or a refusal when
      two fields carry the same marker. */
  function FieldWithMarker(fs: seq<Field>, sort: bool): (r: Result<Option<int>, DeriveError>)
    ensures r == Ok(None) <==> forall i :: 0 <= i < |fs| ==> !Marked(fs[i], sort)
    ensures r.Ok? && r.value.Some? ==>
      && 0 <= r.value.value < |fs| && Marked(fs[r.value.value], sort)
      && forall j :: 0 <= j < |fs| && Marked(fs[j], sort) ==> j == r.value.value
    ensures r.Err? <==> exists i, j :: 0 <= i < j < |fs| && Marked(fs[i], sort) && Marked(fs[j], sort)
    ensures r.Err? ==> r.error == DuplicateKeyMarker(MarkerName(sort))
  {
    var idx := MarkedIndices(fs, sort);
    if |idx| == 0 then
      assert forall i :: 0 <= i < |fs| && Marked(fs[i], sort) ==> i in idx;
      Ok(None)
    else if |idx| == 1 then
      OneMarked(fs, sort);
      Ok(Some(idx[0]))
    else
      assert idx[0] in idx && idx[1] in idx;
      Err(DuplicateKeyMarker(MarkerName(sort)))
  }

  lemma OneMarked(fs: seq<Field>, sort: bool)
    requires |MarkedIndices(fs, sort)| == 1
    ensures 0 <= MarkedIndices(fs, sort)[0] < |fs| && Marked(fs[MarkedIndices(fs, sort)[0]], sort)
    ensures forall j :: 0 <= j < |fs| && Marked(fs[j], sort) ==> j == MarkedIndices(fs, sort)[0]
    ensures !exists i, j :: 0 <= i < j < |fs| && Marked(fs[i], sort) && Marked(fs[j], sort)
  {
    var idx := MarkedIndices(fs, sort);
    assert idx[0] in idx;
    forall j | 0 <= j < |fs| && Marked(fs[j], sort) ensures j == idx[0] {
      assert j in idx;
    }
  }

  /** Where the key fields are: the partition key, and the sort key if any. */
  datatype KeySpec = KeySpec(hash: int, range: Option<int>)

  predicate ValidSpec(fs: seq<Field>, spec: KeySpec) {
    && 0 <= spec.hash < |fs| && fs[spec.hash].Plain?
    && (spec.range.Some? ==>
          0 <= spec.range.value < |fs| && fs[spec.range.value].Plain? && spec.range.value != spec.hash)
  }

  /** The key fields of a record: none without a partition key (then neither
      `key()` nor a key struct is generated); a field marked as both keys
      would be declared twice in the key struct, which Rust refuses. */
  function KeyPositions(fs: seq<Field>): (r: Result<Option<KeySpec>, DeriveError>)
    ensures r.Ok? && r.value.Some? ==> ValidSpec(fs, r.value.value)
    ensures r.Ok? && r.value.Some? ==>
      && Marked(fs[r.value.value.hash], false)
      && (r.value.value.range.Some? <==> exists j :: 0 <= j < |fs| && Marked(fs[j], true))
      && (r.value.value.range.Some? ==> Marked(fs[r.value.value.range.value], true))
    ensures r == Ok(None) <==>
      && (forall i :: 0 <= i < |fs| ==> !Marked(fs[i], false))
      && FieldWithMarker(fs, true).Ok?
    ensures FieldWithMarker(fs, false).Err? || FieldWithMarker(fs, true).Err? ==>
      r.Err? && r.error.DuplicateKeyMarker?
    ensures FieldWithMarker(fs, false).Ok? && FieldWithMarker(fs, true).Ok? ==>
      (r.Err? <==> exists i :: 0 <= i < |fs| && Marked(fs[i], false) && Marked(fs[i], true))
  {
    var hash :- FieldWithMarker(fs, false);
    var range :- FieldWithMarker(fs, true);
    if hash.None? then Ok(None)
    else if range.Some? && range.value == hash.value then Err(SameFieldBothKeys(fs[hash.value].ident))
    else Ok(Some(KeySpec(hash.value, range)))
  }

  /** A key field as the key struct declares it: the `rename` stays (the
      key keeps its wire name), every other directive is dropped. */
  function StripDirectives(f: Field): (r: Field)
    requires f.Plain?
    ensures r.Plain? && r.ident == f.ident && r.ty == f.ty && WireName(r) == WireName(f)
    ensures r.opts.skipIf.None? && !r.opts.useDefault && !r.opts.partitionKey && !r.opts.sortKey
  {
    Plain(f.ident, NoOpts.(rename := f.opts.rename), f.ty)
  }

  /** `get_key_struct`: the fields of `{Name}Key`, partition key first. */
  function KeyFields(fs: seq<Field>, spec: KeySpec): (r: seq<Field>)
    requires ValidSpec(fs, spec)
    ensures |r| == if spec.range.Some? then 2 else 1
    ensures r[0] == StripDirectives(fs[spec.hash])
    ensures spec.range.Some? ==> r[1] == StripDirectives(fs[spec.range.value])
  {
    [StripDirectives(fs[spec.hash])]
      + (if spec.range.Some? then [StripDirectives(fs[spec.range.value])] else [])
  }

  /** The key struct's value taken from the record's value. */
  function KeyValues(vs: seq<Val>, spec: KeySpec): (r: seq<Val>)
    requires 0 <= spec.hash < |vs| && (spec.range.Some? ==> 0 <= spec.range.value < |vs|)
    ensures |r| == if spec.range.Some? then 2 else 1
    ensures r[0] == vs[spec.hash]
    ensures spec.range.Some? ==> r[1] == vs[spec.range.value]
  {
    [vs[spec.hash]] + (if spec.range.Some? then [vs[spec.range.value]] else [])
  }

  /** `Item::key`: the partition key, then the sort key, each under its wire
      name and encoded from the record's current value. */
  ghost function KeyOf(fs: seq<Field>, vs: seq<Val>, spec: KeySpec, skip: SkipOracle): (r: Attributes)
    requires ValidSpec(fs, spec) && FieldsConform(fs, vs)
    ensures WireName(fs[spec.hash]) in r
    ensures spec.range.None? ==> r.Keys == {WireName(fs[spec.hash])}
    ensures spec.range.Some? ==> r.Keys == {WireName(fs[spec.hash]), WireName(fs[spec.range.value])}
  {
    KeyValuesConform(fs, vs, spec);
    var h := fs[spec.hash];
    var keys := map[WireName(h) := Encode(h.ty, vs[spec.hash], skip)];
    match spec.range
    case None => keys
    case Some(j) => keys[WireName(fs[j]) := Encode(fs[j].ty, vs[j], skip)]
  }

  lemma KeyValuesConform(fs: seq<Field>, vs: seq<Val>, spec: KeySpec)
    requires ValidSpec(fs, spec) && FieldsConform(fs, vs)
    ensures Conforms(vs[spec.hash], fs[spec.hash].ty)
    ensures spec.range.Some? ==> Conforms(vs[spec.range.value], fs[spec.range.value].ty)
  {
    FieldsConformAt(fs, vs, spec.hash);
    if spec.range.Some? {
      FieldsConformAt(fs, vs, spec.range.value);
    }
  }

  /** The Recipe test: `key()` is exactly what encoding the key struct gives,
      so a renamed key field keeps its wire name in both. */
  lemma KeyIsKeyStructEncoding(fs: seq<Field>, vs: seq<Val>, spec: KeySpec, skip: SkipOracle)
    requires ValidSpec(fs, spec) && FieldsConform(fs, vs)
    ensures FieldsConform(KeyFields(fs, spec), KeyValues(vs, spec))
    ensures KeyOf(fs, vs, spec, skip) == EncodeFields(KeyFields(fs, spec), KeyValues(vs, spec), skip)
  {
    FieldsConformAt(fs, vs, spec.hash);
    var kf, kv := KeyFields(fs, spec), KeyValues(vs, spec);
    var h := fs[spec.hash];
    var eh := map[WireName(h) := Encode(h.ty, vs[spec.hash], skip)];
    assert FieldsConform(kf[|kf|..], kv[|kv|..]);
    assert EncodeFields(kf[|kf|..], kv[|kv|..], skip) == map[];
    if spec.range.Some? {
      var j := spec.range.value;
      FieldsConformAt(fs, vs, j);
      var tail, tv := kf[1..], kv[1..];
      assert tail[1..] == kf[2..] && tv[1..] == kv[2..];
      assert FieldConforms(tail[0], tv[0]) && FieldsConform(tail, tv);
      assert FieldConforms(kf[0], kv[0]) && FieldsConform(kf, kv);
      assert EncodeFields(tail, tv, skip) == map[WireName(fs[j]) := Encode(fs[j].ty, vs[j], skip)] + map[];
      assert EncodeFields(kf, kv, skip) == eh + EncodeFields(tail, tv, skip);
    } else {
      assert FieldConforms(kf[0], kv[0]) && FieldsConform(kf, kv);
      assert EncodeFields(kf, kv, skip) == eh + map[];
    }
  }

  /** `key()` agrees with the full encoding of the item on the key fields,
      as long as neither key field is skipped. */
  lemma KeyIsRestrictedEncoding(fs: seq<Field>, vs: seq<Val>, spec: KeySpec, skip: SkipOracle)
    requires ValidSpec(fs, spec) && FieldsConform(fs, vs)
    requires !HasRest(fs) && Distinct(Names(fs))
    requires !Skipped(fs[spec.hash], vs[spec.hash], skip)
    requires spec.range.Some? ==> !Skipped(fs[spec.range.value], vs[spec.range.value], skip)
    ensures FieldsConform(KeyFields(fs, spec), KeyValues(vs, spec))
    ensures var key, all := KeyOf(fs, vs, spec, skip), EncodeFields(fs, vs, skip);
      forall k :: k in key ==> k in all && all[k] == key[k]
  {
    KeyIsKeyStructEncoding(fs, vs, spec, skip);
    EncodeFieldsAt(fs, vs, skip, spec.hash);
    if spec.range.Some? {
      EncodeFieldsAt(fs, vs, skip, spec.range.value);
      PlainNamesDistinct(fs, spec.hash, spec.range.value);
    }
  }

  /** A one-field list of a plain, well-formed field. */
  lemma OnePlainRecord(a: Field)
    requires a.Plain? && WellFormed(a.ty)
    ensures RecordWellFormed([a]) && Claimed([a]) == {WireName(a)}
    ensures Names([a]) == [WireName(a)] && !HasRest([a])
  {
    var s := [a];
    assert s[1..] == [];
    assert FieldsSize(s) == FieldSize(a) + FieldsSize(s[1..]);
    assert Names(s) == [WireName(a)];
  }

  /** A two-field list of plain, well-formed fields with distinct wire names. */
  lemma TwoPlainRecord(a: Field, b: Field)
    requires a.Plain? && b.Plain? && WellFormed(a.ty) && WellFormed(b.ty)
    requires WireName(a) != WireName(b)
    ensures RecordWellFormed([a, b]) && Claimed([a, b]) == {WireName(a), WireName(b)}
  {
    OnePlainRecord(b);
    var s := [a, b];
    assert s[1..] == [b];
    assert FieldsSize(s) == FieldSize(a) + FieldsSize(s[1..]);
    assert Names(s) == [WireName(a)] + Names([b]);
    assert !HasRest(s);
  }

  /** The key struct is a well-formed record whenever the item is. */
  lemma KeyFieldsWellFormed(fs: seq<Field>, spec: KeySpec)
    requires ValidSpec(fs, spec) && RecordWellFormed(fs)
    ensures RecordWellFormed(KeyFields(fs, spec))
    ensures Claimed(KeyFields(fs, spec)) == KeyNames(fs, spec)
  {
    var kf := KeyFields(fs, spec);
    FieldsWellFormedAt(fs, spec.hash);
    if spec.range.Some? {
      var j := spec.range.value;
      FieldsWellFormedAt(fs, j);
      PlainNamesDistinct(fs, spec.hash, j);
      TwoPlainRecord(kf[0], kf[1]);
      assert kf == [kf[0], kf[1]];
    } else {
      OnePlainRecord(kf[0]);
      assert kf == [kf[0]];
    }
  }

  /** The wire names of the key fields. */
  function KeyNames(fs: seq<Field>, spec: KeySpec): set<string>
    requires ValidSpec(fs, spec)
  {
    {WireName(fs[spec.hash])} + (if spec.range.Some? then {WireName(fs[spec.range.value])} else {})
  }

  /** No skip predicate fires inside the key values. The key fields
      themselves carry none once their directives are stripped. */
  ghost predicate KeyValuesWhole(fs: seq<Field>, vs: seq<Val>, spec: KeySpec, skip: SkipOracle)
    requires ValidSpec(fs, spec) && FieldsConform(fs, vs)
  {
    KeyValuesConform(fs, vs, spec);
    && NothingSkipped(fs[spec.hash].ty, vs[spec.hash], skip)
    && (spec.range.Some? ==> NothingSkipped(fs[spec.range.value].ty, vs[spec.range.value], skip))
  }

  /** Nothing is skipped in the key struct's value when nothing is skipped inside the key values. */
  lemma KeyFieldsWhole(fs: seq<Field>, vs: seq<Val>, spec: KeySpec, skip: SkipOracle)
    requires ValidSpec(fs, spec) && FieldsConform(fs, vs) && KeyValuesWhole(fs, vs, spec, skip)
    ensures FieldsConform(KeyFields(fs, spec), KeyValues(vs, spec))
    ensures FieldsNothingSkipped(KeyFields(fs, spec), KeyValues(vs, spec), skip)
  {
    KeyIsKeyStructEncoding(fs, vs, spec, skip);
    var kf, kv := KeyFields(fs, spec), KeyValues(vs, spec);
    assert FieldConforms(kf[0], kv[0]) && FieldsConform(kf[1..], kv[1..]);
    assert FieldNothingSkipped(kf[0], kv[0], skip);
    if spec.range.Some? {
      var t, tv := kf[1..], kv[1..];
      assert FieldConforms(t[0], tv[0]) && FieldsConform(t[1..], tv[1..]);
      assert FieldNothingSkipped(t[0], tv[0], skip);
      assert t[1..] == [];
      assert FieldsNothingSkipped(t, tv, skip);
    } else {
      assert kf[1..] == [];
    }
  }

  /** `from_attrs(into(key))` gives the key struct back, consuming every entry. */
  lemma KeyStructRoundTrip(fs: seq<Field>, vs: seq<Val>, spec: KeySpec, skip: SkipOracle)
    requires ValidSpec(fs, spec) && RecordWellFormed(fs) && FieldsConform(fs, vs)
    requires KeyValuesWhole(fs, vs, spec, skip)
    ensures FieldsConform(KeyFields(fs, spec), KeyValues(vs, spec))
    ensures var kf, kv := KeyFields(fs, spec), KeyValues(vs, spec);
      DecodeFields(kf, EncodeFields(kf, kv, skip)) == Ok((kv, map[]))
  {
    KeyFieldsWhole(fs, vs, spec, skip);
    KeyFieldsWellFormed(fs, spec);
    RecordRoundTrip(KeyFields(fs, spec), KeyValues(vs, spec), skip);
  }
}

=== FILE: mapper_props.dfy ===
/** What the derived `Into<Attributes>` / `from_attrs` pair promises about a
    record's field list (dynomite-derive/src/lib.rs, extended with the
    `rename`, `default`, `flatten` and `skip_serializing_if` directives). */
module MapperProps {
  import opened Base
  import opened Errors
  import opened Wire
  import opened Schema
  import opened Codec
  import opened CodecProps

  /** Field lists compose: the names of `p + s` are those of `p`, then those of `s`. */
  lemma {:induction false} NamesAppend(p: seq<Field>, s: seq<Field>)
    ensures Names(p + s) == Names(p) + Names(s)
    ensures HasRest(p + s) <==> HasRest(p) || HasRest(s)
    decreases |p|
  {
    if |p| > 0 {
      assert (p + s)[0] == p[0] && (p + s)[1..] == p[1..] + s;
      NamesAppend(p[1..], s);
      assert FieldsSize(p + s) == FieldSize(p[0]) + FieldsSize(p[1..] + s);
    } else {
      assert p + s == s;
    }
  }

  lemma {:induction false} ConformAppend(p: seq<Field>, s: seq<Field>, vp: seq<Val>, vs: seq<Val>)
    requires |p| == |vp|
    ensures FieldsConform(p + s, vp + vs) <==> FieldsConform(p, vp) && FieldsConform(s, vs)
    decreases |p|
  {
    if |p| > 0 {
      assert (p + s)[0] == p[0] && (p + s)[1..] == p[1..] + s;
      assert (vp + vs)[0] == vp[0] && (vp + vs)[1..] == vp[1..] + vs;
      ConformAppend(p[1..], s, vp[1..], vs);
    } else {
      assert p + s == s && vp + vs == vs;
    }
  }

  lemma MapUnionAssoc<K, V>(a: map<K, V>, b: map<K, V>, c: map<K, V>)
    ensures a + (b + c) == (a + b) + c
  {
  }

  /** Encoding a field list is encoding each part, the later part's entries
      winning on a shared key. */
  lemma {:induction false} EncodeFieldsAppend(p: seq<Field>, s: seq<Field>, vp: seq<Val>, vs: seq<Val>, skip: SkipOracle)
    requires FieldsConform(p, vp) && FieldsConform(s, vs)
    ensures FieldsConform(p + s, vp + vs)
    ensures EncodeFields(p + s, vp + vs, skip) == EncodeFields(p, vp, skip) + EncodeFields(s, vs, skip)
    decreases |p|
  {
    ConformAppend(p, s, vp, vs);
    if |p| > 0 {
      var ps, vps := p + s, vp + vs;
      assert FieldsSize(p) == FieldSize(p[0]) + FieldsSize(p[1..]);
      assert FieldConforms(p[0], vp[0]) && FieldsConform(p[1..], vp[1..]);
      assert ps[0] == p[0] && ps[1..] == p[1..] + s;
      assert vps[0] == vp[0] && vps[1..] == vp[1..] + vs;
      EncodeFieldsAppend(p[1..], s, vp[1..], vs, skip);
      var head := EncodeField(p[0], vp[0], skip);
      MapUnionAssoc(head, EncodeFields(p[1..], vp[1..], skip), EncodeFields(s, vs, skip));
    } else {
      assert p + s == s && vp + vs == vs;
      assert EncodeFields(p, vp, skip) == map[];
    }
  }

  /** Decoding is sequential consumption: a field list decodes its first part
      from the map, then its second part from what the first part left. */
  lemma {:induction false} DecodeFieldsAppend(p: seq<Field>, s: seq<Field>, attrs: Attributes)
    ensures DecodeFields(p + s, attrs) ==
      match DecodeFields(p, attrs)
      case Err(e) => Err(e)
      case Ok(first) =>
        match DecodeFields(s, first.1)
        case Err(e) => Err(e)
        case Ok(second) => Ok((first.0 + second.0, second.1))
    decreases |p|
  {
    if |p| == 0 {
      assert p + s == s;
      assert DecodeFields(p, attrs) == Ok(([], attrs));
      var r := DecodeFields(s, attrs);
      if r.Ok? {
        assert [] + r.value.0 == r.value.0;
      }
    } else {
      var ps := p + s;
      assert ps[0] == p[0] && ps[1..] == p[1..] + s;
      var head := DecodeField(p[0], attrs);
      if head.Ok? {
        var left := head.value.1;
        DecodeFieldsAppend(p[1..], s, left);
        var tail := DecodeFields(p[1..], left);
        if tail.Ok? && DecodeFields(s, tail.value.1).Ok? {
          var x, more := head.value.0, DecodeFields(s, tail.value.1).value.0;
          assert [x] + (tail.value.0 + more) == ([x] + tail.value.0) + more;
        }
      }
    }
  }

  /** A field list is its first field followed by the rest, for every
      per-list property. */
  lemma FieldsCons(f: Field, fs: seq<Field>, v: Val, vs: seq<Val>)
    ensures Names([f] + fs) == FieldNames(f) + Names(fs)
    ensures HasRest([f] + fs) <==> FieldHasRest(f) || HasRest(fs)
    ensures FieldsWellFormed([f] + fs) <==> FieldWellFormed(f) && FieldsWellFormed(fs)
    ensures FieldsConform([f] + fs, [v] + vs) <==> FieldConforms(f, v) && FieldsConform(fs, vs)
  {
    var c, cv := [f] + fs, [v] + vs;
    assert c[0] == f && c[1..] == fs && cv[0] == v && cv[1..] == vs;
    assert FieldsSize(c) == FieldSize(f) + FieldsSize(fs);
  }

  /** A record's encoding is its first field's entries overwritten by the rest's. */
  lemma EncodeFieldsCons(f: Field, fs: seq<Field>, v: Val, vs: seq<Val>, skip: SkipOracle)
    requires FieldConforms(f, v) && FieldsConform(fs, vs)
    ensures FieldsConform([f] + fs, [v] + vs)
    ensures EncodeFields([f] + fs, [v] + vs, skip) == EncodeField(f, v, skip) + EncodeFields(fs, vs, skip)
  {
    FieldsCons(f, fs, v, vs);
    var c, cv := [f] + fs, [v] + vs;
    assert c[0] == f && c[1..] == fs && cv[0] == v && cv[1..] == vs;
  }

  /** `FieldsConform` holds field by field. */
  lemma {:induction false} FieldsConformAt(fs: seq<Field>, vs: seq<Val>, i: int)
    requires FieldsConform(fs, vs) && 0 <= i < |fs|
    ensures FieldConforms(fs[i], vs[i])
    decreases i
  {
    assert FieldsSize(fs) == FieldSize(fs[0]) + FieldsSize(fs[1..]);
    if i > 0 {
      FieldsConformAt(fs[1..], vs[1..], i - 1);
      assert fs[1..][i - 1] == fs[i] && vs[1..][i - 1] == vs[i];
    }
  }

  /** A plain field's wire name is among the record's claimed keys. */
  lemma {:induction false} WireNameClaimed(fs: seq<Field>, i: int)
    requires 0 <= i < |fs| && fs[i].Plain?
    ensures WireName(fs[i]) in Claimed(fs)
    decreases i
  {
    ClaimedCons(fs);
    if i == 0 {
      assert WireName(fs[0]) in FieldClaimed(fs[0]);
    } else {
      WireNameClaimed(fs[1..], i - 1);
      assert fs[1..][i - 1] == fs[i];
    }
  }

  /** In a record whose claimed keys are distinct, two plain fields have
      different wire names. */
  lemma {:induction false} PlainNamesDistinct(fs: seq<Field>, i: int, j: int)
    requires Distinct(Names(fs)) && 0 <= i < |fs| && 0 <= j < |fs| && i != j
    requires fs[i].Plain? && fs[j].Plain?
    ensures WireName(fs[i]) != WireName(fs[j])
    decreases i + j
  {
    NamesSplit(fs);
    if i == 0 {
      WireNameClaimed(fs[1..], j - 1);
      assert fs[1..][j - 1] == fs[j];
      assert WireName(fs[0]) in FieldClaimed(fs[0]);
    } else if j == 0 {
      WireNameClaimed(fs[1..], i - 1);
      assert fs[1..][i - 1] == fs[i];
      assert WireName(fs[0]) in FieldClaimed(fs[0]);
    } else {
      PlainNamesDistinct(fs[1..], i - 1, j - 1);
      assert fs[1..][i - 1] == fs[i] && fs[1..][j - 1] == fs[j];
    }
  }

  /** `FieldsWellFormed` holds field by field. */
  lemma {:induction false} FieldsWellFormedAt(fs: seq<Field>, i: int)
    requires FieldsWellFormed(fs) && 0 <= i < |fs|
    ensures FieldWellFormed(fs[i])
    decreases i
  {
    assert FieldsSize(fs) == FieldSize(fs[0]) + FieldsSize(fs[1..]);
    if i > 0 {
      FieldsWellFormedAt(fs[1..], i - 1);
      assert fs[1..][i - 1] == fs[i];
    }
  }

  /** Encoding writes each plain field under its wire name, as that field's
      `into_attr`, unless its skip predicate holds, in which case the name is
      absent; no other field writes there when the names are distinct. */
  lemma {:induction false} EncodeFieldsAt(fs: seq<Field>, vs: seq<Val>, skip: SkipOracle, i: int)
    requires FieldsConform(fs, vs) && !HasRest(fs) && Distinct(Names(fs))
    requires 0 <= i < |fs| && fs[i].Plain?
    ensures Conforms(vs[i], fs[i].ty)
    ensures WireName(fs[i]) in Claimed(fs)
    ensures Skipped(fs[i], vs[i], skip) ==> WireName(fs[i]) !in EncodeFields(fs, vs, skip)
    ensures !Skipped(fs[i], vs[i], skip) ==>
      && WireName(fs[i]) in EncodeFields(fs, vs, skip)
      && EncodeFields(fs, vs, skip)[WireName(fs[i])] == Encode(fs[i].ty, vs[i], skip)
    decreases i
  {
    FieldsConformAt(fs, vs, i);
    WireNameClaimed(fs, i);
    assert FieldsSize(fs) == FieldSize(fs[0]) + FieldsSize(fs[1..]);
    assert FieldConforms(fs[0], vs[0]) && FieldsConform(fs[1..], vs[1..]);
    ClaimedCons(fs);
    NamesSplit(fs);
    var w := WireName(fs[i]);
    var head := EncodeField(fs[0], vs[0], skip);
    var tail := EncodeFields(fs[1..], vs[1..], skip);
    assert EncodeFields(fs, vs, skip) == head + tail;
    if i == 0 {
      assert w in FieldClaimed(fs[0]);
      assert w !in tail;
    } else {
      EncodeFieldsAt(fs[1..], vs[1..], skip, i - 1);
      assert fs[1..][i - 1] == fs[i] && vs[1..][i - 1] == vs[i];
      assert w !in head;
    }
  }

  /** Every field's entries reach the record's map unchanged: a key one
      field claims is written by that field alone when the names are
      distinct. For a flattened record this is the splice into the parent. */
  lemma {:induction false} EncodeFieldsSplice(fs: seq<Field>, vs: seq<Val>, skip: SkipOracle, i: int, k: string)
    requires FieldsConform(fs, vs) && !HasRest(fs) && Distinct(Names(fs))
    requires 0 <= i < |fs| && k in FieldClaimed(fs[i])
    ensures FieldConforms(fs[i], vs[i])
    ensures k in EncodeFields(fs, vs, skip) <==> k in EncodeField(fs[i], vs[i], skip)
    ensures k in EncodeFields(fs, vs, skip) ==> EncodeFields(fs, vs, skip)[k] == EncodeField(fs[i], vs[i], skip)[k]
    decreases i
  {
    FieldsConformAt(fs, vs, i);
    assert FieldsSize(fs) == FieldSize(fs[0]) + FieldsSize(fs[1..]);
    assert FieldConforms(fs[0], vs[0]) && FieldsConform(fs[1..], vs[1..]);
    ClaimedCons(fs);
    NamesSplit(fs);
    var head := EncodeField(fs[0], vs[0], skip);
    var tail := EncodeFields(fs[1..], vs[1..], skip);
    assert EncodeFields(fs, vs, skip) == head + tail;
    if i == 0 {
      assert k !in Claimed(fs[1..]);
    } else {
      assert fs[1..][i - 1] == fs[i] && vs[1..][i - 1] == vs[i];
      EncodeFieldsSplice(fs[1..], vs[1..], skip, i - 1, k);
      assert k in Claimed(fs[1..]) by {
        FieldClaimedIn(fs[1..], i - 1, k);
      }
      assert k !in head;
    }
  }

  /** A key one field claims is claimed by the list. */
  lemma {:induction false} FieldClaimedIn(fs: seq<Field>, i: int, k: string)
    requires 0 <= i < |fs| && k in FieldClaimed(fs[i])
    ensures k in Claimed(fs)
    decreases i
  {
    ClaimedCons(fs);
    if i > 0 {
      assert fs[1..][i - 1] == fs[i];
      FieldClaimedIn(fs[1..], i - 1, k);
    }
  }

  /** Where decoding stops: once the fields before `i` have consumed their
      keys, a plain field whose wire name is missing (and that has no default
      to fall back on) reports `MissingField` with that name, and one whose
      value fails to decode reports the value's error. */
  lemma DecodeFailsAt(fs: seq<Field>, attrs: Attributes, i: int)
    requires 0 <= i < |fs| && fs[i].Plain? && DecodeFields(fs[..i], attrs).Ok?
    ensures var left := DecodeFields(fs[..i], attrs).value.1;
      var w := WireName(fs[i]);
      && (w !in attrs && !(fs[i].opts.useDefault && DefaultOf(fs[i].ty).Some?) ==>
            DecodeFields(fs, attrs) == Err(MissingField(w)))
      && (w in left && Decode(fs[i].ty, left[w]).Err? ==>
            DecodeFields(fs, attrs) == Err(Decode(fs[i].ty, left[w]).error))
  {
    assert fs == fs[..i] + fs[i..];
    DecodeFieldsAppend(fs[..i], fs[i..], attrs);
    var left := DecodeFields(fs[..i], attrs).value.1;
    assert fs[i..][0] == fs[i];
    assert FieldsSize(fs[i..]) == FieldSize(fs[i]) + FieldsSize(fs[i..][1..]);
  }

  /** A `default` field falls back only when its key is absent: a present
      key must still decode. Records and enums have no modelled default, so
      for them the directive still leaves `MissingField`. */
  lemma DefaultOnlyWhenAbsent(f: Field, attrs: Attributes)
    requires f.Plain? && f.opts.useDefault
    ensures var w := WireName(f);
      && (w !in attrs && DefaultOf(f.ty).Some? ==> DecodeField(f, attrs) == Ok((DefaultOf(f.ty).value, attrs)))
      && (w !in attrs && (f.ty.TRecord? || f.ty.TUnitEnum?) ==> DecodeField(f, attrs) == Err(MissingField(w)))
      && (w in attrs ==> (DecodeField(f, attrs).Ok? <==> Decode(f.ty, attrs[w]).Ok?))
  {
  }

  /** Keys that no field claims change nothing: they stay in the residual map. */
  lemma {:induction false} UnclaimedKeysIgnored(fs: seq<Field>, attrs: Attributes, extra: Attributes)
    requires !HasRest(fs) && extra.Keys !! Claimed(fs)
    ensures DecodeFields(fs, attrs + extra) ==
      match DecodeFields(fs, attrs)
      case Ok(r) => Ok((r.0, r.1 + extra))
      case Err(e) => Err(e)
    decreases FieldsSize(fs), 1
  {
    if |fs| == 0 {
    } else {
      assert FieldsSize(fs) == FieldSize(fs[0]) + FieldsSize(fs[1..]);
      ClaimedCons(fs);
      UnclaimedKeysIgnoredByField(fs[0], attrs, extra);
      var head := DecodeField(fs[0], attrs);
      if head.Ok? {
        UnclaimedKeysIgnored(fs[1..], head.value.1, extra);
      }
    }
  }

  lemma {:induction false} UnclaimedKeysIgnoredByField(f: Field, attrs: Attributes, extra: Attributes)
    requires !FieldHasRest(f) && extra.Keys !! FieldClaimed(f)
    ensures DecodeField(f, attrs + extra) ==
      match DecodeField(f, attrs)
      case Ok(r) => Ok((r.0, r.1 + extra))
      case Err(e) => Err(e)
    decreases FieldSize(f), 0
  {
    match f
    case Plain(_, _, _) =>
      var w := WireName(f);
      assert w in FieldClaimed(f);
      assert (attrs + extra) - {w} == (attrs - {w}) + extra;
    case Flat(_, FlatRecord(sub)) =>
      UnclaimedKeysIgnored(sub, attrs, extra);
  }

  /** A record made of a remainder map alone. */
  lemma LoneRemainder(ident: string, extra: Attributes, skip: SkipOracle)
    ensures FieldsConform([Flat(ident, FlatRest)], [VAttrs(extra)])
    ensures EncodeFields([Flat(ident, FlatRest)], [VAttrs(extra)], skip) == extra
    ensures forall left :: DecodeFields([Flat(ident, FlatRest)], left) == Ok(([VAttrs(left)], map[]))
  {
    var last, lv := [Flat(ident, FlatRest)], [VAttrs(extra)];
    assert FieldsSize(last) == FieldSize(last[0]) + FieldsSize(last[1..]);
    assert last[1..] == [] && lv[1..] == [];
    assert FieldConforms(last[0], lv[0]);
    forall left: Attributes ensures DecodeFields(last, left) == Ok(([VAttrs(left)], map[])) {
      assert DecodeField(last[0], left) == Ok((VAttrs(left), map[]));
      assert [VAttrs(left)] + [] == [VAttrs(left)];
    }
  }

  /** A trailing remainder map receives exactly the keys the fields before it
      did not claim. */
  lemma RemainderCapture(prefix: seq<Field>, ident: string, attrs: Attributes)
    requires !HasRest(prefix)
    ensures DecodeFields(prefix + [Flat(ident, FlatRest)], attrs) ==
      match DecodeFields(prefix, attrs)
      case Ok(r) => Ok((r.0 + [VAttrs(attrs - Claimed(prefix))], map[]))
      case Err(e) => Err(e)
  {
    DecodeFieldsAppend(prefix, [Flat(ident, FlatRest)], attrs);
    LoneRemainder(ident, map[], skip := (p: string, v: Val) => false);
  }

  /** With a trailing remainder map, a record still round-trips as long as
      the remainder holds no key the other fields claim. */
  lemma RemainderRoundTrip(prefix: seq<Field>, ident: string, vs: seq<Val>, extra: Attributes, skip: SkipOracle)
    requires RecordWellFormed(prefix) && FieldsConform(prefix, vs) && FieldsNothingSkipped(prefix, vs, skip)
    requires extra.Keys !! Claimed(prefix)
    ensures FieldsConform(prefix + [Flat(ident, FlatRest)], vs + [VAttrs(extra)])
    ensures DecodeFields(prefix + [Flat(ident, FlatRest)],
              EncodeFields(prefix + [Flat(ident, FlatRest)], vs + [VAttrs(extra)], skip))
         == Ok((vs + [VAttrs(extra)], map[]))
  {
    LoneRemainder(ident, extra, skip);
    EncodeFieldsAppend(prefix, [Flat(ident, FlatRest)], vs, [VAttrs(extra)], skip);
    PrefixLeavesExtra(prefix, vs, extra, skip);
    RemainderCapture(prefix, ident, EncodeFields(prefix, vs, skip) + extra);
  }

  /** Decoding a record's encoding with unclaimed entries added gives the
      record back and leaves exactly those entries. */
  lemma PrefixLeavesExtra(prefix: seq<Field>, vs: seq<Val>, extra: Attributes, skip: SkipOracle)
    requires RecordWellFormed(prefix) && FieldsConform(prefix, vs) && FieldsNothingSkipped(prefix, vs, skip)
    requires extra.Keys !! Claimed(prefix)
    ensures DecodeFields(prefix, EncodeFields(prefix, vs, skip) + extra) == Ok((vs, extra))
  {
    var enc := EncodeFields(prefix, vs, skip);
    var all := enc + extra;
    forall k | k in Claimed(prefix) ensures k in all && all[k] == enc[k] {
      assert k !in extra;
    }
    FieldsRoundTrip(prefix, vs, skip, all);
    assert all - Claimed(prefix) == extra;
  }
}

=== FILE: numbers.dfy ===
/** Numbers travel as decimal text: `to_string` to encode and Rust's integer
    `str::parse` to decode, bounded by the target integer type. */
module Numbers {
  import opened Base

  /** The integer types with an `Attribute` impl (floats are not modelled). */
  datatype IntKind = U16 | I16 | U32 | I32 | U64 | I64

  predicate Signed(k: IntKind) {
    k.I16? || k.I32? || k.I64?
  }

  function Min(k: IntKind): int {
    match k
    case U16 => 0
    case U32 => 0
    case U64 => 0
    case I16 => -0x8000
    case I32 => -0x8000_0000
    case I64 => -0x8000_0000_0000_0000
  }

  function Max(k: IntKind): int {
    match k
    case U16 => 0xFFFF
    case U32 => 0xFFFF_FFFF
    case U64 => 0xFFFF_FFFF_FFFF_FFFF
    case I16 => 0x7FFF
    case I32 => 0x7FFF_FFFF
    case I64 => 0x7FFF_FFFF_FFFF_FFFF
  }

  predicate InRange(k: IntKind, x: int) {
    Min(k) <= x <= Max(k)
  }

  predicate IsDigit(c: char) {
    '0' <= c <= '9'
  }

  predicate AllDigits(s: string) {
    forall i :: 0 <= i < |s| ==> IsDigit(s[i])
  }

  function DigitChar(d: nat): (c: char)
    requires d < 10
    ensures IsDigit(c) && DigitValue(c) == d
  {
    (48 + d) as char
  }

  function DigitValue(c: char): nat
    requires IsDigit(c)
  {
    (c as int) - 48
  }

  /** The decimal digits of `n`, most significant first, without leading zeros. */
  function NatDigits(n: nat): (s: string)
    ensures |s| >= 1 && AllDigits(s)
    ensures |s| > 1 ==> s[0] != '0'
    decreases n
  {
    if n < 10 then [DigitChar(n)]
    else NatDigits(n / 10) + [DigitChar(n % 10)]
  }

  /** The value of a string of decimal digits. */
  function DigitsValue(s: string): nat
    requires AllDigits(s)
    decreases |s|
  {
    if |s| == 0 then 0
    else DigitsValue(s[..|s| - 1]) * 10 + DigitValue(s[|s| - 1])
  }

  /** `x.to_string()` for an integer. */
  function ToDecimal(x: int): (s: string)
    ensures |s| >= 1
    ensures x < 0 <==> s[0] == '-'
    ensures x >= 0 ==> AllDigits(s)
  {
    if x < 0 then "-" + NatDigits(-x) else NatDigits(x)
  }

  /** `s.parse::<k>()`: an optional `+` (or `-` for signed types) followed by
      one or more decimal digits whose value fits the type; `None` is the
      parse error. */
  function Parse(k: IntKind, s: string): (r: Option<int>)
    ensures r.Some? ==> InRange(k, r.value)
    ensures r.Some? ==> |s| >= 1
  {
    if |s| == 0 then None
    else
      var negative := s[0] == '-' && Signed(k);
      var digits := if s[0] == '+' || negative then s[1..] else s;
      if |digits| == 0 || !AllDigits(digits) then None
      else
        var v: int := DigitsValue(digits);
        var x := if negative then -v else v;
        if InRange(k, x) then Some(x) else None
  }

  lemma {:induction false} DigitsValueOfNatDigits(n: nat)
    ensures DigitsValue(NatDigits(n)) == n
    decreases n
  {
    var s := NatDigits(n);
    if n >= 10 {
      DigitsValueOfNatDigits(n / 10);
      assert s[..|s| - 1] == NatDigits(n / 10);
    }
  }

  /** Printing then parsing an in-range integer gives it back. */
  lemma ParseToDecimal(k: IntKind, x: int)
    requires InRange(k, x)
    ensures Parse(k, ToDecimal(x)) == Some(x)
  {
    if x < 0 {
      ParseNegative(k, x);
    } else {
      ParseNonNegative(k, x);
    }
  }

  lemma ParseNonNegative(k: IntKind, x: int)
    requires InRange(k, x) && x >= 0
    ensures Parse(k, ToDecimal(x)) == Some(x)
  {
    var s := NatDigits(x);
    assert ToDecimal(x) == s;
    assert s[0] != '-' && s[0] != '+';
    DigitsValueOfNatDigits(x);
  }

  lemma ParseNegative(k: IntKind, x: int)
    requires InRange(k, x) && x < 0
    ensures Parse(k, ToDecimal(x)) == Some(x)
  {
    var s := ToDecimal(x);
    assert Signed(k);
    assert s[0] == '-';
    DigitsValueOfNatDigits(-x);
    assert s[1..] == NatDigits(-x);
  }

  /** Printing is injective, so distinct numbers never share a wire text. */
  lemma ToDecimalInjective(x: int, y: int)
    requires ToDecimal(x) == ToDecimal(y)
    ensures x == y
  {
    if x < 0 {
      DigitsValueOfNatDigits(-x);
      DigitsValueOfNatDigits(-y);
      assert ToDecimal(x)[1..] == NatDigits(-x);
      assert ToDecimal(y)[1..] == NatDigits(-y);
    } else {
      DigitsValueOfNatDigits(x);
      DigitsValueOfNatDigits(y);
    }
  }

  /** The text after an optional leading sign. */
  function Unsigned(s: string): string {
    if |s| > 0 && (s[0] == '+' || s[0] == '-') then s[1..] else s
  }

  /** Every text `parse` refuses, for every integer type: empty text, a
      lone sign, a minus sign for an unsigned type, a character that is not
      a decimal digit after the optional sign, and digits whose value (with
      its sign) falls outside the type. */
  lemma ParseRefuses(k: IntKind, s: string)
    ensures |s| == 0 ==> Parse(k, s) == None
    ensures s == "+" || s == "-" ==> Parse(k, s) == None
    ensures |s| > 0 && s[0] == '-' && !Signed(k) ==> Parse(k, s) == None
    ensures !AllDigits(Unsigned(s)) ==> Parse(k, s) == None
    ensures AllDigits(s) && |s| > 0 && !InRange(k, DigitsValue(s)) ==>
      Parse(k, s) == None && Parse(k, "+" + s) == None
    ensures AllDigits(s) && |s| > 0 && !InRange(k, -(DigitsValue(s) as int)) ==> Parse(k, "-" + s) == None
  {
    RefusesMalformed(k, s);
    if AllDigits(s) && |s| > 0 {
      RefusesOutOfRange(k, s);
    }
  }

  lemma RefusesMalformed(k: IntKind, s: string)
    ensures s == "+" || s == "-" ==> Parse(k, s) == None
    ensures |s| > 0 && s[0] == '-' && !Signed(k) ==> Parse(k, s) == None
    ensures !AllDigits(Unsigned(s)) ==> Parse(k, s) == None
  {
    if |s| > 0 && s[0] == '-' && !Signed(k) {
      assert !IsDigit(s[0]);
      assert !AllDigits(s);
    }
  }

  lemma RefusesOutOfRange(k: IntKind, s: string)
    requires AllDigits(s) && |s| > 0
    ensures !InRange(k, DigitsValue(s)) ==> Parse(k, s) == None && Parse(k, "+" + s) == None
    ensures !InRange(k, -(DigitsValue(s) as int)) ==> Parse(k, "-" + s) == None
  {
    assert IsDigit(s[0]);
    assert ("+" + s)[1..] == s && ("-" + s)[1..] == s;
    if !Signed(k) {
      assert !AllDigits("-" + s) by { assert !IsDigit(("-" + s)[0]); }
    }
  }

  /** Every text `parse` accepts beyond the canonical one: digits with
      leading zeros, a leading `+`, and a `-` for a signed type, each giving
      the value of its digits with its sign. */
  lemma ParseAccepts(k: IntKind, d: string)
    requires AllDigits(d) && |d| > 0
    ensures InRange(k, DigitsValue(d)) ==>
      Parse(k, d) == Some(DigitsValue(d)) && Parse(k, "+" + d) == Some(DigitsValue(d))
    ensures Signed(k) && InRange(k, -(DigitsValue(d) as int)) ==> Parse(k, "-" + d) == Some(-(DigitsValue(d) as int))
  {
    assert IsDigit(d[0]);
    assert ("+" + d)[1..] == d && ("-" + d)[1..] == d;
  }

  /** Worked examples of `ParseRefuses`: "abc" and "-1" as u32, "65536" as
      u16, "-" as i32 and "" as u32. */
  lemma ParseRejects()
    ensures Parse(U32, "abc") == None
    ensures Parse(U16, "65536") == None
    ensures Parse(U32, "-1") == None
    ensures Parse(I32, "-") == None
    ensures Parse(U32, "") == None
  {
    assert "65536"[..4] == "6553";
    assert "6553"[..3] == "655";
    assert "655"[..2] == "65";
    assert "65"[..1] == "6";
    assert "-1"[1..] == "1";
  }

  /** Worked examples of `ParseAccepts`: "+7" as u32 and "-007" as i16. */
  lemma ParseAcceptsSignAndLeadingZeros()
    ensures Parse(U32, "+7") == Some(7)
    ensures Parse(I16, "-007") == Some(-7)
  {
    assert "+7"[1..] == "7";
    assert "7"[..0] == "";
    assert "-007"[1..] == "007";
    assert "007"[..2] == "00";
    assert "00"[..1] == "0";
  }
}

=== FILE: schema.dfy ===
/** Type descriptors and native values. A `Ty` stands for a Rust type with an
    `Attribute` impl; `TRecord` stands for a struct whose `Into<Attributes>`
    and `FromAttributes` impls are derived from its ordered field list. */
module Schema {
  import opened Base
  import opened Wire
  import opened Numbers

  datatype Ty =
    | TString                         // String and Cow<str>
    | TBool                           // bool
    | TBinary                         // Vec<u8>
    | TInt(kind: IntKind)             // u16 .. i64
    | TStringSet                      // HashSet<String>, BTreeSet<String>
    | TBinarySet                      // HashSet<Vec<u8>>
    | TNumberSet(kind: IntKind)       // HashSet / BTreeSet of an integer type
    | TList(elem: Ty)                 // Vec<A>
    | TOption(inner: Ty)              // Option<T>
    | TMap(elem: Ty)                  // HashMap<String, A>, BTreeMap<String, A>
    | TRecord(fields: seq<Field>)     // a derived struct, nested under `m`
    | TUnitEnum(variants: seq<string>) // a derived unit-only enum
    | TAttrs                          // the raw `Attributes` map

  /** What the directives other than `flatten` say about a field. */
  datatype Opts = Opts(
    rename: Option<string>,
    useDefault: bool,
    partitionKey: bool,
    sortKey: bool,
    skipIf: Option<string>)

  const NoOpts: Opts := Opts(None, false, false, false, None)

  datatype Field =
    /** A field stored under its wire name. */
    | Plain(ident: string, opts: Opts, ty: Ty)
    /** A `flatten` field: its entries are spliced into the parent map. */
    | Flat(ident: string, target: FlatTarget)

  datatype FlatTarget =
    /** A nested derived struct, which claims the keys of its own fields. */
    | FlatRecord(fields: seq<Field>)
    /** An `Attributes` map, which claims every key still unclaimed. */
    | FlatRest

  /** A native value; a record holds its field values in declaration order. */
  datatype Val =
    | VStr(str: string)
    | VBool(flag: bool)
    | VBytes(bytes: Bytes)
    | VInt(num: int)
    | VStrSet(strs: set<string>)
    | VBytesSet(blobs: set<Bytes>)
    | VIntSet(nums: set<int>)
    | VList(items: seq<Val>)
    | VOpt(opt: Option<Val>)
    | VMap(entries: map<string, Val>)
    | VRecord(fields: seq<Val>)
    | VVariant(name: string)
    | VAttrs(attrs: Attributes)

  function TySize(t: Ty): nat
    decreases t
  {
    match t
    case TList(e) => 1 + TySize(e)
    case TOption(i) => 1 + TySize(i)
    case TMap(e) => 1 + TySize(e)
    case TRecord(fs) => 1 + FieldsSize(fs)
    case _ => 1
  }

  function FieldSize(f: Field): (r: nat)
    ensures r >= 1
    decreases f
  {
    match f
    case Plain(_, _, ty) => 1 + TySize(ty)
    case Flat(_, FlatRecord(sub)) => 1 + FieldsSize(sub)
    case Flat(_, FlatRest) => 1
  }

  function FieldsSize(fs: seq<Field>): nat
    decreases fs
  {
    if |fs| == 0 then 0 else FieldSize(fs[0]) + FieldsSize(fs[1..])
  }

  /** The field of the AttributeValue that decoding `t` reads. */
  function SlotOf(t: Ty): Slot
    decreases t
  {
    match t
    case TString => SlotS
    case TBool => SlotBool
    case TBinary => SlotB
    case TInt(_) => SlotN
    case TStringSet => SlotSS
    case TBinarySet => SlotBS
    case TNumberSet(_) => SlotNS
    case TList(_) => SlotL
    case TOption(i) => SlotOf(i)
    case TMap(_) => SlotM
    case TRecord(_) => SlotM
    case TUnitEnum(_) => SlotS
    case TAttrs => SlotM
  }

  /** The key a plain field is stored under: its `rename`, else its identifier. */
  function WireName(f: Field): string
    requires f.Plain?
  {
    match f.opts.rename
    case Some(name) => name
    case None => f.ident
  }

  /** The keys one field claims: its wire name, or for a flattened record
      the keys of its own fields; a remainder map claims no fixed key. */
  function FieldNames(f: Field): seq<string>
    decreases FieldSize(f), 0
  {
    match f
    case Plain(_, _, _) => [WireName(f)]
    case Flat(_, FlatRecord(sub)) => Names(sub)
    case Flat(_, FlatRest) => []
  }

  /** Every key the fields claim, nested flatten fields included, in declaration order. */
  function Names(fs: seq<Field>): seq<string>
    decreases FieldsSize(fs), 1
  {
    if |fs| == 0 then []
    else
      assert FieldsSize(fs) == FieldSize(fs[0]) + FieldsSize(fs[1..]);
      FieldNames(fs[0]) + Names(fs[1..])
  }

  function FieldClaimed(f: Field): set<string> {
    set k | k in FieldNames(f)
  }

  function Claimed(fs: seq<Field>): set<string> {
    set k | k in Names(fs)
  }

  /** The field is, or contains through flattening, a remainder map. */
  predicate FieldHasRest(f: Field)
    decreases FieldSize(f), 0
  {
    match f
    case Plain(_, _, _) => false
    case Flat(_, FlatRecord(sub)) => HasRest(sub)
    case Flat(_, FlatRest) => true
  }

  /** Some field, possibly a nested flatten one, is a remainder map. */
  predicate HasRest(fs: seq<Field>)
    decreases FieldsSize(fs), 1
  {
    if |fs| == 0 then false
    else
      assert FieldsSize(fs) == FieldSize(fs[0]) + FieldsSize(fs[1..]);
      FieldHasRest(fs[0]) || HasRest(fs[1..])
  }

  /** `v` is a value of the Rust type `t` (integers within the type's range). */
  ghost predicate Conforms(v: Val, t: Ty)
    decreases TySize(t), 0
  {
    match t
    case TString => v.VStr?
    case TBool => v.VBool?
    case TBinary => v.VBytes?
    case TInt(k) => v.VInt? && InRange(k, v.num)
    case TStringSet => v.VStrSet?
    case TBinarySet => v.VBytesSet?
    case TNumberSet(k) => v.VIntSet? && forall x :: x in v.nums ==> InRange(k, x)
    case TList(e) => v.VList? && forall i :: 0 <= i < |v.items| ==> Conforms(v.items[i], e)
    case TOption(i) => v.VOpt? && (v.opt.Some? ==> Conforms(v.opt.value, i))
    case TMap(e) => v.VMap? && forall k :: k in v.entries ==> Conforms(v.entries[k], e)
    case TRecord(fs) => v.VRecord? && FieldsConform(fs, v.fields)
    case TUnitEnum(names) => v.VVariant? && v.name in names
    case TAttrs => v.VAttrs?
  }

  ghost predicate FieldsConform(fs: seq<Field>, vs: seq<Val>)
    decreases FieldsSize(fs), 1
  {
    && |fs| == |vs|
    && (|fs| > 0 ==>
         assert FieldsSize(fs) == FieldSize(fs[0]) + FieldsSize(fs[1..]);
         && FieldConforms(fs[0], vs[0])
         && FieldsConform(fs[1..], vs[1..]))
  }

  ghost predicate FieldConforms(f: Field, v: Val)
    decreases FieldSize(f), 0
  {
    match f
    case Plain(_, _, ty) => Conforms(v, ty)
    case Flat(_, FlatRecord(sub)) => v.VRecord? && FieldsConform(sub, v.fields)
    case Flat(_, FlatRest) => v.VAttrs?
  }

  /** `Default::default()` of the standard types; records and enums have
      user-written Default impls, which are not modelled. */
  function DefaultOf(t: Ty): (r: Option<Val>)
    ensures r.Some? ==> Conforms(r.value, t)
    ensures t.TRecord? || t.TUnitEnum? ==> r.None?
  {
    match t
    case TString => Some(VStr(""))
    case TBool => Some(VBool(false))
    case TBinary => Some(VBytes([]))
    case TInt(_) => Some(VInt(0))
    case TStringSet => Some(VStrSet({}))
    case TBinarySet => Some(VBytesSet({}))
    case TNumberSet(_) => Some(VIntSet({}))
    case TList(_) => Some(VList([]))
    case TOption(_) => Some(VOpt(None))
    case TMap(_) => Some(VMap(map[]))
    case TAttrs => Some(VAttrs(map[]))
    case TRecord(_) => None
    case TUnitEnum(_) => None
  }

  /** The schemas for which encoding then decoding gives the value back: no
      `Option<Option<T>>` (both `None` and `Some(None)` encode as the empty
      value) and, in records, no remainder map and no key claimed twice. */
  ghost predicate WellFormed(t: Ty)
    decreases TySize(t), 1
  {
    match t
    case TList(e) => WellFormed(e)
    case TMap(e) => WellFormed(e)
    case TOption(i) => !i.TOption? && WellFormed(i)
    case TRecord(fs) => RecordWellFormed(fs)
    case _ => true
  }

  ghost predicate RecordWellFormed(fs: seq<Field>)
    decreases FieldsSize(fs), 2
  {
    !HasRest(fs) && Distinct(Names(fs)) && FieldsWellFormed(fs)
  }

  ghost predicate FieldsWellFormed(fs: seq<Field>)
    decreases FieldsSize(fs), 1
  {
    |fs| > 0 ==>
      assert FieldsSize(fs) == FieldSize(fs[0]) + FieldsSize(fs[1..]);
      FieldWellFormed(fs[0]) && FieldsWellFormed(fs[1..])
  }

  ghost predicate FieldWellFormed(f: Field)
    decreases FieldSize(f), 0
  {
    match f
    case Plain(_, _, ty) => WellFormed(ty)
    case Flat(_, FlatRecord(sub)) => FieldsWellFormed(sub)
    case Flat(_, FlatRest) => true
  }
}

=== FILE: skip_tests.dfy ===
/** The `skip_serializing_if` test (dynomite/tests/integration/skip_serializing_if.rs):
    Blackjack's derived `Into<Attributes>` leaves out the deck when it is zero
    and, inside the nested Gamer, the empty name; the empty label, which has
    no predicate, is kept. */
module SkipTests {
  import opened Base
  import opened Errors
  import opened Wire
  import opened Numbers
  import opened Schema
  import opened Codec
  import opened Directives
  import opened Derive
  import opened AttrMaps
  import opened MapperProps
  import opened DeriveExamples

  /** The three predicates the test names: `is_zero` on a `u32`, and
      `String::is_empty` and `str::is_empty` on a string (the second reached
      through auto-deref). Any other path never skips. */
  const BlackjackSkip: SkipOracle := (path: string, v: Val) =>
    || (path == "is_zero" && v == VInt(0))
    || ((path == "String::is_empty" || path == "str::is_empty") && v == VStr(""))

  const GamerFields: seq<Field> := [
    Plain("name", NoOpts.(skipIf := Some("String::is_empty")), TString),
    Plain("surname", NoOpts.(skipIf := Some("str::is_empty")), TString),
    Plain("label", NoOpts, TString)]

  const BlackjackFields: seq<Field> := [
    Plain("card", NoOpts.(partitionKey := true), TString),
    Plain("deck", NoOpts.(skipIf := Some("is_zero")), TInt(U32)),
    Plain("gamer", NoOpts, TRecord(GamerFields))]

  /** A field whose only directive is `skip_serializing_if` with a path. */
  lemma SkipDirectiveBuilt(ident: string, path: string, ty: Ty)
    requires IsPath(path)
    ensures BuildField(FieldDecl(ident, [KeyValue("skip_serializing_if", path)], ty))
      == Ok(Plain(ident, NoOpts.(skipIf := Some(path)), ty))
  {
    var m := KeyValue("skip_serializing_if", path);
    FieldDirectives(m);
    FieldDirectiveKinds(m);
    ParseAllOk([m], FieldTable, [SkipSerializingIf(path)]);
  }

  lemma EncodeOne(f: Field, v: Val, skip: SkipOracle)
    requires FieldConforms(f, v)
    ensures FieldsConform([f], [v])
    ensures EncodeFields([f], [v], skip) == EncodeField(f, v, skip)
  {
    assert FieldsConform([], []) && EncodeFields([], [], skip) == map[];
    EncodeFieldsCons(f, [], v, [], skip);
    assert [f] + [] == [f] && [v] + [] == [v];
    assert EncodeField(f, v, skip) + map[] == EncodeField(f, v, skip);
  }

  lemma EncodeTwo(f0: Field, f1: Field, v0: Val, v1: Val, skip: SkipOracle)
    requires FieldConforms(f0, v0) && FieldConforms(f1, v1)
    ensures FieldsConform([f0, f1], [v0, v1])
    ensures EncodeFields([f0, f1], [v0, v1], skip) == EncodeField(f0, v0, skip) + EncodeField(f1, v1, skip)
  {
    EncodeOne(f1, v1, skip);
    EncodeFieldsCons(f0, [f1], v0, [v1], skip);
    assert [f0] + [f1] == [f0, f1] && [v0] + [v1] == [v0, v1];
  }

  /** A three-field record's encoding is the union of its fields' entries,
      later fields winning. */
  lemma EncodeThree(f0: Field, f1: Field, f2: Field, v0: Val, v1: Val, v2: Val, skip: SkipOracle)
    requires FieldConforms(f0, v0) && FieldConforms(f1, v1) && FieldConforms(f2, v2)
    ensures FieldsConform([f0, f1, f2], [v0, v1, v2])
    ensures EncodeFields([f0, f1, f2], [v0, v1, v2], skip)
      == EncodeField(f0, v0, skip) + EncodeField(f1, v1, skip) + EncodeField(f2, v2, skip)
  {
    EncodeTwo(f1, f2, v1, v2, skip);
    EncodeFieldsCons(f0, [f1, f2], v0, [v1, v2], skip);
    assert [f0] + [f1, f2] == [f0, f1, f2] && [v0] + [v1, v2] == [v0, v1, v2];
    MapUnionAssoc(EncodeField(f0, v0, skip), EncodeField(f1, v1, skip), EncodeField(f2, v2, skip));
  }

  /** A plain field's entry when its skip predicate does not fire. */
  lemma KeptEntry(f: Field, v: Val, skip: SkipOracle)
    requires f.Plain? && FieldConforms(f, v) && !Skipped(f, v, skip)
    ensures EncodeField(f, v, skip) == map[WireName(f) := Encode(f.ty, v, skip)]
  {
  }

  /** A plain field's entry when its skip predicate fires: none. */
  lemma SkippedEntry(f: Field, v: Val, skip: SkipOracle)
    requires f.Plain? && FieldConforms(f, v) && Skipped(f, v, skip)
    ensures EncodeField(f, v, skip) == map[]
  {
  }

  lemma JoinEntries(k1: string, a: AttributeValue, k2: string, b: AttributeValue)
    ensures map[k1 := a] + map[] + map[k2 := b] == map[k1 := a, k2 := b]
  {
  }

  /** The Gamer of the test: empty name, surname "Fish", empty label. */
  const SmokeGamer: seq<Val> := [VStr(""), VStr("Fish"), VStr("")]

  const SmokeBlackjack: seq<Val> := [VStr("ace"), VInt(0), VRecord(SmokeGamer)]

  /** The nested `attr_map!` of the test. */
  const ExpectedGamer: Attributes := map["surname" := Empty.(s := Some("Fish")), "label" := Empty.(s := Some(""))]

  /** The outer `attr_map!` of the test. */
  const ExpectedBlackjack: Attributes := map["card" := Empty.(s := Some("ace")), "gamer" := Empty.(m := Some(ExpectedGamer))]

  /** The two constants are what the test's `attr_map!` invocations build. */
  lemma ExpectedMaps()
    ensures AttrMap([("surname", Empty.(s := Some("Fish"))), ("label", Empty.(s := Some("")))]) == ExpectedGamer
    ensures AttrMap([("card", Empty.(s := Some("ace"))), ("gamer", Empty.(m := Some(ExpectedGamer)))]) == ExpectedBlackjack
  {
    TwoKeys("surname", Empty.(s := Some("Fish")), "label", Empty.(s := Some("")));
    TwoKeys("card", Empty.(s := Some("ace")), "gamer", Empty.(m := Some(ExpectedGamer)));
  }

  /** A three-field record whose first field is left out and whose other two are kept. */
  lemma SkipKeepKeep(f0: Field, f1: Field, f2: Field, v0: Val, v1: Val, v2: Val, skip: SkipOracle)
    requires f0.Plain? && f1.Plain? && f2.Plain?
    requires FieldConforms(f0, v0) && FieldConforms(f1, v1) && FieldConforms(f2, v2)
    requires Skipped(f0, v0, skip) && !Skipped(f1, v1, skip) && !Skipped(f2, v2, skip)
    ensures FieldsConform([f0, f1, f2], [v0, v1, v2])
    ensures EncodeFields([f0, f1, f2], [v0, v1, v2], skip)
      == map[WireName(f1) := Encode(f1.ty, v1, skip), WireName(f2) := Encode(f2.ty, v2, skip)]
  {
    EncodeThree(f0, f1, f2, v0, v1, v2, skip);
    SkippedEntry(f0, v0, skip);
    KeptEntry(f1, v1, skip);
    KeptEntry(f2, v2, skip);
  }

  /** A three-field record whose middle field is left out and whose other two are kept. */
  lemma KeepSkipKeep(f0: Field, f1: Field, f2: Field, v0: Val, v1: Val, v2: Val, skip: SkipOracle)
    requires f0.Plain? && f1.Plain? && f2.Plain?
    requires FieldConforms(f0, v0) && FieldConforms(f1, v1) && FieldConforms(f2, v2)
    requires !Skipped(f0, v0, skip) && Skipped(f1, v1, skip) && !Skipped(f2, v2, skip)
    ensures FieldsConform([f0, f1, f2], [v0, v1, v2])
    ensures EncodeFields([f0, f1, f2], [v0, v1, v2], skip)
      == map[WireName(f0) := Encode(f0.ty, v0, skip), WireName(f2) := Encode(f2.ty, v2, skip)]
  {
    EncodeThree(f0, f1, f2, v0, v1, v2, skip);
    KeptEntry(f0, v0, skip);
    SkippedEntry(f1, v1, skip);
    KeptEntry(f2, v2, skip);
    JoinEntries(WireName(f0), Encode(f0.ty, v0, skip), WireName(f2), Encode(f2.ty, v2, skip));
  }

  /** The nested Gamer: the empty name is left out, surname and the empty label are kept. */
  lemma GamerSkips()
    ensures FieldsConform(GamerFields, SmokeGamer)
    ensures EncodeFields(GamerFields, SmokeGamer, BlackjackSkip) == ExpectedGamer
  {
    var g, v := GamerFields, SmokeGamer;
    assert FieldConforms(g[0], v[0]) && FieldConforms(g[1], v[1]) && FieldConforms(g[2], v[2]);
    assert Skipped(g[0], v[0], BlackjackSkip) && !Skipped(g[1], v[1], BlackjackSkip) && !Skipped(g[2], v[2], BlackjackSkip);
    SkipKeepKeep(g[0], g[1], g[2], v[0], v[1], v[2], BlackjackSkip);
  }

  /** The gamer field's value is the Gamer encoding nested under `m`. */
  lemma GamerNested()
    ensures Conforms(VRecord(SmokeGamer), TRecord(GamerFields))
    ensures Encode(TRecord(GamerFields), VRecord(SmokeGamer), BlackjackSkip) == Empty.(m := Some(ExpectedGamer))
  {
    GamerSkips();
  }

  /** `smoke_test`: the encoding equals the test's `attr_map!` literal, with
      no "deck" and, under "gamer", no "name". */
  lemma SmokeTest()
    ensures FieldsConform(BlackjackFields, SmokeBlackjack)
    ensures EncodeFields(BlackjackFields, SmokeBlackjack, BlackjackSkip) == ExpectedBlackjack
    ensures ExpectedBlackjack.Keys == {"card", "gamer"} && ExpectedGamer.Keys == {"surname", "label"}
  {
    var b, v := BlackjackFields, SmokeBlackjack;
    BlackjackSkips();
    KeepSkipKeep(b[0], b[1], b[2], v[0], v[1], v[2], BlackjackSkip);
    BlackjackEntries();
  }

  /** The card and the gamer are kept, the zero deck is skipped. */
  lemma BlackjackSkips()
    ensures var b, v := BlackjackFields, SmokeBlackjack;
      && b[0].Plain? && b[1].Plain? && b[2].Plain?
      && FieldConforms(b[0], v[0]) && FieldConforms(b[1], v[1]) && FieldConforms(b[2], v[2])
      && !Skipped(b[0], v[0], BlackjackSkip) && Skipped(b[1], v[1], BlackjackSkip) && !Skipped(b[2], v[2], BlackjackSkip)
  {
    GamerNested();
  }

  /** The two kept entries are those of the test's literal. */
  lemma BlackjackEntries()
    ensures var b, v := BlackjackFields, SmokeBlackjack;
      Conforms(v[0], b[0].ty) && Conforms(v[2], b[2].ty) &&
      map[WireName(b[0]) := Encode(b[0].ty, v[0], BlackjackSkip), WireName(b[2]) := Encode(b[2].ty, v[2], BlackjackSkip)]
        == ExpectedBlackjack
  {
    GamerNested();
    assert Encode(TString, VStr("ace"), BlackjackSkip) == Empty.(s := Some("ace"));
  }

  /** Reading the smoke test's encoding back fails: the skipped deck has no
      `default`, so `from_attrs` reports it missing. */
  lemma SkippedFieldNotRecovered()
    ensures FieldsConform(BlackjackFields, SmokeBlackjack)
    ensures DecodeFields(BlackjackFields, ExpectedBlackjack) == Err(MissingField("deck"))
  {
    SmokeTest();
    var attrs, b := ExpectedBlackjack, BlackjackFields;
    assert DecodeField(b[0], attrs) == Ok((VStr("ace"), attrs - {"card"}));
    assert b[1..][0] == b[1];
    assert DecodeField(b[1], attrs - {"card"}) == Err(MissingField("deck"));
  }
}

=== FILE: wire.dfy ===
/** The store's wire value: rusoto's `AttributeValue`, a record of ten optional
    fields rather than a closed union. The Rust fields `bool` and `null` are
    called `boolean` and `isNull` here. */
module Wire {
  import opened Base

  type Bytes = seq<bv8>

  datatype AttributeValue = AttributeValue(
    s: Option<string>,
    n: Option<string>,
    b: Option<Bytes>,
    boolean: Option<bool>,
    isNull: Option<bool>,
    ss: Option<seq<string>>,
    ns: Option<seq<string>>,
    bs: Option<seq<Bytes>>,
    l: Option<seq<AttributeValue>>,
    m: Option<map<string, AttributeValue>>)

  /** A map of named attribute values (lib.rs `Attributes`). */
  type Attributes = map<string, AttributeValue>

  /** `AttributeValue::default()`: every field absent. */
  const Empty: AttributeValue :=
    AttributeValue(None, None, None, None, None, None, None, None, None, None)

  /** Names the field of an AttributeValue a decoder reads. (`isNull` is read by no decoder.) */
  datatype Slot = SlotS | SlotN | SlotB | SlotBool | SlotSS | SlotNS | SlotBS | SlotL | SlotM

  predicate Present(av: AttributeValue, slot: Slot) {
    match slot
    case SlotS => av.s.Some?
    case SlotN => av.n.Some?
    case SlotB => av.b.Some?
    case SlotBool => av.boolean.Some?
    case SlotSS => av.ss.Some?
    case SlotNS => av.ns.Some?
    case SlotBS => av.bs.Some?
    case SlotL => av.l.Some?
    case SlotM => av.m.Some?
  }

  /** The two values agree on the given field. */
  predicate SameAt(a1: AttributeValue, a2: AttributeValue, slot: Slot) {
    match slot
    case SlotS => a1.s == a2.s
    case SlotN => a1.n == a2.n
    case SlotB => a1.b == a2.b
    case SlotBool => a1.boolean == a2.boolean
    case SlotSS => a1.ss == a2.ss
    case SlotNS => a1.ns == a2.ns
    case SlotBS => a1.bs == a2.bs
    case SlotL => a1.l == a2.l
    case SlotM => a1.m == a2.m
  }

  /** No field other than `slot` is set (the `..AttributeValue::default()` idiom). */
  predicate OnlyAt(av: AttributeValue, slot: Slot) {
    && av.isNull.None?
    && (av.s.Some? ==> slot == SlotS)
    && (av.n.Some? ==> slot == SlotN)
    && (av.b.Some? ==> slot == SlotB)
    && (av.boolean.Some? ==> slot == SlotBool)
    && (av.ss.Some? ==> slot == SlotSS)
    && (av.ns.Some? ==> slot == SlotNS)
    && (av.bs.Some? ==> slot == SlotBS)
    && (av.l.Some? ==> slot == SlotL)
    && (av.m.Some? ==> slot == SlotM)
  }

  lemma OnlyAtExcludes(av: AttributeValue, slot: Slot, other: Slot)
    requires OnlyAt(av, slot) && other != slot
    ensures !Present(av, other)
    ensures av.isNull.None?
  {
  }
}
